=== FILE: README.md ===
# Whammy 4 footswitch firmware, modelled in Dafny

The firmware runs on an RP2040 board and remote-controls a DigiTech Whammy 4.
It uses one footswitch, sometimes a second switch (the "access" pin or the
layer switch) and a potentiometer. It speaks MIDI Program Change and
Control Change, and some variants also switch a pair of relays that route
the guitar signal through the Whammy (WET) or around it (DRY). Every
variant is a flat script: module-level state and one polling loop.

This project models six of those scripts. Each becomes a module with a
controller class whose `Tick` method is one pass of the polling loop.
`Tick` is split into phase methods in the order the loop runs them. Every
message the firmware sends is appended to a log field (`sent`, a sequence
of `Midi.Msg`), and every relay pin write to a trace (`Relay.RelayPair.writes`).
Pure parts of the loops are value-level functions in modules of their own.
The phase methods are proved against those functions.

| module | file | what it is |
|---|---|---|
| `Midi` | shared | channel voice messages, their bytes (MIDI 1.0 Detailed Specification, channel voice messages), a decoder, the confirmation flicker, the Whammy bypass program |
| `Catalog`, `PotCurve` | shared | preset tables, `clamp`, `map_u16_expo`, `map_pot_to_half_ms` |
| `Debounce` | shared | the raw/last-change/stable switch debouncer |
| `Pot` | shared | the outlier-rejecting pot window (`pot_update_filtered`), as a function and as an in-place class |
| `Relay` | shared | `set_A_and_B` and `b_write_raw`: break-before-make relay switching |
| `ShutterGate` | `Whammy4_Shutter_Gate.py` | momentary relay shutter |
| `ShutterTaps`, `AccessCursor`, `GateAccess` | `Whammy4_Shutter_Gate_TESTONLY.py` | relay shutter with a MIDI access mode (preset scroll, auto-commit to slot A/B) |
| `MidiShutter` | `Whammy4_Midi_Shutter_TESTONLY.py` | the same, with the shutter played as Program Changes |
| `FourSlots`, `AccessPin`, `HoldTaps`, `MidiOnlyTest` | `Whammy4_Midi_only_TESTONLY.py` | MIDI-only pedal with slots A/B/C/D and a momentary hold |
| `MidiOnly` | `Whammy4_Midi_only.py` | MIDI-only pedal where the hold plays slot C |
| `NeoSound`, `NeoTaps`, `NeoEngines`, `NeoBoot`, `Neo` | `NEO/main.py` | the NEO controller: boot programmer, two layers, Latch, Momentary, Holding and Shutter engines |

Time is a natural number of milliseconds. `ticks_diff(a, b)` is `a - b`
and `ticks_add(a, d)` is `a + d`. Switch levels, pot readings and the
current time are parameters of `Tick`; MIDI output is the message log.

## Model

| member | source | states |
|---|---|---|
| Midi.Data7 | RP2040_Zero/NEO/main.py:167-180 | the `& 0x7F` mask gives a 7-bit value that agrees with the input modulo 128 and leaves 7-bit inputs unchanged |
| Midi.Status | RP2040_Zero/Whammy4_Midi_only.py:146-148 | a status byte carries the message kind in its high nibble and the channel modulo 16 in its low nibble |
| Midi.Encode | RP2040_Zero/NEO/main.py:167-180 | a Program Change is 2 bytes and the other messages 3; the first byte is a status byte on the channel, the rest are data bytes below 128 |
| Midi.DecodeEncode | RP2040_Zero/NEO/main.py:167-180 | a receiver reads every message the firmware builds as the same kind of message, on the channel's low nibble, with 7-bit fields |
| Midi.RoundTrip | RP2040_Zero/Whammy4_Midi_only.py:146-148 | for channels 0..15 and 7-bit fields, decoding undoes encoding exactly |
| Midi.WireAppend | RP2040_Zero/NEO/main.py:185-191 | the bytes of two message runs sent one after the other are the bytes of each run, concatenated |
| Midi.Confirm | RP2040_Zero/Whammy4_Shutter_Gate_TESTONLY.py:183-193 | the preset confirmation is 2·toggles Program Changes alternating between the off program and the selection, ending on the selection |
| Midi.BypassFor | RP2040_Zero/Whammy4_Midi_Shutter_TESTONLY.py:69-76 | the result is always a 7-bit program; in offset mode a 7-bit program p gives p + 17 up to p = 110 and 127 above; in fixed mode a 7-bit MIDI_PC_OFF is sent as it is |
| Midi.BypassOffsetRange | RP2040_Zero/Whammy4_Midi_only_TESTONLY.py:47-55 | active programs 1..17 map to bypass programs 18..34; the bypass of a program below 127 is never that program; above 110 it is 127 |
| Midi.BypassOffsetMonotone | RP2040_Zero/Whammy4_Midi_only_TESTONLY.py:49-55 | the offset bypass never decreases as the active program increases |
| Catalog.ProgramNumbering | RP2040_Zero/NEO/main.py:114-132 | the NEO and v1 catalogs list the same 17 presets; the NEO numbers them from 0, the v1 firmware from 1 |
| Catalog.WhammyProgram | RP2040_Zero/Whammy4_Midi_only.py:54-72 | v1 preset index i selects program i + 1 |
| Catalog.NeoProgram | RP2040_Zero/NEO/main.py:114-132 | NEO preset index i selects program i |
| Catalog.SettingsPrograms | RP2040_Zero/NEO/main.py:135-140 | the four settings entries show programs 16, 15, 14, 13 |
| PotCurve.Clamp | RP2040_Zero/NEO/main.py:65-66 | the result lies in [lo, hi], equals v inside it, and is the bound v crossed outside it |
| PotCurve.QuadraticBounds | RP2040_Zero/NEO/main.py:74-76 | the quadratic term `(x*x) >> 16` of a 16-bit value lies between 0 and the value, and is 65534 at the top |
| PotCurve.BlendBounds | RP2040_Zero/NEO/main.py:74-78 | the blended curve value lies between 0 and the raw input for any k_percent in 0..1000 |
| PotCurve.MapU16ExpoRange | RP2040_Zero/NEO/main.py:68-79 | `map_u16_expo` stays in [lo, hi] and returns lo for raw 0 |
| PotCurve.MapU16ExpoMonotone | RP2040_Zero/NEO/main.py:68-79 | `map_u16_expo` never decreases as the pot turns up |
| PotCurve.MapU16ExpoTop | RP2040_Zero/NEO/main.py:68-79 | with any quadratic share, the pot's top position gives hi − 1, so the upper clamp that follows never acts |
| PotCurve.MapPotToHalfMsRange | RP2040_Zero/Whammy4_Shutter_Gate_TESTONLY.py:198-200 | pot fully down gives 1000 ms, fully up 30 ms, and every position lies in between |
| PotCurve.MapPotToHalfMsAntitone | RP2040_Zero/Whammy4_Shutter_Gate.py:74-76 | turning the pot up never lengthens the half period |
| PotCurve.PotPercent | RP2040_Zero/Whammy4_Shutter_Gate.py:222 | `pot_pct` lies in 0..100, is 0 at the bottom and 100 at the top |
| PotCurve.HalfMsFor | RP2040_Zero/Whammy4_Shutter_Gate.py:279-280 | the clamped half period lies in [30, 1000] and the clamp never changes the mapped value |
| Debounce.Init | RP2040_Zero/Whammy4_Shutter_Gate_TESTONLY.py:338-340 | at boot the level read is both the last and the stable level |
| Debounce.Step | RP2040_Zero/Whammy4_Shutter_Gate.py:260-267 | the stable level changes exactly when the raw level equals the last one, has been unchanged for DEBOUNCE_MS and differs from the stable level; a raw change restarts the timer |
| Debounce.EdgeOf | RP2040_Zero/Whammy4_Shutter_Gate_TESTONLY.py:512-521 | a press edge is a stable change to 0, a release edge a stable change to 1 |
| Debounce.GlitchIgnored | RP2040_Zero/NEO/main.py:609-615 | no run of polls within DEBOUNCE_MS of a glitch changes the stable level or yields an edge |
| Debounce.HeldLevelBecomesStable | RP2040_Zero/NEO/main.py:609-615 | a raw level held for DEBOUNCE_MS after it was first read becomes stable |
| Debounce.SteadyLevelAccepted | RP2040_Zero/NEO/main.py:609-615 | polls that all read one level over DEBOUNCE_MS make it stable, from any state |
| Debounce.StableStays | RP2040_Zero/NEO/main.py:609-615 | polls that all read the stable level never change it and yield no edge |
| Pot.MeanBounds | RP2040_Zero/Whammy4_Shutter_Gate.py:204 | the floor mean of 16-bit samples is a 16-bit value |
| Pot.Primed | RP2040_Zero/Whammy4_Shutter_Gate.py:150-160 | priming restarts the window from one sample, which is the mean, with no rejects and no streak |
| Pot.LastWindow | RP2040_Zero/Whammy4_Shutter_Gate.py:200-202 | the window keeps at most 10 entries, the newest ones |
| Pot.Step | RP2040_Zero/Whammy4_Shutter_Gate.py:162-205 | the filter keeps its invariant (at most 10 entries, mean = floor average); an in-range sample is appended; an outlier counts a reject and is refused, except the 4th in one direction, which restarts the window from it |
| Pot.RejectKeepsWindow | RP2040_Zero/Whammy4_Shutter_Gate_TESTONLY.py:259-275 | a refused sample is an outlier and leaves the window and the mean as they were |
| Pot.AcceptedIsNewest | RP2040_Zero/Whammy4_Shutter_Gate_TESTONLY.py:280-284 | an accepted sample is the newest entry and the mean is the floor average of the window |
| Pot.SustainedJumpFollowed | RP2040_Zero/Whammy4_Shutter_Gate.py:178-195 | four same-direction outliers are refused three times and then restart the window from the fourth |
| Pot.PotFilter.constructor | RP2040_Zero/Whammy4_Shutter_Gate.py:145-148 | the filter starts empty with mean 0 |
| Pot.PotFilter.Prime | RP2040_Zero/Whammy4_Shutter_Gate.py:150-160 | the in-place prime gives the `Primed` state |
| Pot.PotFilter.Update | RP2040_Zero/Whammy4_Shutter_Gate.py:162-205 | the in-place append, pop and mean give exactly the `Step` state and verdict |
| Relay.BRaw | RP2040_Zero/Whammy4_Shutter_Gate.py:81-86 | the pin level written stands for the logical B requested, through the inverted drive |
| Relay.ReplayPrefix | RP2040_Zero/Whammy4_Shutter_Gate.py:88-115 | the pin levels after each write are those left by the writes up to and including it, so every intermediate state of a `set_A_and_B` is a real pin state |
| Relay.BreakBeforeMake | RP2040_Zero/Whammy4_Shutter_Gate.py:88-115 | from B = NOT A, no intermediate state has both paths closed, the final state has A at the target with B = NOT A, and a repeated request writes nothing |
| Relay.WriteOrder | RP2040_Zero/Whammy4_Shutter_Gate_TESTONLY.py:210-229 | going WET, B opens before A closes; going DRY, A opens before B closes |
| Relay.RelayPair.constructor | RP2040_Zero/Whammy4_Shutter_Gate.py:65-66 | power-up with A DRY and the bypass closed (the corrected levels) |
| Relay.RelayPair.SetAB | RP2040_Zero/Whammy4_Shutter_Gate.py:88-115 | keeps B = NOT A, sets `a_state` to the target, appends exactly the break-before-make writes and leaves the pins where those writes put them |
| Relay.BootPinsNotComplementary | RP2040_Zero/Whammy4_Shutter_Gate.py:65-66 | as written, power-up leaves both paths open and the boot `set_effect(False)` writes nothing |
| Relay.BootPinsCorrected | RP2040_Zero/Whammy4_Shutter_Gate.py:65-66 | power-up with the B pin at 0 has B = NOT A |
| ShutterGate.Gate.constructor | RP2040_Zero/Whammy4_Shutter_Gate.py:249 | boot: effect off, relays DRY, half period 1000 ms |
| ShutterGate.Gate.SetEffect | RP2040_Zero/Whammy4_Shutter_Gate.py:207-244 | switching on primes the pot, goes WET at once and times the first toggle from now; switching off goes DRY and keeps the pot and timers |
| ShutterGate.Gate.Tick | RP2040_Zero/Whammy4_Shutter_Gate.py:257-286 | after a pass the effect is on exactly when the debounced switch is pressed, if it changed; otherwise it is unchanged |
| ShutterGate.Gate.FootswitchPhase | RP2040_Zero/Whammy4_Shutter_Gate.py:260-270 | the effect follows the debounced switch, and nothing but a debounced edge touches the relays or the pot |
| ShutterGate.Gate.PotPhase | RP2040_Zero/Whammy4_Shutter_Gate.py:275-281 | every 10 ms while on, one filtered sample sets the half period and the percentage; otherwise nothing changes |
| ShutterGate.Gate.TogglePhase | RP2040_Zero/Whammy4_Shutter_Gate.py:284-286 | once the half period has passed while on, A flips; otherwise the relays are untouched |
| ShutterTaps.Press | RP2040_Zero/Whammy4_Shutter_Gate_TESTONLY.py:516-518 | a press records its time and arms the pending shutter, keeping an armed tap |
| ShutterTaps.Release | RP2040_Zero/Whammy4_Shutter_Gate_TESTONLY.py:521-552 | a double tap iff the press was a tap (≤ 170 ms) and an armed tap was released ≤ 260 ms ago; a single tap (which arms) iff a tap without that; otherwise not a tap, which disarms |
| ShutterTaps.NormalTick | RP2040_Zero/Whammy4_Shutter_Gate_TESTONLY.py:512-562 | the shutter starts iff the pending press is held, the shutter is off and more than 170 ms have passed; an armed tap never outlives the 260 ms gap |
| ShutterTaps.QuietTickKeepsGesture | RP2040_Zero/Whammy4_Shutter_Gate_TESTONLY.py:555-562 | a pass without an edge changes nothing while the press is still short and the armed tap has not expired |
| ShutterTaps.QuickDoubleTap | RP2040_Zero/Whammy4_Shutter_Gate_TESTONLY.py:529-539 | two quick taps arm and then fire one double tap, and never start the shutter |
| ShutterTaps.LongPressIsNotATap | RP2040_Zero/Whammy4_Shutter_Gate_TESTONLY.py:547-550 | the release of a press longer than 170 ms is not a tap and disarms |
| AccessCursor.Other | RP2040_Zero/Whammy4_Shutter_Gate_TESTONLY.py:406 | the other slot of A and B |
| AccessCursor.Entered | RP2040_Zero/Whammy4_Shutter_Gate_TESTONLY.py:357-379 | a mode switch resets the raw level and the double-click timer and aligns the cursor with the edited slot |
| AccessCursor.Next | RP2040_Zero/Whammy4_Shutter_Gate_TESTONLY.py:432 | the next preset, wrapping from the last to the first |
| AccessCursor.Step | RP2040_Zero/Whammy4_Shutter_Gate_TESTONLY.py:397-462 | a double click iff a press edge comes within 300 ms of the last; otherwise a step iff a press edge or a hold of 350 ms since the last step; the scroll timer restarts while the switch is up |
| AccessCursor.HoldScrollRate | RP2040_Zero/Whammy4_Shutter_Gate_TESTONLY.py:447-449 | a held switch steps no faster than once per 350 ms |
| AccessCursor.FullCycle | RP2040_Zero/Whammy4_Shutter_Gate_TESTONLY.py:432 | for every n, n steps move the cursor n presets on, modulo 17, so 17 steps return it to where it started |
| AccessCursor.Iterate | RP2040_Zero/Whammy4_Shutter_Gate_TESTONLY.py:432 | repeated steps stay on a valid preset |
| AccessCursor.DoubleClickClearsPressTime | RP2040_Zero/Whammy4_Shutter_Gate_TESTONLY.py:417 | after a double click, a later press is a step, not another double click |
| GateAccess.Gate.constructor | RP2040_Zero/Whammy4_Shutter_Gate_TESTONLY.py:294-340 | boot: shutter off, relays DRY, both slots on the first preset, editing slot A |
| GateAccess.Gate.SetEffect | RP2040_Zero/Whammy4_Shutter_Gate_TESTONLY.py:301-330 | start: primed pot, WET at once, toggle timed from now, the active slot's program sent; stop: DRY, nothing sent |
| GateAccess.Gate.Tick | RP2040_Zero/Whammy4_Shutter_Gate_TESTONLY.py:344-577 | keeps the invariant (relays WET in access mode, DRY in normal mode unless the shutter runs) and records the mode |
| GateAccess.Gate.NormalPass | RP2040_Zero/Whammy4_Shutter_Gate_TESTONLY.py:505-577 | the footswitch state is one debouncer step |
| GateAccess.Gate.ModeSwitch | RP2040_Zero/Whammy4_Shutter_Gate_TESTONLY.py:351-384 | a mode change resets switch tracking and gestures; entering access edits and previews the active slot; leaving sends nothing; no change, no effect |
| GateAccess.Gate.AccessPass | RP2040_Zero/Whammy4_Shutter_Gate_TESTONLY.py:393-495 | a double click switches the edited slot, drops the pending selection, previews the slot and writes nothing |
| GateAccess.Gate.CommitPhase | RP2040_Zero/Whammy4_Shutter_Gate_TESTONLY.py:465-492 | a selection idle for 2000 ms is written to the edited slot only, confirmed by the flicker, and editing moves to the other slot with the cursor on its preset |
| GateAccess.Gate.SwitchPhase | RP2040_Zero/Whammy4_Shutter_Gate_TESTONLY.py:505-524 | a debounced release stops the shutter DRY; nothing else touches the relays |
| GateAccess.Gate.GesturePhase | RP2040_Zero/Whammy4_Shutter_Gate_TESTONLY.py:526-562 | a double tap switches the active slot and sends its program; a hold past 170 ms starts the shutter; taps leave the relays alone |
| GateAccess.Gate.PotPhase | RP2040_Zero/Whammy4_Shutter_Gate_TESTONLY.py:569-572 | every 10 ms while the shutter runs, one filtered sample sets the half period |
| GateAccess.Gate.TogglePhase | RP2040_Zero/Whammy4_Shutter_Gate_TESTONLY.py:575-577 | once the half period has passed while running, A flips |
| MidiShutter.MidiHalfMs | RP2040_Zero/Whammy4_Midi_Shutter_TESTONLY.py:555-558 | the MIDI half period lies in [MIDI_MIN_HALF_MS, 1000], is never shorter than the relay one and equals it when that is long enough |
| MidiShutter.PhaseMessages | RP2040_Zero/Whammy4_Midi_Shutter_TESTONLY.py:561-574 | n toggles send n Program Changes; the first is the bypass when the phase was ON and the program when it was OFF |
| MidiShutter.ShutterIsFlicker | RP2040_Zero/Whammy4_Midi_Shutter_TESTONLY.py:561-574 | 2k toggles from WET send exactly the k-toggle confirmation flicker between bypass and program |
| MidiShutter.Shutter.constructor | RP2040_Zero/Whammy4_Midi_Shutter_TESTONLY.py:321-367 | boot: shutter off, relays DRY, both slots on the first preset |
| MidiShutter.Shutter.SetEffect | RP2040_Zero/Whammy4_Midi_Shutter_TESTONLY.py:321-357 | corrected behaviour (see Findings): start: relays WET and the MIDI phase ON, half period at least MIDI_MIN_HALF_MS, the active program sent; stop: relays DRY, nothing sent |
| MidiShutter.Shutter.Tick | RP2040_Zero/Whammy4_Midi_Shutter_TESTONLY.py:380-574 | keeps the invariant and records the mode |
| MidiShutter.Shutter.NormalPass | RP2040_Zero/Whammy4_Midi_Shutter_TESTONLY.py:499-574 | the footswitch state is one debouncer step |
| MidiShutter.Shutter.ModeSwitch | RP2040_Zero/Whammy4_Midi_Shutter_TESTONLY.py:387-412 | as in the relay gate: reset on a mode change, entering access edits and previews the active slot; entering access puts the MIDI phase in ON, and leaving it keeps the phase while the shutter runs and makes it OFF otherwise, as `set_A_and_B` does to `a_state` |
| MidiShutter.Shutter.EnterAccess | RP2040_Zero/Whammy4_Midi_Shutter_TESTONLY.py:387-405 | entering access resets the switch tracking and gestures, goes WET with the MIDI phase ON, and previews the active slot as the edit slot |
| MidiShutter.Shutter.LeaveAccess | RP2040_Zero/Whammy4_Midi_Shutter_TESTONLY.py:387-409 | leaving access resets the switch tracking and gestures and keeps the cursor's preset; relays and phase go DRY unless the shutter runs; a shutter left running through access mode comes back with the phase ON, as the relays are |
| MidiShutter.Shutter.PreviewActiveSlot | RP2040_Zero/Whammy4_Midi_Shutter_TESTONLY.py:401-405 | editing moves to the active slot, its program is sent and the cursor shows its preset, with nothing pending |
| MidiShutter.Shutter.AccessPass | RP2040_Zero/Whammy4_Midi_Shutter_TESTONLY.py:421-494 | a double click switches the edited slot and previews it without writing any slot |
| MidiShutter.Shutter.CommitPhase | RP2040_Zero/Whammy4_Midi_Shutter_TESTONLY.py:482-488 | a selection idle for 2000 ms is written to the edited slot, confirmed by flickering with its own bypass, and editing stays on that slot |
| MidiShutter.Shutter.SwitchPhase | RP2040_Zero/Whammy4_Midi_Shutter_TESTONLY.py:499-514 | corrected behaviour (see Findings): a debounced release stops the shutter with the relays DRY, whatever the MIDI phase; any other pass leaves the shutter, the phase and the relays as they are |
| MidiShutter.Shutter.GesturePhase | RP2040_Zero/Whammy4_Midi_Shutter_TESTONLY.py:516-545 | a double tap switches the active slot; a hold past 170 ms starts the shutter in the ON phase |
| MidiShutter.Shutter.PotPhase | RP2040_Zero/Whammy4_Midi_Shutter_TESTONLY.py:552-558 | every 10 ms while running, one filtered sample sets the half period, held at or above MIDI_MIN_HALF_MS |
| MidiShutter.Shutter.TogglePhase | RP2040_Zero/Whammy4_Midi_Shutter_TESTONLY.py:561-574 | each due toggle flips the phase and sends the bypass when leaving ON and the program when leaving OFF; the relays stay as they are; after a visit to access mode the next toggle therefore sends the bypass |
| MidiShutter.SetABAsWritten | RP2040_Zero/Whammy4_Midi_Shutter_TESTONLY.py:230-249 | as written, `a_state` becomes the target, and a request equal to the remembered `a_state` leaves the pins as they are, whatever they are |
| MidiShutter.TogglesAsWritten | RP2040_Zero/Whammy4_Midi_Shutter_TESTONLY.py:569-574 | as written, any number of MIDI toggles leave the relay pins as they are |
| MidiShutter.SessionNeverGoesWet | RP2040_Zero/Whammy4_Midi_Shutter_TESTONLY.py:340-357 | as written, a whole shutter session leaves the relays DRY throughout and exactly as it found them |
| MidiShutter.TogglesParity | RP2040_Zero/Whammy4_Midi_Shutter_TESTONLY.py:569-574 | as written, `a_state` after n toggles is the starting value for even n and its flip for odd n |
| MidiShutter.StopAfterAccessStaysWet | RP2040_Zero/Whammy4_Midi_Shutter_TESTONLY.py:353-356 | as written, a shutter that kept its relays WET through access mode and stops after an odd number of toggles leaves the relays WET |
| FourSlots.SetBaseSlot | RP2040_Zero/Whammy4_Midi_only.py:157-162 | slot C is ignored; any other slot becomes both base and active, so the base is never C |
| FourSlots.ToggleAb | RP2040_Zero/Whammy4_Midi_only_TESTONLY.py:191-196 | the new base is A or B and differs from the old one (so A and B swap), and it is also the active slot |
| FourSlots.ToggleTwice | RP2040_Zero/Whammy4_Midi_only_TESTONLY.py:191-196 | two toggles from A or B return to it; from D a toggle goes to A |
| FourSlots.NextEditSlot | RP2040_Zero/Whammy4_Midi_only_TESTONLY.py:319 | the next edited slot is another valid slot |
| FourSlots.EditCycle | RP2040_Zero/Whammy4_Midi_only_TESTONLY.py:318-325 | four double clicks visit every slot once and come back |
| AccessPin.Init | RP2040_Zero/Whammy4_Midi_only.py:174-179 | boot: the pin level read is stable and nothing is armed |
| AccessPin.Step | RP2040_Zero/Whammy4_Midi_only.py:181-210 | a slot switch iff a debounced release ends an armed press shorter than 450 ms; access iff the pin is stably held, armed, for at least 450 ms; never both |
| AccessPin.AccessLastsWhileHeld | RP2040_Zero/Whammy4_Midi_only_TESTONLY.py:218-237 | once on, access stays on while the pin is held, and its release switches no slot |
| AccessPin.ShortPressSwitchesSlot | RP2040_Zero/Whammy4_Midi_only_TESTONLY.py:218-237 | a short press arms, its release switches the slot, and access never turns on |
| HoldTaps.Reset | RP2040_Zero/Whammy4_Midi_only_TESTONLY.py:290-293 | a mode change clears the hold and the pending single tap |
| HoldTaps.OnRelease | RP2040_Zero/Whammy4_Midi_only_TESTONLY.py:412-435 | the end of a hold iff a hold is in progress; a double tap iff a short press follows a pending tap within 300 ms; a pending tap iff a short press without that |
| HoldTaps.Tick | RP2040_Zero/Whammy4_Midi_only_TESTONLY.py:401-470 | a single tap is confirmed only with the switch up after 300 ms; a hold fires iff the switch has been stably down 450 ms without a hold yet, and cancels the pending tap; never both |
| HoldTaps.QuickDoubleTap | RP2040_Zero/Whammy4_Midi_only.py:405-417 | two quick taps give one pending tap, then a double tap, with no single tap and no hold |
| HoldTaps.HoldFiresOnce | RP2040_Zero/Whammy4_Midi_only.py:433-442 | a hold fires once per press and its release is the end of the hold, never a tap |
| HoldTaps.SlowSecondTapReplacesFirst | RP2040_Zero/Whammy4_Midi_only.py:424-426 | a second tap released after the window restarts it instead of confirming the first |
| MidiOnlyTest.Pedal.constructor | RP2040_Zero/Whammy4_Midi_only_TESTONLY.py:141-266 | boot: slot A base and active, effect counted off, nothing sent |
| MidiOnlyTest.Pedal.Tick | RP2040_Zero/Whammy4_Midi_only_TESTONLY.py:270-471 | keeps the invariant (slot table of four, base never C) |
| MidiOnlyTest.Pedal.AccessPhase | RP2040_Zero/Whammy4_Midi_only_TESTONLY.py:208-237 | a short access-pin press toggles A/B and sends the new program; otherwise the selection is unchanged |
| MidiOnlyTest.Pedal.ModeSwitch | RP2040_Zero/Whammy4_Midi_only_TESTONLY.py:276-301 | a mode change resets tracking; entering access edits and previews the active slot and counts the effect on |
| MidiOnlyTest.Pedal.AccessPass | RP2040_Zero/Whammy4_Midi_only_TESTONLY.py:311-385 | a double click moves editing to the next of the four slots, makes it active and previews it; slots other than the edited one are never written |
| MidiOnlyTest.Pedal.CommitPhase | RP2040_Zero/Whammy4_Midi_only_TESTONLY.py:367-382 | a selection idle for 2000 ms is written to the edited slot, confirmed with its bypass, made active and sent again |
| MidiOnlyTest.Pedal.NormalPass | RP2040_Zero/Whammy4_Midi_only_TESTONLY.py:395-470 | the switch is one debouncer step and the gestures one `HoldTaps.Tick` |
| MidiOnlyTest.Pedal.ReleaseAction | RP2040_Zero/Whammy4_Midi_only_TESTONLY.py:414-431 | the end of a momentary hold sends the bypass of the snapshotted program and counts the effect off; a double tap makes D the base and sends it |
| MidiOnlyTest.Pedal.SingleTapAction | RP2040_Zero/Whammy4_Midi_only_TESTONLY.py:442-447 | a confirmed single tap toggles A/B and sends the new program |
| MidiOnlyTest.Pedal.HoldAction | RP2040_Zero/Whammy4_Midi_only_TESTONLY.py:453-470 | a hold snapshots slot, program and on/off state and sends the program only if the effect was off |
| MidiOnly.Pedal.constructor | RP2040_Zero/Whammy4_Midi_only.py:174-239 | boot: slot A base and active, nothing sent |
| MidiOnly.Pedal.Tick | RP2040_Zero/Whammy4_Midi_only.py:243-445 | keeps the invariant (slot table of four, base never C) |
| MidiOnly.Pedal.AccessPhase | RP2040_Zero/Whammy4_Midi_only.py:181-215 | a short access-pin press toggles A/B and sends the new program |
| MidiOnly.Pedal.ModeSwitch | RP2040_Zero/Whammy4_Midi_only.py:249-283 | leaving access on C returns to the base slot; entering access edits the base slot instead of C, makes it active and previews it |
| MidiOnly.Pedal.AccessPass | RP2040_Zero/Whammy4_Midi_only.py:293-371 | a double click moves editing to the next of the four slots; only the edited slot can be written |
| MidiOnly.Pedal.CommitPhase | RP2040_Zero/Whammy4_Midi_only.py:349-368 | a selection idle for 2000 ms with the switch up is written to the slot frozen when it started, confirmed with MIDI_PC_OFF, and the edited slot is made active and sent |
| MidiOnly.Pedal.NormalPass | RP2040_Zero/Whammy4_Midi_only.py:379-445 | the switch is one debouncer step and the gestures one `HoldTaps.Tick` |
| MidiOnly.Pedal.ReleaseAction | RP2040_Zero/Whammy4_Midi_only.py:398-417 | the end of a hold returns to the base slot; a double tap makes D the base; either sends the new program |
| MidiOnly.Pedal.SingleTapAction | RP2040_Zero/Whammy4_Midi_only.py:424-428 | a confirmed single tap toggles A/B and sends the new program |
| MidiOnly.Pedal.HoldAction | RP2040_Zero/Whammy4_Midi_only.py:433-442 | a hold makes C active, keeps the base slot, and sends C's program |
| NeoSound.ModeOf | RP2040_Zero/NEO/main.py:433-440 | settings entries 0..3 select Latch, Momentary, Holding, Shutter; any later index selects Shutter |
| NeoSound.EffectBytes | RP2040_Zero/NEO/main.py:185-191 | on channel 4, effect on is CC0 127 then the program, effect off is CC0 0 then program + 17, five bytes each |
| NeoSound.Baseline | RP2040_Zero/NEO/main.py:348-360 | the baseline is effect on iff the mode is Latch with the effect enabled, effect off otherwise |
| NeoSound.Pulses | RP2040_Zero/NEO/main.py:212-216 | n blink pulses are n (Note On 100, Note On 0, Note Off) triples on note 60 |
| NeoSound.Blink | RP2040_Zero/NEO/main.py:205-216 | the blink sends only notes on note 60, 11 messages, ending released; no CC and no program |
| NeoSound.ConfirmSavedIsFlicker | RP2040_Zero/NEO/main.py:196-203 | the save confirmation is the two-toggle flicker between the program and its bypass, and ends bypassed |
| NeoSound.CurrentActivePc | RP2040_Zero/NEO/main.py:342-346 | the active program is the stored preset's, or 0 while the slot is unset |
| NeoSound.ScanProgram | RP2040_Zero/NEO/main.py:370-387 | a preset scan shows the preset's program; a settings scan shows 16 − index |
| NeoSound.PotTime | RP2040_Zero/NEO/main.py:88-109 | the pot time is in [30, 400] in Shutter mode, in [200, 5000] in Holding mode and 1000 otherwise |
| NeoSound.PotTimeMonotone | RP2040_Zero/NEO/main.py:96-109 | turning the pot up never shortens the pot time |
| NeoSound.PotTimeEnds | RP2040_Zero/NEO/main.py:96-109 | the pot's ends give 30 and 399 ms in Shutter mode, 200 and 4999 ms in Holding mode |
| NeoTaps.OnRelease | RP2040_Zero/NEO/main.py:696-718 | a release longer than the tap limit changes nothing; a double tap iff a tap is pending and the previous release was ≤ 320 ms ago, which clears it; else a new pending tap due 320 ms later |
| NeoTaps.Resolve | RP2040_Zero/NEO/main.py:549-550 | a pending tap fires, and is cleared, exactly when its deadline has come |
| NeoTaps.QuickSecondTap | RP2040_Zero/NEO/main.py:696-703 | a second tap released less than 320 ms after the first completes a double tap and clears the pending tap |
| NeoTaps.WindowClosesFirst | RP2040_Zero/NEO/main.py:549-555 | a second release 320 ms or more after the first is never a double tap, because the pending tap fires first |
| NeoEngines.Trigger | RP2040_Zero/NEO/main.py:565-587 | after 500 ms of press, Momentary, Holding and Shutter each start once, send effect on and arm their state; Latch never triggers |
| NeoEngines.TriggerOnce | RP2040_Zero/NEO/main.py:565-587 | once an engine has started, later passes of the same press send nothing |
| NeoEngines.HoldingOff | RP2040_Zero/NEO/main.py:558-562 | an engaged Holding effect goes off, sending effect off, exactly when its off time has come |
| NeoEngines.ShutterToggle | RP2040_Zero/NEO/main.py:590-600 | a due toggle flips the phase, sends the bypass when leaving ON and the program when leaving OFF, and schedules the next one pot time later |
| NeoEngines.DueTogglesAlternate | RP2040_Zero/NEO/main.py:590-600 | the Shutter sends only Program Changes, strictly alternating bypass and program, and n toggles flip the phase n times |
| NeoEngines.Release | RP2040_Zero/NEO/main.py:678-693 | release: Momentary goes off, Holding disarms with its timeout still running, Shutter stops in bypass; Latch does nothing |
| NeoEngines.ShutterSession | RP2040_Zero/NEO/main.py:582-600 | a whole Shutter press turns the program on, alternates bypass and program, and the release leaves it bypassed with the shutter at rest |
| NeoEngines.HoldingTimesOut | RP2040_Zero/NEO/main.py:572-578 | a Holding press turns the effect on and it goes off exactly one pot time after the trigger, released or not: the off time is set when the engine triggers, not at the release |
| NeoBoot.StartOf | RP2040_Zero/NEO/main.py:738-740 | a preset stage starts on the slot's preset, or on the first preset for an unset slot |
| NeoBoot.Press | RP2040_Zero/NEO/main.py:644-649 | a boot press saves into the staging copy during a reprogram and never into the stored presets; otherwise into the stored presets |
| NeoBoot.Advance | RP2040_Zero/NEO/main.py:725-742 | the stored presets are replaced by the staged pair only at the end of stage 1 of a reprogram; the next stage starts on its slot's preset or on entry 0 |
| NeoBoot.Restart | RP2040_Zero/NEO/main.py:468-474 | a reprogram stages a copy of the stored presets, keeps them in use, and starts on preset A |
| NeoBoot.ReprogramStoresPicks | RP2040_Zero/NEO/main.py:448-495 | a full reprogram stores exactly the two picks, and until its last release the stored presets are the old ones |
| NeoBoot.ReprogramAsWrittenKeepsA | RP2040_Zero/NEO/main.py:723-747 | as written, a reprogram can never change preset A |
| Neo.Controller.ActivePc | RP2040_Zero/NEO/main.py:342-346 | the active program is a valid preset program |
| Neo.Controller.constructor | RP2040_Zero/NEO/main.py:513-515 | boot: stage 0, nothing programmed, Latch, performance layer; sent CC0 0 and the first scan item |
| Neo.Controller.ApplyCurrentSound | RP2040_Zero/NEO/main.py:348-368 | sends the baseline of the active preset and puts every engine at rest |
| Neo.Controller.ShowBootScanItem | RP2040_Zero/NEO/main.py:370-377 | shows the scanned entry as effect off on its program |
| Neo.Controller.StartPresetSwitch | RP2040_Zero/NEO/main.py:389-411 | with an unset slot nothing changes; otherwise effect off, slot flipped, engines at rest, and the new sound applied 250 ms later |
| Neo.Controller.OnSingleTapLayer1 | RP2040_Zero/NEO/main.py:413-418 | in Latch a tap toggles the effect and applies it; other modes ignore taps |
| Neo.Controller.ApplyScannedSettingAndExit | RP2040_Zero/NEO/main.py:423-446 | applies the mode frozen at the press, blinks and returns to the performance layer on the baseline |
| Neo.Controller.RestartPresetProgramming | RP2040_Zero/NEO/main.py:448-495 | back to stage 0 with the stored presets staged, the long hold marked fired, engines at rest, blink then the first scan item; it marks the switch as still down, so that the release of the same press does not end stage 0 (the correction in Findings) |
| Neo.Controller.EnterEffectLayer | RP2040_Zero/NEO/main.py:497-503 | the settings layer starts its scan on the first mode and shows it |
| Neo.Controller.ExitEffectLayer | RP2040_Zero/NEO/main.py:505-508 | back to performance on the baseline sound |
| Neo.Controller.Tick | RP2040_Zero/NEO/main.py:520-776 | no pass changes the stored presets while a reprogram is staged or once programming is done |
| Neo.Controller.EnginePass | RP2040_Zero/NEO/main.py:523-600 | keeps the invariant |
| Neo.Controller.ScanPass | RP2040_Zero/NEO/main.py:761-776 | keeps the invariant; scan indices stay in range |
| Neo.Controller.PotPhase | RP2040_Zero/NEO/main.py:88-109 | reads closer than 40 ms apart change nothing; a due read sets the mode's pot time |
| Neo.Controller.MutePhase | RP2040_Zero/NEO/main.py:526-528 | once the mute is over, the new preset's baseline is applied once |
| Neo.Controller.LayerPhase | RP2040_Zero/NEO/main.py:531-546 | a debounced layer change cancels the pending tap and enters or leaves the settings layer; without one nothing changes |
| Neo.Controller.SingleTapPhase | RP2040_Zero/NEO/main.py:549-555 | a due tap toggles a Latch sound in performance, applies the frozen mode in settings, and is dropped before programming is done |
| Neo.Controller.HoldingOffPhase | RP2040_Zero/NEO/main.py:558-562 | in Holding performance the timeout is `NeoEngines.HoldingOff`; otherwise nothing |
| Neo.Controller.TriggerPhase | RP2040_Zero/NEO/main.py:565-587 | in performance with the switch down and no mute, the engines start by `NeoEngines.Trigger`; otherwise nothing |
| Neo.Controller.ShutterPhase | RP2040_Zero/NEO/main.py:590-600 | a running Shutter toggles by `NeoEngines.ShutterToggle`; otherwise nothing |
| Neo.Controller.LongHoldPhase | RP2040_Zero/NEO/main.py:604-606 | programming restarts iff a press that began in the settings layer has lasted 2000 ms and the long hold has not fired in it; the stored presets are kept |
| Neo.Controller.FootswitchPhase | RP2040_Zero/NEO/main.py:609-615 | the switch is one debouncer step; a pass without an edge sends and stages nothing; the stored presets are kept during a reprogram and after programming |
| Neo.Controller.Press | RP2040_Zero/NEO/main.py:620-668 | performance press: engines at rest, long hold re-allowed, settings scan frozen; boot press: the entry shown is saved (staged during a reprogram) and confirmed |
| Neo.Controller.Release | RP2040_Zero/NEO/main.py:673-756 | corrected behaviour (see Findings): the release of the long hold that restarted programming only ends that hold and leaves stage 0 running, where the code as written takes it as the end of stage 0; any other boot release advances the stage by `NeoBoot.Advance`; stored presets are kept during a reprogram |
| Neo.Controller.PerformanceRelease | RP2040_Zero/NEO/main.py:678-703 | the engine lets go by `NeoEngines.Release`, then the tap rules apply and a double tap switches presets behind the mute |
| Neo.Controller.SettingsRelease | RP2040_Zero/NEO/main.py:705-721 | after a long hold the pending tap is dropped, otherwise the tap rules apply; the scan resumes |
| Neo.Controller.BootRelease | RP2040_Zero/NEO/main.py:723-756 | stages 0 and 1 advance and show the next scan item; stage 2 finishes programming on preset A, effect enabled, baseline applied |
| Neo.Controller.SettingsScanPhase | RP2040_Zero/NEO/main.py:761-765 | the settings scan moves one mode on (mod 4) every 1000 ms unless frozen |
| Neo.Controller.BootScanPhase | RP2040_Zero/NEO/main.py:770-776 | the boot scan moves one entry on (mod 17 or 4 by stage) every 1000 ms unless frozen |

## Left out

- UART, `Pin` and `ADC` I/O: switch levels and pot readings are parameters of each pass, and MIDI output is a message log.
- `time.sleep_ms` and `time.sleep_us` pauses, including the ones inside the confirmation flicker, the blink and break-before-make; only the order of messages and pin writes is kept.
- The NEO `startup_sequence` animation: it is fixed boot-time feedback without decisions; the log starts after it.
- `ticks_ms` wrap-around: time is an unbounded natural number of milliseconds.
- `print`, the debug, scope and event-logging code, and `ACCESS_PRINT_INTERVAL_MS` bookkeeping, which only drives printing.
- `freq_hz`, a floating-point value used only for display.
- `KeyboardInterrupt` handling at shutdown.
- The display names `slot_name`, `pending_name`: they are copies of the preset table's names, kept only for printing.
- `scan_direction` and `scroll_dir`, which are always 1; the scans are modelled moving forward.
- The `DEV_*` development switches (forced access mode, bypassed momentary), and the `MIDI_SEND_ON_START`/`MIDI_SEND_ON_STOP` settings: the model fixes them at the values the files ship with.
- The two-step `a_state` bookkeeping of the relay firmware beyond what `Relay.RelayPair` keeps: the microsecond pause between the two writes.
- `Midi Test.py` is not part of this model.
- ShutterTaps.NormalTick: the shutter-start test reads the footswitch pin a second time (`sw.value() == 0`, Whammy4_Shutter_Gate_TESTONLY.py:555 and Whammy4_Midi_Shutter_TESTONLY.py:539); the model uses the pass's one raw sample, so a level change between the two reads within one pass is not modelled (the same holds for the `GesturePhase` methods of GateAccess and MidiShutter).
- MidiShutter.Shutter.SetEffect: as written, `set_effect(True)` leaves the relays DRY during a normal-mode shutter (lines 340-343); they are WET only when carried over from access mode. The model switches them WET at the start, and its invariant keeps them WET exactly while the shutter runs in normal mode; the as-written session is `MidiShutter.SessionNeverGoesWet`.
- MidiShutter.Shutter.SwitchPhase: as written, the stop's `set_A_and_B(DRY)` (line 355) chooses its writes from `a_state`, which holds the MIDI phase. A shutter kept running through access mode has its relays WET; if it stops in the OFF phase, `a_state` already reads DRY, nothing is written, and the relays stay WET with the effect off. The model's stop always switches the relays DRY; the as-written stop is `MidiShutter.StopAfterAccessStaysWet`.
- Neo.Controller.Release: the code as written takes the release of the settings-layer long hold, which restarts programming while the switch is down, as the end of stage 0 and goes straight to stage 1 (main.py:604-606 with 723-747); the controller models the corrected behaviour instead, in which that release only ends the hold (`Neo.Controller.RestartPresetProgramming` sets the marker). The as-written behaviour is `NeoBoot.ReprogramAsWrittenKeepsA`.
- GateAccess.Gate.Tick: states the invariant and the mode reached; what each pass does is stated by its phase methods.
- MidiShutter.Shutter.Tick: states the invariant and the mode reached; what each pass does is stated by its phase methods.
- MidiOnlyTest.Pedal.Tick: states the invariant; what each pass does is stated by its phase methods.
- MidiOnly.Pedal.Tick: states the invariant; what each pass does is stated by its phase methods.
- Neo.Controller.EnginePass: states the invariant; the effect of each part is stated by the phase methods it calls.
- Neo.Controller.ScanPass: states the invariant; the scans are stated by SettingsScanPhase and BootScanPhase.

## Findings

| source | as written | input that shows it | evidently intended | confidence | as-written member | corrected member |
|---|---|---|---|---|---|---|
| RP2040_Zero/Whammy4_Midi_Shutter_TESTONLY.py:340-343 | `set_effect(True)` sets `a_state = WET` before calling `set_A_and_B(WET)`, which then sees no change and writes nothing | a hold past 170 ms in normal mode with the relays DRY: the shutter plays over MIDI while the relays stay DRY, so the Whammy is out of the signal path | the relays go WET when the shutter starts, as the mode's comments say | not executed | MidiShutter.SessionNeverGoesWet | MidiShutter.Shutter.SetEffect |
| RP2040_Zero/Whammy4_Midi_Shutter_TESTONLY.py:353-356 | `set_effect(False)` calls `set_A_and_B(DRY)`, whose writes depend on `a_state`, and `a_state` holds the MIDI phase | start the shutter, enter access mode (line 404 switches the relays WET), leave it with the shutter running, let one toggle pass and release the footswitch: `a_state` is DRY, the stop writes nothing, and the relays stay WET with the effect off | a release always leaves the relays DRY | not executed | MidiShutter.StopAfterAccessStaysWet | MidiShutter.Shutter.SwitchPhase |
| RP2040_Zero/Whammy4_Shutter_Gate.py:65-66 | the B pin powers up at level 1 (the same lines are Whammy4_Shutter_Gate_TESTONLY.py:162-163 and Whammy4_Midi_Shutter_TESTONLY.py:180-181), which the inverted drive turns into logical B = 0 while A is DRY, and the boot `set_effect(False)` writes nothing because `a_state` is already DRY | power-up with the footswitch released: both the effect path and the bypass are open until the first press | B = NOT A from power-up, with the bypass closed; the `Relay.RelayPair` constructor, which the shutter gate, `GateAccess` and `MidiShutter` boot with, uses these levels | not executed | Relay.BootPinsNotComplementary | Relay.BootPinsCorrected |
| RP2040_Zero/NEO/main.py:723-747 | the settings-layer long hold restarts programming while the switch is still down, and the release of that same press is taken as the end of stage 0 | hold the footswitch 2000 ms in the settings layer and release: the pedal goes straight to stage 1, and stage 1's release commits `[old A, new B]` | the reprogram lets the player choose both A and B; `Neo.Controller.RestartPresetProgramming` and `Neo.Controller.Release` carry the correction in the controller | not executed | NeoBoot.ReprogramAsWrittenKeepsA | NeoBoot.ReprogramStoresPicks |

=== FILE: access_cursor.dfy ===
/**
  The preset cursor of the v1 access mode, shared by the four access-mode
  firmwares (Whammy4_Shutter_Gate_TESTONLY.py, Whammy4_Midi_Shutter_TESTONLY.py,
  Whammy4_Midi_only_TESTONLY.py, Whammy4_Midi_only.py). The footswitch is read
  raw (not debounced) in this mode:
  - a press edge within DOUBLE_CLICK_MS of the previous press edge is a double
    click (the firmware then changes the slot being edited);
  - any other press edge steps the cursor to the next preset;
  - holding the switch steps it again every PRESET_SCROLL_INTERVAL_MS;
  - the scroll timer restarts whenever the switch is up.
  Each step previews the preset and (re)starts the pending selection; what the
  firmware does with a pending selection differs per firmware.
*/
module AccessCursor {
  import opened Debounce
  import Catalog

  const PRESET_SCROLL_INTERVAL_MS := 350
  const DOUBLE_CLICK_MS := 300
  const PENDING_SAVE_MS := 2000

  /** `_last_sw_raw`, `_last_press_ms_access`, `preset_index`,
      `last_preset_step_ms`. */
  datatype Cursor = Cursor(lastSwRaw: Level, lastPressMs: nat, index: int, lastStepMs: nat)

  predicate ValidIndex(i: int) { 0 <= i < Catalog.PRESET_COUNT }

  /** The two preset slots every access-mode firmware has. */
  const SLOT_A := 0
  const SLOT_B := 1

  /** The other one of slots A and B. */
  function Other(s: int): (o: int)
    requires s in {SLOT_A, SLOT_B}
    ensures o in {SLOT_A, SLOT_B} && o != s
  {
    if s == SLOT_A then SLOT_B else SLOT_A
  }

  /** Slot `s` of a slot table holds a preset and that preset's program. */
  predicate SlotOk(index: seq<int>, pc: seq<int>, s: int)
  {
    0 <= s < |index| && s < |pc| && ValidIndex(index[s]) && pc[s] == Catalog.WhammyProgram(index[s])
  }

  /** A slot table of `n` slots, each holding a preset and its program. */
  predicate SlotTable(index: seq<int>, pc: seq<int>, n: nat)
  {
    |index| == n && |pc| == n && forall s :: 0 <= s < n ==> SlotOk(index, pc, s)
  }

  /** Storing a preset in one slot keeps the table well formed. */
  lemma SlotTableStore(index: seq<int>, pc: seq<int>, n: nat, s: int, i: int)
    requires SlotTable(index, pc, n) && 0 <= s < n && ValidIndex(i)
    ensures SlotTable(index[s := i], pc[s := Catalog.WhammyProgram(i)], n)
  {
    var index', pc' := index[s := i], pc[s := Catalog.WhammyProgram(i)];
    forall t | 0 <= t < n
      ensures SlotOk(index', pc', t)
    {
      if t != s {
        assert SlotOk(index, pc, t);
      }
    }
  }

  /** The cursor after a switch between access and normal mode, aligned with
      the stored preset `index` of the slot being edited. */
  function Entered(c: Cursor, index: int): (r: Cursor)
    ensures r.lastSwRaw == RELEASED && r.lastPressMs == 0 && r.index == index && r.lastStepMs == c.lastStepMs
  {
    Cursor(RELEASED, 0, index, c.lastStepMs)
  }

  /** The next preset, wrapping after the last (scroll direction is always
      forward). */
  function Next(i: int): (j: int)
    requires ValidIndex(i)
    ensures ValidIndex(j)
    ensures j == (if i == Catalog.PRESET_COUNT - 1 then 0 else i + 1)
  {
    (i + 1) % Catalog.PRESET_COUNT
  }

  /** What one access-mode pass did with the cursor. */
  datatype Event = Quiet | DoubleClick | Stepped

  /** One access-mode pass at `now` with the raw switch level `raw`. */
  function Step(c: Cursor, now: nat, raw: Level): (r: (Cursor, Event))
    requires ValidIndex(c.index)
    ensures ValidIndex(r.0.index) && r.0.lastSwRaw == raw
    ensures r.1 == DoubleClick <==>
      c.lastSwRaw == RELEASED && raw == PRESSED && 0 < now - c.lastPressMs <= DOUBLE_CLICK_MS
    ensures r.1 == DoubleClick ==> r.0.lastPressMs == 0 && r.0.index == c.index && r.0.lastStepMs == c.lastStepMs
    ensures r.1 == Stepped <==>
      r.1 != DoubleClick && raw == PRESSED && (c.lastSwRaw == RELEASED || now - c.lastStepMs >= PRESET_SCROLL_INTERVAL_MS)
    ensures r.1 == Stepped ==> r.0.index == Next(c.index) && r.0.lastStepMs == now
    ensures r.1 == Quiet ==> r.0.index == c.index
    ensures r.1 != DoubleClick && c.lastSwRaw == RELEASED && raw == PRESSED ==> r.0.lastPressMs == now
    ensures raw == RELEASED ==> r.1 == Quiet && r.0.lastStepMs == now && r.0.lastPressMs == c.lastPressMs
  {
    var pressEdge := c.lastSwRaw == RELEASED && raw == PRESSED;
    if pressEdge && 0 < now - c.lastPressMs <= DOUBLE_CLICK_MS then
      (Cursor(raw, 0, c.index, c.lastStepMs), DoubleClick)
    else
      var lastPress := if pressEdge then now else c.lastPressMs;
      if pressEdge then
        (Cursor(raw, lastPress, Next(c.index), now), Stepped)
      else if raw == PRESSED && now - c.lastStepMs >= PRESET_SCROLL_INTERVAL_MS then
        (Cursor(raw, lastPress, Next(c.index), now), Stepped)
      else if raw == RELEASED then
        (Cursor(raw, lastPress, c.index, now), Quiet)
      else
        (Cursor(raw, lastPress, c.index, c.lastStepMs), Quiet)
  }

  /** Holding the switch scrolls no faster than one preset per
      PRESET_SCROLL_INTERVAL_MS. */
  lemma HoldScrollRate(c: Cursor, now: nat)
    requires ValidIndex(c.index) && c.lastSwRaw == PRESSED
    requires Step(c, now, PRESSED).1 == Stepped
    ensures now - c.lastStepMs >= PRESET_SCROLL_INTERVAL_MS
  {
  }

  /** Any number of steps moves the cursor that many presets on, wrapping
      past the last; in particular seventeen bring it back where it started. */
  lemma {:induction false} FullCycle(i: int, n: nat)
    requires ValidIndex(i)
    ensures Iterate(i, n) == (i + n) % Catalog.PRESET_COUNT
  {
    if n > 0 {
      FullCycle(i, n - 1);
      NextMod(i + n - 1);
    }
  }

  /** One step from a position counted past the end wraps like the count. */
  lemma NextMod(m: nat)
    ensures Next(m % Catalog.PRESET_COUNT) == (m + 1) % Catalog.PRESET_COUNT
  {
    var q, r := m / Catalog.PRESET_COUNT, m % Catalog.PRESET_COUNT;
    assert m + 1 == Catalog.PRESET_COUNT * q + (r + 1);
    if r + 1 < Catalog.PRESET_COUNT {
      assert (m + 1) / Catalog.PRESET_COUNT == q;
    } else {
      assert (m + 1) / Catalog.PRESET_COUNT == q + 1;
    }
  }

  /** `n` steps of the cursor. */
  function Iterate(i: int, n: nat): (j: int)
    requires ValidIndex(i)
    ensures ValidIndex(j)
  {
    if n == 0 then i else Next(Iterate(i, n - 1))
  }

  /** A double click right after the one before is not another double click:
      the press time is cleared, so the next press counts from boot time 0. */
  lemma DoubleClickClearsPressTime(c: Cursor, now: nat, later: nat)
    requires ValidIndex(c.index) && Step(c, now, PRESSED).1 == DoubleClick
    requires later > DOUBLE_CLICK_MS
    ensures var c1 := Step(c, now, PRESSED).0;
            Step(c1.(lastSwRaw := RELEASED), later, PRESSED).1 == Stepped
  {
  }
}

=== FILE: curves.dfy ===
/** The preset and settings tables of the firmware. */
module Catalog {
  /** A catalog entry: a display name and the program it selects. */
  datatype Preset = Preset(name: string, program: int)

  /** NEO firmware: the 17 Whammy 4 presets, programs 0..16. */
  const NEO_PRESETS: seq<Preset> := [
    Preset("Detune Shallow", 0), Preset("Detune Deep", 1),
    Preset("Whammy: Up 2 Oct", 2), Preset("Whammy: Up 1 Oct", 3),
    Preset("Whammy: Down 1 Oct", 4), Preset("Whammy: Down 2 Oct", 5),
    Preset("Whammy: Dive Bomb", 6), Preset("Whammy: Drop Tune", 7),
    Preset("Harmony: Oct/Oct", 8), Preset("Harmony: 5th/4th", 9),
    Preset("Harmony: 4th/3rd", 10), Preset("Harmony: 5th/7th", 11),
    Preset("Harmony: 5th/6th", 12), Preset("Harmony: 4th/5th", 13),
    Preset("Harmony: 3rd/4th", 14), Preset("Harmony: b3rd/3rd", 15),
    Preset("Harmony: 2nd/3rd", 16)]

  /** NEO firmware: the four mode entries of the settings layer; their
      programs are only shown as scroll feedback. */
  const NEO_SETTINGS: seq<Preset> := [
    Preset("Mode: Latch (default ON)", 16),
    Preset("Mode: Momentary (default OFF)", 15),
    Preset("Mode: Holding (pot timeout)", 14),
    Preset("Mode: Shutter (pot timeout)", 13)]

  /** v1 firmware: the same 17 presets numbered 1..17. */
  const WHAMMY_PRESETS: seq<Preset> := [
    Preset("Detune Shallow", 1), Preset("Detune Deep", 2),
    Preset("Whammy: Up 2 Oct", 3), Preset("Whammy: Up 1 Oct", 4),
    Preset("Whammy: Down 1 Oct", 5), Preset("Whammy: Down 2 Oct", 6),
    Preset("Whammy: Dive Bomb", 7), Preset("Whammy: Drop Tune", 8),
    Preset("Harmony: Oct/Oct", 9), Preset("Harmony: 5th/4th", 10),
    Preset("Harmony: 4th/3rd", 11), Preset("Harmony: 5th/7th", 12),
    Preset("Harmony: 5th/6th", 13), Preset("Harmony: 4th/5th", 14),
    Preset("Harmony: 3rd/4th", 15), Preset("Harmony: b3rd/3rd", 16),
    Preset("Harmony: 2nd/3rd", 17)]

  const PRESET_COUNT := 17
  const SETTINGS_COUNT := 4

  /** The NEO numbers its presets by position; the v1 firmware from one. */
  lemma ProgramNumbering(i: int)
    requires 0 <= i < PRESET_COUNT
    ensures |NEO_PRESETS| == |WHAMMY_PRESETS| == PRESET_COUNT && |NEO_SETTINGS| == SETTINGS_COUNT
    ensures NEO_PRESETS[i].program == i
    ensures WHAMMY_PRESETS[i].program == i + 1
    ensures NEO_PRESETS[i].name == WHAMMY_PRESETS[i].name
  {
  }

  /** The program a v1 preset index selects. */
  function WhammyProgram(i: int): (p: int)
    requires 0 <= i < PRESET_COUNT
    ensures p == i + 1
  {
    ProgramNumbering(i);
    WHAMMY_PRESETS[i].program
  }

  /** The program a NEO preset index selects. */
  function NeoProgram(i: int): (p: int)
    requires 0 <= i < PRESET_COUNT
    ensures p == i
  {
    ProgramNumbering(i);
    NEO_PRESETS[i].program
  }

  /** The settings entries show programs 16, 15, 14, 13. */
  lemma SettingsPrograms(i: int)
    requires 0 <= i < SETTINGS_COUNT
    ensures NEO_SETTINGS[i].program == 16 - i
  {
  }
}

/**
  Integer potentiometer curves of the firmware: clamping, the blended
  linear/quadratic curve of the NEO firmware and the linear reversed
  half-period map of the shutter firmware.
*/
module PotCurve {
  const U16_MAX := 65535

  /** Shutter half-period range of the v0/v1 firmware, in ms. */
  const MIN_HALF_MS := 30
  const MAX_HALF_MS := 1000

  /** `clamp(v, lo, hi)`. */
  function Clamp(v: int, lo: int, hi: int): (r: int)
    ensures lo <= hi ==> lo <= r <= hi
    ensures lo <= v <= hi ==> r == v
    ensures v < lo ==> r == lo
    ensures lo <= hi < v ==> r == hi
  {
    if v < lo then lo else if v > hi then hi else v
  }

  lemma MulMonotone(a: int, b: int, c: int)
    requires 0 <= a <= b && 0 <= c
    ensures a * c <= b * c
  {
  }

  lemma DivMonotone(a: int, b: int, d: int)
    requires 0 <= a <= b && d > 0
    ensures a / d <= b / d
  {
    var qa, qb := a / d, b / d;
    if qa > qb {
      MulMonotone(qb + 1, qa, d);
      assert false;
    }
  }

  /** The quadratic half of the curve: `(x * x) >> 16`. */
  function Quadratic(x: int): int
    requires x >= 0
  {
    (x * x) / 65536
  }

  /** `y` of `map_u16_expo`: k_percent tenths of a percent quadratic, the
      rest linear, still on the 0..65535 scale. */
  function Blend(x: int, kPercent: int): int
    requires x >= 0
  {
    (Quadratic(x) * kPercent + x * (1000 - kPercent)) / 1000
  }

  /** `map_u16_expo(raw_u16, lo, hi, k_percent)`. Python's `>>` and `//` agree
      with Dafny's `/` on the non-negative values the curve computes. */
  function MapU16Expo(raw: int, lo: int, hi: int, kPercent: int): int
    requires raw >= 0
  {
    lo + (Blend(raw, kPercent) * (hi - lo)) / 65535
  }

  lemma QuadraticBounds(x: int)
    requires 0 <= x <= U16_MAX
    ensures 0 <= Quadratic(x) <= x
    ensures x == U16_MAX ==> Quadratic(x) == 65534
  {
    MulMonotone(x, 65536, x);
    DivMonotone(x * x, 65536 * x, 65536);
  }

  lemma BlendBounds(x: int, k: int)
    requires 0 <= x <= U16_MAX && 0 <= k <= 1000
    ensures 0 <= Blend(x, k) <= x
  {
    QuadraticBounds(x);
    var q := Quadratic(x);
    MulMonotone(0, q, k);
    MulMonotone(0, x, 1000 - k);
    MulMonotone(q, x, k);
    assert x * k + x * (1000 - k) == x * 1000;
    DivMonotone(q * k + x * (1000 - k), x * 1000, 1000);
    assert x * 1000 / 1000 == x;
  }

  /** The NEO curve stays in [lo, hi] and starts at lo. */
  lemma MapU16ExpoRange(raw: int, lo: int, hi: int, k: int)
    requires 0 <= raw <= U16_MAX && 0 <= k <= 1000 && lo <= hi
    ensures lo <= MapU16Expo(raw, lo, hi, k) <= hi
    ensures MapU16Expo(0, lo, hi, k) == lo
  {
    BlendBounds(raw, k);
    var y := Blend(raw, k);
    MulMonotone(y, U16_MAX, hi - lo);
    DivMonotone(y * (hi - lo), U16_MAX * (hi - lo), U16_MAX);
    assert Quadratic(0) == 0;
  }

  lemma QuadraticMonotone(x: int, x': int)
    requires 0 <= x <= x'
    ensures Quadratic(x) <= Quadratic(x')
  {
    MulMonotone(x, x', x);
    MulMonotone(x, x', x');
    DivMonotone(x * x, x' * x', 65536);
  }

  lemma BlendMonotone(x: int, x': int, k: int)
    requires 0 <= x <= x' && 0 <= k <= 1000
    ensures Blend(x, k) <= Blend(x', k)
  {
    var q, q' := Quadratic(x), Quadratic(x');
    QuadraticMonotone(x, x');
    MulMonotone(q, q', k);
    MulMonotone(x, x', 1000 - k);
    MulMonotone(0, q, k);
    MulMonotone(0, x, 1000 - k);
    DivMonotone(q * k + x * (1000 - k), q' * k + x' * (1000 - k), 1000);
  }

  /** The NEO curve never decreases as the pot turns up. */
  lemma MapU16ExpoMonotone(x: int, x': int, lo: int, hi: int, k: int)
    requires 0 <= x <= x' <= U16_MAX && 0 <= k <= 1000 && lo <= hi
    ensures MapU16Expo(x, lo, hi, k) <= MapU16Expo(x', lo, hi, k)
  {
    BlendMonotone(x, x', k);
    BlendBounds(x, k);
    ScaleMonotone(Blend(x, k), Blend(x', k), hi - lo);
  }

  lemma ScaleMonotone(y: int, y': int, span: int)
    requires 0 <= y <= y' && 0 <= span
    ensures (y * span) / U16_MAX <= (y' * span) / U16_MAX
  {
    MulMonotone(y, y', span);
    DivMonotone(y * span, y' * span, U16_MAX);
  }

  /** With any quadratic share at all, the pot's top position lands one ms
      short of `hi`: the upper clamp the NEO applies never takes effect. */
  lemma MapU16ExpoTop(lo: int, hi: int, k: int)
    requires 1 <= k <= 1000 && 1 <= hi - lo <= U16_MAX
    ensures MapU16Expo(U16_MAX, lo, hi, k) == hi - 1
  {
    QuadraticBounds(U16_MAX);
    assert Blend(U16_MAX, k) == (65535000 - k) / 1000;
    assert Blend(U16_MAX, k) == 65534;
    var span := hi - lo;
    assert 65534 * span == 65535 * (span - 1) + (65535 - span);
  }

  /** `map_pot_to_half_ms(v)` of the shutter firmware. */
  function MapPotToHalfMs(v: int): int
    requires v >= 0
  {
    MAX_HALF_MS - (v * (MAX_HALF_MS - MIN_HALF_MS)) / 65535
  }

  /** Pot fully down gives the slowest shutter (1000 ms), fully up the
      fastest (30 ms), and every position lies in between. */
  lemma MapPotToHalfMsRange(v: int)
    requires 0 <= v <= U16_MAX
    ensures MapPotToHalfMs(0) == MAX_HALF_MS && MapPotToHalfMs(U16_MAX) == MIN_HALF_MS
    ensures MIN_HALF_MS <= MapPotToHalfMs(v) <= MAX_HALF_MS
  {
    MulMonotone(v, U16_MAX, MAX_HALF_MS - MIN_HALF_MS);
    DivMonotone(v * 970, U16_MAX * 970, 65535);
  }

  /** Turning the pot up never slows the shutter down. */
  lemma MapPotToHalfMsAntitone(v: int, w: int)
    requires 0 <= v <= w
    ensures MapPotToHalfMs(w) <= MapPotToHalfMs(v)
  {
    MulMonotone(v, w, 970);
    DivMonotone(v * 970, w * 970, 65535);
  }

  /** `pot_pct = (pot_u16_mean * 100) // 65535`. */
  function PotPercent(mean: int): (pct: int)
    requires 0 <= mean <= U16_MAX
    ensures 0 <= pct <= 100
    ensures mean == 0 ==> pct == 0
    ensures mean == U16_MAX ==> pct == 100
  {
    MulMonotone(mean, U16_MAX, 100);
    DivMonotone(mean * 100, U16_MAX * 100, 65535);
    (mean * 100) / 65535
  }

  /** The half period the shutter firmware derives from a filtered pot mean:
      `clamp(map_pot_to_half_ms(mean), MIN_HALF_MS, MAX_HALF_MS)`. */
  function HalfMsFor(mean: int): (h: int)
    requires 0 <= mean <= U16_MAX
    ensures MIN_HALF_MS <= h <= MAX_HALF_MS
    ensures h == MapPotToHalfMs(mean)
  {
    MapPotToHalfMsRange(mean);
    Clamp(MapPotToHalfMs(mean), MIN_HALF_MS, MAX_HALF_MS)
  }
}

=== FILE: debounce.dfy ===
/**
  The switch debouncer every firmware runs on its footswitch (and the NEO on
  its layer switch, the v1 firmware on its access pin): the last raw level,
  the time it last changed and the accepted ("stable") level. The stable
  level follows the raw level once the raw level has stayed unchanged for
  DEBOUNCE_MS.

  Levels are those of a pull-up input: 0 is pressed (switch to ground),
  1 is released.
*/
module Debounce {
  const DEBOUNCE_MS := 30

  const PRESSED := 0
  const RELEASED := 1

  type Level = x: int | 0 <= x <= 1

  datatype Debouncer = Debouncer(last: Level, lastChange: nat, stable: Level)

  /** The state right after boot: the level read at `now`, taken as stable. */
  function Init(level: Level, now: nat): (d: Debouncer)
    ensures d.stable == d.last == level && d.lastChange == now
  {
    Debouncer(level, now, level)
  }

  /** One poll of the raw level at time `now`: a raw change restarts the
      timer; a level that has been held for DEBOUNCE_MS and differs from the
      stable one becomes stable. The boolean tells whether the stable level
      changed (a debounced edge). */
  function Step(d: Debouncer, now: nat, raw: Level): (r: (Debouncer, bool))
    requires d.lastChange <= now
    ensures r.1 <==> raw == d.last && now - d.lastChange >= DEBOUNCE_MS && raw != d.stable
    ensures r.0.last == raw && r.0.stable == (if r.1 then raw else d.stable)
    ensures r.0.lastChange <= now
    ensures raw == d.last ==> r.0.lastChange == d.lastChange
  {
    var d1 := if raw != d.last then Debouncer(raw, now, d.stable) else d;
    if now - d1.lastChange >= DEBOUNCE_MS && d1.stable != d1.last then
      (d1.(stable := d1.last), true)
    else
      (d1, false)
  }

  /** The debounced edge one poll produced, if any. */
  datatype Edge = NoEdge | PressEdge | ReleaseEdge

  /** The edge of `Step(d, now, raw)`: a press when the stable level became
      PRESSED, a release when it became RELEASED. */
  function EdgeOf(d: Debouncer, now: nat, raw: Level): (e: Edge)
    requires d.lastChange <= now
    ensures e == PressEdge <==> Step(d, now, raw).1 && raw == PRESSED
    ensures e == ReleaseEdge <==> Step(d, now, raw).1 && raw == RELEASED
  {
    var r := Step(d, now, raw);
    if !r.1 then NoEdge
    else if r.0.stable == PRESSED then PressEdge
    else ReleaseEdge
  }

  /** One poll of a switch: the time and the raw level read. */
  datatype Sample = Sample(time: nat, level: Level)

  /** Samples taken in time order, none before `t`. */
  predicate Chronological(t: nat, s: seq<Sample>)
    decreases |s|
  {
    s == [] || (t <= s[0].time && Chronological(s[0].time, s[1..]))
  }

  /** A run that starts no earlier than `t` starts no earlier than `t' <= t`. */
  lemma ChronologicalEarlier(t: nat, t': nat, s: seq<Sample>)
    requires t' <= t && Chronological(t, s)
    ensures Chronological(t', s)
  {
  }

  /** The debouncer after a run of polls, and the number of edges it saw. */
  function Run(d: Debouncer, s: seq<Sample>): (Debouncer, nat)
    requires Chronological(d.lastChange, s)
    decreases |s|
  {
    if s == [] then (d, 0)
    else
      var (d1, edge) := Step(d, s[0].time, s[0].level);
      ChronologicalEarlier(s[0].time, d1.lastChange, s[1..]);
      var (d2, n) := Run(d1, s[1..]);
      (d2, n + if edge then 1 else 0)
  }

  /** A bounce or glitch is ignored: starting from a debouncer whose raw
      level is settled, no run of polls that all fall within DEBOUNCE_MS of
      the glitch's start can change the stable level. */
  lemma {:induction false} GlitchIgnored(d: Debouncer, s: seq<Sample>, t0: nat)
    requires Chronological(d.lastChange, s)
    requires d.last != d.stable ==> d.lastChange >= t0
    requires forall i :: 0 <= i < |s| ==> t0 <= s[i].time < t0 + DEBOUNCE_MS
    ensures Run(d, s).1 == 0 && Run(d, s).0.stable == d.stable
    decreases |s|
  {
    if s != [] {
      var (d1, edge) := Step(d, s[0].time, s[0].level);
      assert !edge;
      GlitchIgnored(d1, s[1..], t0);
    }
  }

  /** Once the raw level `v` has been read, holding it for DEBOUNCE_MS makes
      it stable, whatever the stable level was. */
  lemma {:induction false} HeldLevelBecomesStable(d: Debouncer, s: seq<Sample>, v: Level)
    requires Chronological(d.lastChange, s) && s != []
    requires d.last == v
    requires forall i :: 0 <= i < |s| ==> s[i].level == v
    requires s[|s| - 1].time >= d.lastChange + DEBOUNCE_MS
    ensures Run(d, s).0.stable == v
    decreases |s|
  {
    var (d1, edge) := Step(d, s[0].time, v);
    if |s| == 1 {
      assert s[1..] == [];
    } else {
      assert s[1..][|s| - 2] == s[|s| - 1];
      HeldLevelBecomesStable(d1, s[1..], v);
    }
  }

  /** A level held by every poll for DEBOUNCE_MS after its first read is
      accepted, from any debouncer state. */
  lemma SteadyLevelAccepted(d: Debouncer, s: seq<Sample>, v: Level)
    requires Chronological(d.lastChange, s) && |s| >= 2
    requires forall i :: 0 <= i < |s| ==> s[i].level == v
    requires s[|s| - 1].time >= s[0].time + DEBOUNCE_MS
    ensures Run(d, s).0.stable == v
  {
    var (d1, edge) := Step(d, s[0].time, v);
    if d1.stable != v {
      assert s[1..][|s| - 2] == s[|s| - 1];
      HeldLevelBecomesStable(d1, s[1..], v);
    } else {
      StableStays(d1, s[1..], v);
    }
  }

  /** A stable level equal to every polled level never changes. */
  lemma {:induction false} StableStays(d: Debouncer, s: seq<Sample>, v: Level)
    requires Chronological(d.lastChange, s)
    requires d.stable == v
    requires forall i :: 0 <= i < |s| ==> s[i].level == v
    ensures Run(d, s).0.stable == v && Run(d, s).1 == 0
    decreases |s|
  {
    if s != [] {
      var (d1, edge) := Step(d, s[0].time, v);
      StableStays(d1, s[1..], v);
    }
  }
}

=== FILE: gate_access.dfy ===
/**
  The shutter gate with MIDI access mode (Whammy4_Shutter_Gate_TESTONLY.py).

  Normal mode: a held footswitch runs the relay shutter (after TAP_MAX_MS,
  so taps never touch the relays) and sends the active slot's program when it
  starts; a double tap switches the active slot between A and B.

  Access mode (access pin to ground, read without debouncing): the relays
  stay WET, the footswitch scrolls through the presets with a program
  preview per step, a double click switches the slot being edited, and a
  selection left alone for PENDING_SAVE_MS is written to the slot being
  edited, confirmed by a program flicker, and editing moves on to the other
  slot.
*/
module GateAccess {
  import opened Optional
  import opened Debounce
  import Midi
  import Catalog
  import Pot
  import PotCurve
  import Relay
  import ShutterTaps
  import AccessCursor

  const POT_EVERY_MS := 10

  /** MIDI_PC_OFF: the fixed program of the confirmation flicker. */
  const MIDI_PC_OFF := 28

  class Gate {
    var lastAccess: Option<bool>
    var sw: Debouncer
    var cursor: AccessCursor.Cursor
    var taps: ShutterTaps.Taps
    var active: bool
    var lastToggle: nat
    var lastPotMs: nat
    var halfMs: int
    var slotIndex: seq<int>
    var slotPc: seq<int>
    var activeSlot: int
    var editSlot: int
    var pendingActive: bool
    var pendingIndex: int
    var pendingPc: int
    var pendingLastChange: nat
    /** Every Program Change sent, in order. */
    var sent: seq<Midi.Msg>
    const relay: Relay.RelayPair
    const pot: Pot.PotFilter

    ghost predicate Valid()
      reads this, relay, pot
    {
      && relay.Valid() && pot.Valid()
      && AccessCursor.SlotTable(slotIndex, slotPc, 2)
      && activeSlot in {AccessCursor.SLOT_A, AccessCursor.SLOT_B} && editSlot in {AccessCursor.SLOT_A, AccessCursor.SLOT_B}
      && AccessCursor.ValidIndex(cursor.index)
      && AccessCursor.ValidIndex(pendingIndex) && pendingPc == Catalog.WhammyProgram(pendingIndex)
      && PotCurve.MIN_HALF_MS <= halfMs <= PotCurve.MAX_HALF_MS
      // the relays stay WET in access mode, and are DRY in normal mode
      // whenever the shutter is not running
      && (lastAccess == Some(true) ==> relay.aState == Relay.WET)
      && (lastAccess != Some(true) && !active ==> relay.aState == Relay.DRY)
    }

    constructor (now: nat, rawSw: Level)
      ensures Valid() && fresh(relay) && fresh(pot)
      ensures lastAccess == None && !active && sent == [] && taps == ShutterTaps.Idle
      ensures slotIndex == [0, 0] && activeSlot == AccessCursor.SLOT_A && editSlot == AccessCursor.SLOT_A
    {
      lastAccess := None;
      sw := Init(rawSw, now);
      cursor := AccessCursor.Cursor(RELEASED, 0, 0, 0);
      taps := ShutterTaps.Idle;
      active := false;
      lastToggle := now;
      lastPotMs := now;
      halfMs := PotCurve.MAX_HALF_MS;
      slotIndex := [0, 0];
      slotPc := [Catalog.WhammyProgram(0), Catalog.WhammyProgram(0)];
      activeSlot := AccessCursor.SLOT_A;
      editSlot := AccessCursor.SLOT_A;
      pendingActive := false;
      pendingIndex := 0;
      pendingPc := Catalog.WhammyProgram(0);
      pendingLastChange := 0;
      sent := [];
      relay := new Relay.RelayPair();
      pot := new Pot.PotFilter();
    }

    /** `set_effect(on)`: start the shutter WET at `now` with a freshly primed
        pot, sending the active slot's program; or stop it DRY. */
    method SetEffect(on: bool, now: nat, potSample: int)
      requires Valid() && Pot.IsU16(potSample) && lastAccess != Some(true)
      modifies this`active, this`halfMs, this`lastPotMs, this`lastToggle, this`sent, relay, pot
      ensures Valid() && active == on && relay.aState == (if on then Relay.WET else Relay.DRY)
      ensures on ==> pot.State() == Pot.Primed(potSample) && halfMs == PotCurve.MapPotToHalfMs(potSample)
                     && lastToggle == now && lastPotMs == now
                     && sent == old(sent) + [Midi.ProgramChange(slotPc[activeSlot])]
      ensures !on ==> unchanged(pot) && sent == old(sent) && halfMs == old(halfMs)
                      && lastToggle == old(lastToggle) && lastPotMs == old(lastPotMs)
    {
      if on {
        active := true;
        pot.Prime(potSample);
        halfMs := PotCurve.HalfMsFor(pot.mean);
        lastPotMs := now;
        relay.SetAB(Relay.WET);
        lastToggle := now;
        sent := sent + [Midi.ProgramChange(slotPc[activeSlot])];
      } else {
        active := false;
        relay.SetAB(Relay.DRY);
      }
    }

    /** One pass of the main loop: the access pin level, the raw footswitch
        level and the pot reading of this pass. */
    method Tick(now: nat, accessPin: Level, rawSw: Level, potSample: int)
      requires Valid() && Pot.IsU16(potSample) && sw.lastChange <= now
      modifies this, relay, pot
      ensures Valid() && lastAccess == Some(accessPin == PRESSED)
      ensures sw.lastChange <= now
    {
      var access := accessPin == PRESSED;
      ModeSwitch(now, access, rawSw);
      if access {
        AccessPass(now, rawSw);
      } else {
        NormalPass(now, rawSw, potSample);
      }
    }

    /** One normal-mode pass: footswitch, gestures, pot, shutter. */
    method NormalPass(now: nat, rawSw: Level, potSample: int)
      requires Valid() && Pot.IsU16(potSample) && sw.lastChange <= now && lastAccess == Some(false)
      modifies this`sw, this`taps, this`active, this`activeSlot, this`halfMs, this`lastPotMs,
               this`lastToggle, this`sent, relay, pot
      ensures Valid() && sw == Step(old(sw), now, rawSw).0
    {
      var edge := SwitchPhase(now, rawSw, potSample);
      ghost var sw1 := sw;
      GesturePhase(now, edge, rawSw == PRESSED, potSample);
      assert sw == sw1;
      PotPhase(now, potSample);
      assert sw == sw1;
      TogglePhase(now);
      assert sw == sw1;
    }

    /** On the first pass and whenever the access pin changes: reset the
        switch tracking and the gestures; entering access mode goes WET,
        starts editing the active slot and previews it; leaving it goes DRY
        unless the shutter is running. */
    method ModeSwitch(now: nat, access: bool, rawSw: Level)
      requires Valid() && sw.lastChange <= now
      modifies this`lastAccess, this`cursor, this`sw, this`taps, this`editSlot, this`pendingActive, this`sent, relay
      ensures Valid() && lastAccess == Some(access) && sw.lastChange <= now
      ensures old(lastAccess) == Some(access) ==> unchanged(this, relay)
      ensures old(lastAccess) != Some(access) ==>
        && sw == Init(rawSw, now) && taps == ShutterTaps.Idle
        && cursor.lastSwRaw == RELEASED && cursor.lastPressMs == 0
      ensures old(lastAccess) != Some(access) && access ==>
        && editSlot == activeSlot && cursor.index == slotIndex[editSlot] && !pendingActive
        && sent == old(sent) + [Midi.ProgramChange(slotPc[editSlot])]
      ensures old(lastAccess) != Some(access) && !access ==>
        sent == old(sent) && editSlot == old(editSlot) && cursor.index == old(cursor.index)
        && pendingActive == old(pendingActive)
    {
      if lastAccess != Some(access) {
        lastAccess := Some(access);
        cursor := AccessCursor.Entered(cursor, cursor.index);
        sw := Init(rawSw, now);
        taps := ShutterTaps.Idle;
        if access {
          relay.SetAB(Relay.WET);
          editSlot := activeSlot;
          sent := sent + [Midi.ProgramChange(slotPc[editSlot])];
          assert AccessCursor.SlotOk(slotIndex, slotPc, editSlot);
          cursor := cursor.(index := slotIndex[editSlot]);
          pendingActive := false;
        } else if !active {
          relay.SetAB(Relay.DRY);
        }
      }
    }

    /** One access-mode pass: cursor, double click, preview, commit. */
    method AccessPass(now: nat, raw: Level)
      requires Valid() && lastAccess == Some(true)
      modifies this`cursor, this`editSlot, this`pendingActive, this`pendingIndex, this`pendingPc,
               this`pendingLastChange, this`sent, this`slotIndex, this`slotPc
      ensures Valid()
      ensures AccessCursor.Step(old(cursor), now, raw).1 == AccessCursor.DoubleClick ==>
        && editSlot == AccessCursor.Other(old(editSlot)) && !pendingActive
        && cursor.index == slotIndex[editSlot] && slotIndex == old(slotIndex)
        && sent == old(sent) + [Midi.ProgramChange(slotPc[editSlot])]
    {
      var r := AccessCursor.Step(cursor, now, raw);
      cursor := r.0;
      if r.1 == AccessCursor.DoubleClick {
        editSlot := AccessCursor.Other(editSlot);
        sent := sent + [Midi.ProgramChange(slotPc[editSlot])];
        assert AccessCursor.SlotOk(slotIndex, slotPc, editSlot);
        cursor := cursor.(index := slotIndex[editSlot]);
        pendingActive := false;
        return;
      }
      if r.1 == AccessCursor.Stepped {
        var pc := Catalog.WhammyProgram(cursor.index);
        sent := sent + [Midi.ProgramChange(pc)];
        pendingActive := true;
        pendingIndex := cursor.index;
        pendingPc := pc;
        pendingLastChange := now;
      }
      CommitPhase(now);
    }

    /** The auto-commit: a pending selection untouched for PENDING_SAVE_MS is
        written to the slot being edited and confirmed; editing then moves on
        to the other slot, previewed, with the cursor on its preset. */
    method CommitPhase(now: nat)
      requires Valid() && lastAccess == Some(true)
      modifies this`cursor, this`editSlot, this`pendingActive, this`sent, this`slotIndex, this`slotPc
      ensures Valid()
      ensures old(pendingActive) && now - pendingLastChange >= AccessCursor.PENDING_SAVE_MS ==>
        && slotIndex == old(slotIndex)[old(editSlot) := pendingIndex]
        && slotPc == old(slotPc)[old(editSlot) := pendingPc]
        && !pendingActive
        && editSlot == AccessCursor.Other(old(editSlot))
        && cursor.index == slotIndex[editSlot]
        && cursor.lastPressMs == 0 && cursor.lastStepMs == now
        && sent == old(sent) + Midi.Confirm(MIDI_PC_OFF, pendingPc, Midi.CONFIRM_TOGGLES)
                             + [Midi.ProgramChange(slotPc[editSlot])]
      ensures !(old(pendingActive) && now - pendingLastChange >= AccessCursor.PENDING_SAVE_MS) ==>
        unchanged(this)
    {
      if pendingActive && now - pendingLastChange >= AccessCursor.PENDING_SAVE_MS {
        AccessCursor.SlotTableStore(slotIndex, slotPc, |slotIndex|, editSlot, pendingIndex);
        slotIndex := slotIndex[editSlot := pendingIndex];
        slotPc := slotPc[editSlot := pendingPc];
        pendingActive := false;
        sent := sent + Midi.Confirm(MIDI_PC_OFF, slotPc[editSlot], Midi.CONFIRM_TOGGLES);
        editSlot := AccessCursor.Other(editSlot);
        sent := sent + [Midi.ProgramChange(slotPc[editSlot])];
        assert AccessCursor.SlotOk(slotIndex, slotPc, editSlot);
        cursor := cursor.(index := slotIndex[editSlot], lastPressMs := 0, lastStepMs := now);
      }
    }

    /** The normal-mode footswitch: debounce it, and stop a running shutter
        on a debounced release. Returns the debounced edge. */
    method SwitchPhase(now: nat, rawSw: Level, potSample: int) returns (edge: Edge)
      requires Valid() && Pot.IsU16(potSample) && sw.lastChange <= now && lastAccess == Some(false)
      modifies this`sw, this`active, relay
      ensures Valid() && sw == Step(old(sw), now, rawSw).0 && edge == EdgeOf(old(sw), now, rawSw)
      ensures edge == ReleaseEdge ==> !active && relay.aState == Relay.DRY
      ensures edge != ReleaseEdge ==> active == old(active) && unchanged(relay)
    {
      edge := EdgeOf(sw, now, rawSw);
      sw := Step(sw, now, rawSw).0;
      if edge == ReleaseEdge && active {
        active := false;
        relay.SetAB(Relay.DRY);
      }
    }

    /** The gestures: a double tap switches the active slot and sends its
        program; a press held past TAP_MAX_MS starts the shutter. */
    method GesturePhase(now: nat, edge: Edge, pressed: bool, potSample: int)
      requires Valid() && Pot.IsU16(potSample) && lastAccess == Some(false)
      modifies this`taps, this`active, this`activeSlot, this`halfMs, this`lastPotMs,
               this`lastToggle, this`sent, relay, pot
      ensures Valid()
      ensures var (t, outcome, start) := ShutterTaps.NormalTick(old(taps), now, edge, pressed, old(active));
              && taps == t
              && activeSlot == (if outcome == ShutterTaps.DoubleTap then AccessCursor.Other(old(activeSlot)) else old(activeSlot))
              && (outcome == ShutterTaps.DoubleTap ==> sent == old(sent) + [Midi.ProgramChange(slotPc[activeSlot])])
              && (start ==> active && lastToggle == now && relay.aState == Relay.WET
                            && sent == old(sent) + [Midi.ProgramChange(slotPc[activeSlot])])
              && (!start ==> active == old(active) && unchanged(relay))
    {
      var r := ShutterTaps.NormalTick(taps, now, edge, pressed, active);
      taps := r.0;
      if r.1 == ShutterTaps.DoubleTap {
        activeSlot := AccessCursor.Other(activeSlot);
        sent := sent + [Midi.ProgramChange(slotPc[activeSlot])];
      }
      if r.2 {
        SetEffect(true, now, potSample);
      }
    }

    /** Every POT_EVERY_MS while the shutter runs: filter one pot sample and
        recompute the half period. */
    method PotPhase(now: nat, potSample: int)
      requires Valid() && Pot.IsU16(potSample)
      modifies this`lastPotMs, this`halfMs, pot
      ensures Valid()
      ensures active && now - old(lastPotMs) >= POT_EVERY_MS ==>
        lastPotMs == now && pot.State() == Pot.Step(old(pot.State()), potSample).0
        && halfMs == PotCurve.MapPotToHalfMs(pot.mean)
      ensures !(active && now - old(lastPotMs) >= POT_EVERY_MS) ==>
        unchanged(pot) && lastPotMs == old(lastPotMs) && halfMs == old(halfMs)
    {
      if active && now - lastPotMs >= POT_EVERY_MS {
        lastPotMs := now;
        var _ := pot.Update(potSample);
        halfMs := PotCurve.HalfMsFor(pot.mean);
      }
    }

    /** The relay shutter: flip A (and B) once `half_ms` has passed. */
    method TogglePhase(now: nat)
      requires Valid() && lastAccess == Some(false)
      modifies this`lastToggle, relay
      ensures Valid()
      ensures active && now - old(lastToggle) >= halfMs ==>
        lastToggle == now && relay.aState == Relay.Flip(old(relay.aState))
      ensures !(active && now - old(lastToggle) >= halfMs) ==>
        lastToggle == old(lastToggle) && unchanged(relay)
    {
      if active && now - lastToggle >= halfMs {
        lastToggle := now;
        relay.SetAB(Relay.Flip(relay.aState));
        assert Valid();
      }
    }
  }
}

=== FILE: midi.dfy ===
/** A small Option type shared by the firmware models. */
module Optional {
  datatype Option<T> = None | Some(value: T)
}

/**
  MIDI output of the footswitch firmware: the channel voice messages it sends
  (Program Change, Control Change, Note On, Note Off), their byte encoding as
  laid down for channel voice messages in the MIDI 1.0 Detailed Specification,
  and the "bypass program" arithmetic of the DigiTech Whammy 4 that the
  firmware drives.

  The firmware's MIDI sink is modelled by a log of `Msg` values, one per call
  of a byte builder; `Encode` gives the bytes each call writes to the UART.
*/
module Midi {
  import opened Optional

  type Byte = b: int | 0 <= b < 256

  /** One message as handed to a byte builder: the fields hold the values the
      firmware passes in, the encoding masks them to 7 bits. */
  datatype Msg =
    | ProgramChange(program: int)
    | ControlChange(controller: int, value: int)
    | NoteOn(note: int, velocity: int)
    | NoteOff(note: int, velocity: int)

  /** Status nibbles of the four channel voice messages. */
  const NOTE_OFF_STATUS := 0x80
  const NOTE_ON_STATUS := 0x90
  const CONTROL_CHANGE_STATUS := 0xB0
  const PROGRAM_CHANGE_STATUS := 0xC0

  /** The firmware's `x & 0x7F`. Python's `&` on a negative int acts on the
      infinite two's complement form, which agrees with Euclidean `%`. */
  function Data7(x: int): (r: Byte)
    ensures 0 <= r < 128
    ensures 0 <= x < 128 ==> r == x
    ensures (x - r) % 128 == 0
  {
    x % 128
  }

  /** `kind | (channel & 0x0F)` for a status nibble `kind`. */
  function Status(kind: int, channel: int): (r: Byte)
    requires kind in {NOTE_OFF_STATUS, NOTE_ON_STATUS, CONTROL_CHANGE_STATUS, PROGRAM_CHANGE_STATUS}
    ensures r / 16 == kind / 16 && r % 16 == channel % 16
  {
    kind + channel % 16
  }

  /** The bytes one message puts on the wire on `channel`. */
  function Encode(channel: int, m: Msg): (bytes: seq<Byte>)
    ensures |bytes| == (if m.ProgramChange? then 2 else 3)
    ensures bytes[0] >= 0x80 && bytes[0] % 16 == channel % 16
    ensures forall i :: 1 <= i < |bytes| ==> bytes[i] < 128
  {
    match m
    case ProgramChange(p) => [Status(PROGRAM_CHANGE_STATUS, channel), Data7(p)]
    case ControlChange(c, v) => [Status(CONTROL_CHANGE_STATUS, channel), Data7(c), Data7(v)]
    case NoteOn(n, v) => [Status(NOTE_ON_STATUS, channel), Data7(n), Data7(v)]
    case NoteOff(n, v) => [Status(NOTE_OFF_STATUS, channel), Data7(n), Data7(v)]
  }

  /** The bytes of a whole message log, in order. */
  function Wire(channel: int, log: seq<Msg>): (bytes: seq<Byte>)
    ensures |log| == 0 ==> bytes == []
  {
    if log == [] then [] else Encode(channel, log[0]) + Wire(channel, log[1..])
  }

  /** A message with every field reduced to its 7-bit wire value. */
  function Masked(m: Msg): Msg
  {
    match m
    case ProgramChange(p) => ProgramChange(Data7(p))
    case ControlChange(c, v) => ControlChange(Data7(c), Data7(v))
    case NoteOn(n, v) => NoteOn(Data7(n), Data7(v))
    case NoteOff(n, v) => NoteOff(Data7(n), Data7(v))
  }

  predicate WellFormed(m: Msg)
  {
    match m
    case ProgramChange(p) => 0 <= p < 128
    case ControlChange(c, v) => 0 <= c < 128 && 0 <= v < 128
    case NoteOn(n, v) => 0 <= n < 128 && 0 <= v < 128
    case NoteOff(n, v) => 0 <= n < 128 && 0 <= v < 128
  }

  /** A receiver's reading of one complete channel voice message: the channel
      and the message, or None for anything else. */
  function Decode(bytes: seq<Byte>): Option<(int, Msg)>
  {
    if |bytes| == 2 && bytes[0] / 16 == 0xC && bytes[1] < 128 then
      Some((bytes[0] % 16, ProgramChange(bytes[1])))
    else if |bytes| == 3 && bytes[0] / 16 in {0x8, 0x9, 0xB} && bytes[1] < 128 && bytes[2] < 128 then
      var ch := bytes[0] % 16;
      if bytes[0] / 16 == 0xB then Some((ch, ControlChange(bytes[1], bytes[2])))
      else if bytes[0] / 16 == 0x9 then Some((ch, NoteOn(bytes[1], bytes[2])))
      else Some((ch, NoteOff(bytes[1], bytes[2])))
    else
      None
  }

  /** Every message the firmware builds is read back by a receiver as the same
      kind of message on the channel's low nibble, with 7-bit fields. */
  lemma DecodeEncode(channel: int, m: Msg)
    ensures Decode(Encode(channel, m)) == Some((channel % 16, Masked(m)))
  {
    var b := Encode(channel, m);
    assert b[0] / 16 == (match m
      case ProgramChange(_) => 0xC
      case ControlChange(_, _) => 0xB
      case NoteOn(_, _) => 0x9
      case NoteOff(_, _) => 0x8);
  }

  /** Masking changes nothing for a message whose fields are already 7-bit. */
  lemma {:induction false} MaskedWellFormed(m: Msg)
    requires WellFormed(m)
    ensures Masked(m) == m
  {
  }

  /** With a channel in 0..15 and 7-bit fields, decoding undoes encoding. */
  lemma RoundTrip(channel: int, m: Msg)
    requires 0 <= channel < 16 && WellFormed(m)
    ensures Decode(Encode(channel, m)) == Some((channel, m))
  {
    DecodeEncode(channel, m);
    MaskedWellFormed(m);
  }

  /** An encoded log is the concatenation of its messages' encodings. */
  lemma {:induction false} WireAppend(channel: int, a: seq<Msg>, b: seq<Msg>)
    ensures Wire(channel, a + b) == Wire(channel, a) + Wire(channel, b)
  {
    if a == [] {
      assert a + b == b;
    } else {
      assert (a + b)[1..] == a[1..] + b;
      WireAppend(channel, a[1..], b);
    }
  }

  // ---------------------------------------------------------------------
  // Preset confirmation
  // ---------------------------------------------------------------------

  /** CONFIRM_TOGGLES of the v1 firmware. */
  const CONFIRM_TOGGLES := 3

  /** `midi_confirm_preset`: `toggles` pairs of (off program, selected
      program), so the Whammy flickers and comes to rest on the selection. */
  function Confirm(off: int, on: int, toggles: nat): (msgs: seq<Msg>)
    ensures |msgs| == 2 * toggles
    ensures forall i :: 0 <= i < |msgs| ==> msgs[i] == ProgramChange(if i % 2 == 0 then off else on)
    ensures toggles > 0 ==> msgs[|msgs| - 1] == ProgramChange(on)
  {
    if toggles == 0 then []
    else
      var rest := Confirm(off, on, toggles - 1);
      var msgs := [ProgramChange(off), ProgramChange(on)] + rest;
      assert forall i :: 2 <= i < |msgs| ==> msgs[i] == rest[i - 2] && i % 2 == (i - 2) % 2;
      msgs
  }

  // ---------------------------------------------------------------------
  // Bypass programs of the Whammy 4
  // ---------------------------------------------------------------------

  const BYPASS_OFFSET := 17

  /** How the v1 firmware derives the bypass program: "offset" (active + 17,
      at most 127) or "fixed" (one configured program). */
  datatype BypassMode = Offset | Fixed

  /** `pc_bypass_for` / `midi_bypass_for` of the v1 firmware. */
  function BypassFor(mode: BypassMode, fixedOff: int, activePc: int): (bp: int)
    ensures 0 <= bp < 128
    ensures mode.Offset? && 0 <= activePc <= 127 - BYPASS_OFFSET ==> bp == activePc + BYPASS_OFFSET
    ensures mode.Offset? && 127 - BYPASS_OFFSET < activePc < 128 ==> bp == 127
    ensures mode.Fixed? && 0 <= fixedOff < 128 ==> bp == fixedOff
  {
    if mode.Fixed? then
      Data7(fixedOff)
    else
      var pc := Data7(activePc);
      var b := pc + BYPASS_OFFSET;
      if b > 127 then 127 else b
  }

  /** The bypass program of the NEO firmware: active + 17, unclamped (its
      programs are 0..16, so the result is 17..33). */
  function PcBypass(pc: int): int
  {
    pc + BYPASS_OFFSET
  }

  /** In offset mode the Whammy's active programs 1..17 map to 18..34, and the
      bypass program is never the active program itself (below 127). */
  lemma BypassOffsetRange(p: int)
    requires 0 <= p < 127
    ensures BypassFor(Offset, 0, p) != p
    ensures 1 <= p <= 17 ==> BypassFor(Offset, 0, p) == p + 17 && 18 <= BypassFor(Offset, 0, p) <= 34
    ensures p <= 110 ==> BypassFor(Offset, 0, p) == p + 17
    ensures p > 110 ==> BypassFor(Offset, 0, p) == 127
  {
  }

  /** The offset bypass is non-decreasing in the 7-bit program number. */
  lemma BypassOffsetMonotone(p: int, q: int)
    requires 0 <= p <= q < 128
    ensures BypassFor(Offset, 0, p) <= BypassFor(Offset, 0, q)
  {
  }
}

=== FILE: midi_only.dfy ===
/**
  The MIDI-only firmware with slot C on the hold (Whammy4_Midi_only.py).

  There are no relays: everything is a Program Change on the Whammy. Normal
  mode: a single tap switches between slots A and B, a double tap selects
  slot D, and a hold switches to slot C for as long as the switch is held,
  returning to the base slot (A, B or D) on release. A short press of the
  access pin also switches A/B; holding it enters access mode, where the
  footswitch scrolls presets, a double click cycles the slot being edited
  through A, B, C and D, and a selection left alone for PENDING_SAVE_MS with
  the footswitch up is written to the slot it was started in and confirmed
  by flickering with the fixed program MIDI_PC_OFF.
*/
module MidiOnly {
  import opened Optional
  import opened Debounce
  import Midi
  import Catalog
  import AccessCursor
  import FourSlots
  import AccessPin
  import HoldTaps

  /** MIDI_PC_OFF: the program the confirmation flickers to. */
  const MIDI_PC_OFF := 28

  class Pedal {
    var lastAccess: Option<bool>
    var acc: AccessPin.Pin
    var sw: Debouncer
    var cursor: AccessCursor.Cursor
    var taps: HoldTaps.Taps
    var slotIndex: seq<int>
    var slotPc: seq<int>
    var sel: FourSlots.Selection
    var editSlot: int
    var pendingActive: bool
    var pendingIndex: int
    var pendingPc: int
    var pendingLastChange: nat
    /** The slot a pending selection is saved to, frozen when it starts. */
    var pendingTarget: int
    /** Every Program Change sent, in order. */
    var sent: seq<Midi.Msg>

    ghost predicate Valid()
      reads this
    {
      && AccessCursor.SlotTable(slotIndex, slotPc, FourSlots.SLOT_COUNT)
      && FourSlots.ValidSelection(sel)
      && FourSlots.IsSlot(editSlot)
      // the frozen target is always the slot being edited: a double click,
      // the only thing that changes the edit slot, also drops the selection
      && (pendingActive ==> pendingTarget == editSlot)
      && AccessCursor.ValidIndex(cursor.index)
      && AccessCursor.ValidIndex(pendingIndex) && pendingPc == Catalog.WhammyProgram(pendingIndex)
    }

    constructor (now: nat, rawAccess: Level, rawSw: Level)
      ensures Valid() && lastAccess == None && sent == []
      ensures sel == FourSlots.Selection(FourSlots.SLOT_A, FourSlots.SLOT_A)
      ensures acc == AccessPin.Init(rawAccess, now) && sw == Init(rawSw, now)
    {
      lastAccess := None;
      acc := AccessPin.Init(rawAccess, now);
      sw := Init(rawSw, now);
      cursor := AccessCursor.Cursor(RELEASED, 0, 0, 0);
      taps := HoldTaps.Taps(0, false, false, false, 0);
      slotIndex := [0, 0, 0, 0];
      var pc0 := Catalog.WhammyProgram(0);
      slotPc := [pc0, pc0, pc0, pc0];
      sel := FourSlots.Selection(FourSlots.SLOT_A, FourSlots.SLOT_A);
      editSlot := FourSlots.SLOT_A;
      pendingActive := false;
      pendingIndex := 0;
      pendingPc := pc0;
      pendingLastChange := 0;
      pendingTarget := FourSlots.SLOT_A;
      sent := [];
    }

    /** One pass of the main loop: the raw access pin and footswitch
        levels at `now`. */
    method Tick(now: nat, rawAccess: Level, rawSw: Level)
      requires Valid() && acc.deb.lastChange <= now && sw.lastChange <= now
      modifies this
      ensures Valid() && acc.deb.lastChange <= now && sw.lastChange <= now
    {
      var access := AccessPhase(now, rawAccess);
      ModeSwitch(now, access, rawSw);
      if access {
        AccessPass(now, rawSw);
      } else {
        NormalPass(now, rawSw);
      }
    }

    /** `midi_access_active(now)`: poll the access pin; a short press
        switches A/B and sends the new slot's program. */
    method AccessPhase(now: nat, rawAccess: Level) returns (access: bool)
      requires Valid() && acc.deb.lastChange <= now
      modifies this`acc, this`sel, this`sent
      ensures Valid() && acc.deb.lastChange <= now
      ensures var (p, toggled, on) := AccessPin.Step(old(acc), now, rawAccess);
              && acc == p && access == on
              && (toggled ==> sel == FourSlots.ToggleAb(old(sel)) && sent == old(sent) + [Midi.ProgramChange(slotPc[sel.active])])
              && (!toggled ==> sel == old(sel) && sent == old(sent))
    {
      var r := AccessPin.Step(acc, now, rawAccess);
      acc := r.0;
      if r.1 {
        sel := FourSlots.ToggleAb(sel);
        sent := sent + [Midi.ProgramChange(slotPc[sel.active])];
      }
      access := r.2;
    }

    /** On the first pass and whenever access mode turns on or off: leaving
        access mode on slot C falls back to the base slot; the switch
        tracking and the gestures are reset; entering access mode edits the
        active slot (the base slot instead of C), makes it active and
        previews it. */
    method ModeSwitch(now: nat, access: bool, rawSw: Level)
      requires Valid() && sw.lastChange <= now
      modifies this`lastAccess, this`cursor, this`sw, this`taps, this`editSlot, this`sel, this`pendingActive,
               this`sent
      ensures Valid() && lastAccess == Some(access) && sw.lastChange <= now
      ensures old(lastAccess) == Some(access) ==> unchanged(this)
      ensures old(lastAccess) != Some(access) ==>
        && sw == Init(rawSw, now) && taps == HoldTaps.Reset(old(taps))
        && cursor.lastSwRaw == RELEASED && cursor.lastPressMs == 0
      ensures old(lastAccess) == Some(true) && !access ==>
        sel == (if old(sel).active == FourSlots.SLOT_C then old(sel).(active := old(sel).base) else old(sel))
      ensures old(lastAccess) != Some(access) && access ==>
        && editSlot == (if old(sel).active == FourSlots.SLOT_C then old(sel).base else old(sel).active)
        && editSlot != FourSlots.SLOT_C && sel == old(sel).(active := editSlot)
        && cursor.index == slotIndex[editSlot] && !pendingActive
        && sent == old(sent) + [Midi.ProgramChange(slotPc[editSlot])]
      ensures !access ==> sent == old(sent) && editSlot == old(editSlot)
    {
      if lastAccess != Some(access) {
        if lastAccess == Some(true) && !access && sel.active == FourSlots.SLOT_C {
          sel := sel.(active := sel.base);
        }
        lastAccess := Some(access);
        cursor := AccessCursor.Entered(cursor, cursor.index);
        sw := Init(rawSw, now);
        taps := HoldTaps.Reset(taps);
        if access {
          editSlot := if sel.active == FourSlots.SLOT_C then sel.base else sel.active;
          sel := sel.(active := editSlot);
          sent := sent + [Midi.ProgramChange(slotPc[editSlot])];
          assert AccessCursor.SlotOk(slotIndex, slotPc, editSlot);
          cursor := cursor.(index := slotIndex[editSlot]);
          pendingActive := false;
        }
      }
    }

    /** One access-mode pass: cursor, double click (next slot to edit,
        which also becomes active), preview, commit. */
    method AccessPass(now: nat, raw: Level)
      requires Valid()
      modifies this`cursor, this`editSlot, this`sel, this`pendingActive, this`pendingIndex, this`pendingPc,
               this`pendingLastChange, this`pendingTarget, this`sent, this`slotIndex, this`slotPc
      ensures Valid() && editSlot == (if AccessCursor.Step(old(cursor), now, raw).1 == AccessCursor.DoubleClick
                                      then FourSlots.NextEditSlot(old(editSlot)) else old(editSlot))
      ensures AccessCursor.Step(old(cursor), now, raw).1 == AccessCursor.DoubleClick ==>
        && sel.active == editSlot && sel.base == old(sel.base)
        && !pendingActive && cursor.index == slotIndex[editSlot] && slotIndex == old(slotIndex)
        && sent == old(sent) + [Midi.ProgramChange(slotPc[editSlot])]
      // a save only ever writes the slot being edited
      ensures forall s :: 0 <= s < FourSlots.SLOT_COUNT && s != editSlot ==> slotIndex[s] == old(slotIndex)[s]
    {
      var r := AccessCursor.Step(cursor, now, raw);
      cursor := r.0;
      if r.1 == AccessCursor.DoubleClick {
        editSlot := FourSlots.NextEditSlot(editSlot);
        sel := sel.(active := editSlot);
        sent := sent + [Midi.ProgramChange(slotPc[editSlot])];
        assert AccessCursor.SlotOk(slotIndex, slotPc, editSlot);
        cursor := cursor.(index := slotIndex[editSlot]);
        pendingActive := false;
        return;
      }
      if r.1 == AccessCursor.Stepped {
        var pc := Catalog.WhammyProgram(cursor.index);
        sent := sent + [Midi.ProgramChange(pc)];
        pendingActive := true;
        pendingTarget := editSlot;
        pendingIndex := cursor.index;
        pendingPc := pc;
        pendingLastChange := now;
      }
      CommitPhase(now, raw);
    }

    /** The save after idle: a selection untouched for PENDING_SAVE_MS,
        with the footswitch up, is written to the slot it was started in and
        confirmed; the slot being edited is made active and sent again. */
    method CommitPhase(now: nat, raw: Level)
      requires Valid()
      modifies this`cursor, this`sel, this`pendingActive, this`sent, this`slotIndex, this`slotPc
      ensures Valid()
      ensures old(pendingActive) && now - pendingLastChange >= AccessCursor.PENDING_SAVE_MS && raw == RELEASED ==>
        && slotIndex == old(slotIndex)[pendingTarget := pendingIndex]
        && slotPc == old(slotPc)[pendingTarget := pendingPc]
        && !pendingActive && sel == old(sel).(active := editSlot)
        && cursor.index == slotIndex[editSlot] && cursor.lastPressMs == 0 && cursor.lastStepMs == now
        && sent == old(sent) + Midi.Confirm(MIDI_PC_OFF, pendingPc, Midi.CONFIRM_TOGGLES)
                             + [Midi.ProgramChange(slotPc[editSlot])]
      ensures !(old(pendingActive) && now - pendingLastChange >= AccessCursor.PENDING_SAVE_MS && raw == RELEASED) ==>
        unchanged(this)
    {
      if pendingActive && now - pendingLastChange >= AccessCursor.PENDING_SAVE_MS && raw == RELEASED {
        var t := pendingTarget;
        AccessCursor.SlotTableStore(slotIndex, slotPc, |slotIndex|, t, pendingIndex);
        slotIndex := slotIndex[t := pendingIndex];
        slotPc := slotPc[t := pendingPc];
        pendingActive := false;
        sent := sent + Midi.Confirm(MIDI_PC_OFF, slotPc[t], Midi.CONFIRM_TOGGLES);
        sel := sel.(active := editSlot);
        sent := sent + [Midi.ProgramChange(slotPc[sel.active])];
        cursor := cursor.(index := slotIndex[sel.active], lastPressMs := 0, lastStepMs := now);
      }
    }

    /** One normal-mode pass: debounce the footswitch and act on the
        gestures in the firmware's order (release, single tap, hold). */
    method NormalPass(now: nat, rawSw: Level)
      requires Valid() && sw.lastChange <= now
      modifies this`sw, this`taps, this`sel, this`sent
      ensures Valid() && sw == Step(old(sw), now, rawSw).0
      ensures taps == HoldTaps.Tick(old(taps), now, EdgeOf(old(sw), now, rawSw), sw.stable).0
    {
      var edge := EdgeOf(sw, now, rawSw);
      sw := Step(sw, now, rawSw).0;
      var r := HoldTaps.Tick(taps, now, edge, sw.stable);
      taps := r.0;
      ghost var sw1 := sw;
      ReleaseAction(r.1.release);
      SingleTapAction(r.1.single);
      HoldAction(r.1.hold);
      assert sw == sw1;
    }

    /** The end of a hold returns to the base slot; a double tap makes D
        the base slot. Either sends the new active program. */
    method ReleaseAction(release: HoldTaps.Release)
      requires Valid()
      modifies this`sel, this`sent
      ensures Valid()
      ensures release == HoldTaps.HoldEnd ==>
        sel == old(sel).(active := old(sel).base) && sent == old(sent) + [Midi.ProgramChange(slotPc[sel.base])]
      ensures release == HoldTaps.DoubleTap ==>
        && sel == FourSlots.SetBaseSlot(old(sel), FourSlots.SLOT_D) && sel.active == FourSlots.SLOT_D
        && sent == old(sent) + [Midi.ProgramChange(slotPc[FourSlots.SLOT_D])]
      ensures release !in {HoldTaps.HoldEnd, HoldTaps.DoubleTap} ==> unchanged(this)
    {
      if release == HoldTaps.HoldEnd {
        sel := sel.(active := sel.base);
        sent := sent + [Midi.ProgramChange(slotPc[sel.active])];
      } else if release == HoldTaps.DoubleTap {
        sel := FourSlots.SetBaseSlot(sel, FourSlots.SLOT_D);
        sent := sent + [Midi.ProgramChange(slotPc[sel.active])];
      }
    }

    /** A confirmed single tap switches A/B and sends the new program. */
    method SingleTapAction(single: bool)
      requires Valid()
      modifies this`sel, this`sent
      ensures Valid()
      ensures single ==>
        sel == FourSlots.ToggleAb(old(sel)) && sent == old(sent) + [Midi.ProgramChange(slotPc[sel.active])]
      ensures !single ==> unchanged(this)
    {
      if single {
        sel := FourSlots.ToggleAb(sel);
        sent := sent + [Midi.ProgramChange(slotPc[sel.active])];
      }
    }

    /** A hold switches to slot C, leaving the base slot as it is. */
    method HoldAction(hold: bool)
      requires Valid()
      modifies this`sel, this`sent
      ensures Valid()
      ensures hold ==>
        sel == old(sel).(active := FourSlots.SLOT_C) && sent == old(sent) + [Midi.ProgramChange(slotPc[FourSlots.SLOT_C])]
      ensures !hold ==> unchanged(this)
    {
      if hold {
        sel := sel.(active := FourSlots.SLOT_C);
        sent := sent + [Midi.ProgramChange(slotPc[sel.active])];
      }
    }
  }
}

=== FILE: midi_only_logic.dfy ===
/**
  The logic the two MIDI-only firmwares share (Whammy4_Midi_only.py and
  Whammy4_Midi_only_TESTONLY.py): four preset slots, the access pin that is
  both a slot switch (short press) and the access-mode switch (long hold),
  and the footswitch gestures of normal mode (single tap, double tap, hold).
*/

/** The four preset slots: A and B, switched by a single tap; C, the slot of
    the long hold; D, selected by a double tap. The "base" slot is the one
    the player has chosen to stay on: A, B or D, never C. */
module FourSlots {
  const SLOT_A := 0
  const SLOT_B := 1
  const SLOT_C := 2
  const SLOT_D := 3
  const SLOT_COUNT := 4

  predicate IsSlot(s: int) { 0 <= s < SLOT_COUNT }

  predicate IsBase(s: int) { s == SLOT_A || s == SLOT_B || s == SLOT_D }

  /** `base_slot` and `active_slot`. */
  datatype Selection = Selection(base: int, active: int)

  predicate ValidSelection(sel: Selection)
  {
    IsBase(sel.base) && IsSlot(sel.active)
  }

  /** `set_base_slot(s)`: make `s` the base and the active slot, unless it is
      C, which can never be a base. */
  function SetBaseSlot(sel: Selection, s: int): (r: Selection)
    requires ValidSelection(sel) && IsSlot(s)
    ensures ValidSelection(r)
    ensures s == SLOT_C ==> r == sel
    ensures s != SLOT_C ==> r.base == s && r.active == s
  {
    if s == SLOT_C then sel else Selection(s, s)
  }

  /** `toggle_ab_slot()`: a single tap goes from A to B and from anything
      else (B or D) to A. */
  function ToggleAb(sel: Selection): (r: Selection)
    requires ValidSelection(sel)
    ensures ValidSelection(r) && r.active == r.base
    ensures r.base == SLOT_A || r.base == SLOT_B
    ensures r.base != sel.base
  {
    SetBaseSlot(sel, if sel.base == SLOT_A then SLOT_B else SLOT_A)
  }

  /** Two single taps from A or B come back to the same slot; from D the
      first tap goes to A. */
  lemma ToggleTwice(sel: Selection)
    requires ValidSelection(sel)
    ensures sel.base != SLOT_D ==> ToggleAb(ToggleAb(sel)).base == sel.base
    ensures sel.base == SLOT_D ==> ToggleAb(sel).base == SLOT_A
  {
  }

  /** The slot after `s` in the access-mode edit cycle A, B, C, D, A, ... */
  function NextEditSlot(s: int): (r: int)
    requires IsSlot(s)
    ensures IsSlot(r) && r != s
  {
    (s + 1) % SLOT_COUNT
  }

  /** Four double clicks in access mode come back to the slot being edited,
      passing every slot once. */
  lemma EditCycle(s: int)
    requires IsSlot(s)
    ensures NextEditSlot(NextEditSlot(NextEditSlot(NextEditSlot(s)))) == s
    ensures {s, NextEditSlot(s), NextEditSlot(NextEditSlot(s)), NextEditSlot(NextEditSlot(NextEditSlot(s)))}
         == {SLOT_A, SLOT_B, SLOT_C, SLOT_D}
  {
  }
}

/** The access pin (GPIO14) of the MIDI-only firmware, debounced like the
    footswitch: a press shorter than ACCESS_HOLD_MS is a slot switch (A/B),
    a press held for ACCESS_HOLD_MS turns access mode on for as long as it
    stays held, and its release switches nothing. */
module AccessPin {
  import opened Debounce

  const ACCESS_HOLD_MS := 450

  /** The debouncer, `access_down_ms` and `access_hold_armed`. */
  datatype Pin = Pin(deb: Debouncer, downMs: nat, armed: bool)

  function Init(level: Level, now: nat): (p: Pin)
    ensures p.deb == Debounce.Init(level, now) && !p.armed
  {
    Pin(Debounce.Init(level, now), 0, false)
  }

  /** `update_access_logic(now)` with the raw pin level `raw`: the new
      state, whether a short press ended (the caller then toggles A/B and
      sends the program), and whether access mode is on. */
  function Step(p: Pin, now: nat, raw: Level): (r: (Pin, bool, bool))
    requires p.deb.lastChange <= now
    ensures r.0.deb == Debounce.Step(p.deb, now, raw).0
    ensures r.1 <==> EdgeOf(p.deb, now, raw) == ReleaseEdge && p.armed && now - p.downMs < ACCESS_HOLD_MS
    ensures r.2 <==> r.0.deb.stable == PRESSED && r.0.armed && now - r.0.downMs >= ACCESS_HOLD_MS
    ensures EdgeOf(p.deb, now, raw) == PressEdge ==> r.0.armed && r.0.downMs == now && !r.2
    ensures EdgeOf(p.deb, now, raw) == ReleaseEdge ==> !r.0.armed
    ensures EdgeOf(p.deb, now, raw) == NoEdge ==> r.0.armed == p.armed && r.0.downMs == p.downMs
    ensures r.1 ==> !r.2
  {
    var e := EdgeOf(p.deb, now, raw);
    var d := Debounce.Step(p.deb, now, raw).0;
    var (p1, toggle) :=
      match e
      case PressEdge => (Pin(d, now, true), false)
      case ReleaseEdge => (Pin(d, p.downMs, false), p.armed && now - p.downMs < ACCESS_HOLD_MS)
      case NoEdge => (p.(deb := d), false);
    (p1, toggle, d.stable == PRESSED && p1.armed && now - p1.downMs >= ACCESS_HOLD_MS)
  }

  /** Once access mode is on, it stays on for every later poll that still
      reads the pin held, and releasing the pin then switches no slot. */
  lemma AccessLastsWhileHeld(p: Pin, now: nat, later: nat)
    requires p.deb.lastChange <= now <= later
    requires Step(p, now, PRESSED).2
    ensures var p1 := Step(p, now, PRESSED).0;
            && Step(p1, later, PRESSED).2
            && !Step(p1, later, RELEASED).1
  {
    var p1 := Step(p, now, PRESSED).0;
    assert p1.deb.lastChange <= later;
    assert EdgeOf(p1.deb, later, PRESSED) == NoEdge;
  }

  /** A press released before ACCESS_HOLD_MS: the debounced press arms, the
      debounced release switches the slot, and access mode is never on. */
  lemma ShortPressSwitchesSlot(p: Pin, down: nat, up: nat)
    requires p.deb.stable == RELEASED && p.deb.last == PRESSED && p.deb.lastChange <= down
    requires down - p.deb.lastChange >= DEBOUNCE_MS
    requires down < up && up - down < ACCESS_HOLD_MS
    ensures var (p1, t1, a1) := Step(p, down, PRESSED);
            var p2 := p1.(deb := p1.deb.(last := RELEASED, lastChange := down));
            && !t1 && !a1
            && (up - down >= DEBOUNCE_MS ==> Step(p2, up, RELEASED).1 && !Step(p2, up, RELEASED).2)
  {
    var p1 := Step(p, down, PRESSED).0;
    assert EdgeOf(p.deb, down, PRESSED) == PressEdge;
    var p2 := p1.(deb := p1.deb.(last := RELEASED, lastChange := down));
    if up - down >= DEBOUNCE_MS {
      assert EdgeOf(p2.deb, up, RELEASED) == ReleaseEdge;
    }
  }
}

/** The normal-mode footswitch gestures of the MIDI-only firmware:
    - a tap (press shorter than HOLD_TO_SWITCH_MS) starts a single-tap
      window; a second tap released within DOUBLE_CLICK_MS of the first
      makes it a double tap;
    - a single tap is confirmed only once the window is over and the switch
      is up;
    - a hold of HOLD_TO_SWITCH_MS fires once per press, cancels a waiting
      single tap, and its release ends it. */
module HoldTaps {
  import opened Debounce

  const HOLD_TO_SWITCH_MS := 450
  const DOUBLE_CLICK_MS := 300

  /** `tap_down_ms`, `hold_triggered`, the "in hold" flag
      (`in_momentary_hold` / `in_hold_c`), `pending_single_tap` and
      `pending_single_tap_ms`. */
  datatype Taps = Taps(tapDown: nat, holdTriggered: bool, inHold: bool, pendingSingle: bool, pendingSingleMs: nat)

  /** The reset on every switch between access and normal mode (the time of
      the last single tap is kept). */
  function Reset(t: Taps): (r: Taps)
    ensures !r.holdTriggered && !r.inHold && !r.pendingSingle && r.tapDown == 0
  {
    Taps(0, false, false, false, t.pendingSingleMs)
  }

  /** What a debounced release meant. */
  datatype Release = NoRelease | HoldEnd | DoubleTap | TapPending | LongRelease

  /** The gestures one pass produced: the release, if any; whether a single
      tap was confirmed; whether a hold began. */
  datatype Actions = Actions(release: Release, single: bool, hold: bool)

  /** A debounced release at `now`. */
  function OnRelease(t: Taps, now: nat): (r: (Taps, Release))
    ensures r.1 == HoldEnd <==> t.holdTriggered && t.inHold
    ensures r.1 == DoubleTap <==>
      !(t.holdTriggered && t.inHold) && now - t.tapDown < HOLD_TO_SWITCH_MS
      && t.pendingSingle && now - t.pendingSingleMs <= DOUBLE_CLICK_MS
    ensures r.1 == TapPending <==>
      !(t.holdTriggered && t.inHold) && now - t.tapDown < HOLD_TO_SWITCH_MS
      && !(t.pendingSingle && now - t.pendingSingleMs <= DOUBLE_CLICK_MS)
    ensures r.1 != NoRelease && (r.1 == HoldEnd ==> !r.0.inHold)
    ensures r.1 == TapPending ==> r.0.pendingSingle && r.0.pendingSingleMs == now
    ensures r.1 == DoubleTap ==> !r.0.pendingSingle
    ensures r.1 in {HoldEnd, LongRelease} ==> r.0.pendingSingle == t.pendingSingle && r.0.pendingSingleMs == t.pendingSingleMs
    ensures r.0.tapDown == t.tapDown && r.0.holdTriggered == t.holdTriggered
  {
    if t.holdTriggered && t.inHold then
      // Whammy4_Midi_only_TESTONLY.py clears the hold flag here;
      // Whammy4_Midi_only.py leaves `in_hold_c` set until the next press
      // resets it, which no release can observe
      (t.(inHold := false), HoldEnd)
    else if now - t.tapDown < HOLD_TO_SWITCH_MS then
      if t.pendingSingle && now - t.pendingSingleMs <= DOUBLE_CLICK_MS then
        (t.(pendingSingle := false), DoubleTap)
      else
        (t.(pendingSingle := true, pendingSingleMs := now), TapPending)
    else
      (t, LongRelease)
  }

  /** One normal-mode pass at `now`, given the debounced edge of this pass
      and the stable level after it: the edge, then the single-tap
      confirmation, then the hold detection. */
  function Tick(t: Taps, now: nat, edge: Edge, stable: Level): (r: (Taps, Actions))
    requires edge == PressEdge ==> stable == PRESSED
    requires edge == ReleaseEdge ==> stable == RELEASED
    ensures r.1.release == NoRelease <==> edge != ReleaseEdge
    ensures edge == ReleaseEdge ==> r.1.release == OnRelease(t, now).1
    // a single tap is confirmed only with the switch up, after the window
    ensures r.1.single ==>
      stable == RELEASED && t.pendingSingle && now - t.pendingSingleMs > DOUBLE_CLICK_MS && !r.0.pendingSingle
    ensures edge == NoEdge && stable == RELEASED && t.pendingSingle && now - t.pendingSingleMs > DOUBLE_CLICK_MS
            ==> r.1.single
    // a hold fires once per press, with the switch down, and cancels a
    // waiting single tap
    ensures r.1.hold <==>
      stable == PRESSED && edge == NoEdge && !t.holdTriggered && now - t.tapDown >= HOLD_TO_SWITCH_MS
    ensures r.1.hold ==> r.0.holdTriggered && r.0.inHold && !r.0.pendingSingle
    ensures !(r.1.single && r.1.hold)
    ensures edge == PressEdge ==> r.0.tapDown == now && !r.0.holdTriggered && !r.0.inHold
    ensures edge != PressEdge ==> r.0.tapDown == t.tapDown
  {
    var (t1, rel) :=
      match edge
      case PressEdge => (t.(tapDown := now, holdTriggered := false, inHold := false), NoRelease)
      case ReleaseEdge => OnRelease(t, now)
      case NoEdge => (t, NoRelease);
    var single := t1.pendingSingle && stable == RELEASED && now - t1.pendingSingleMs > DOUBLE_CLICK_MS;
    var t2 := if single then t1.(pendingSingle := false) else t1;
    var hold := stable == PRESSED && !t2.holdTriggered && now - t2.tapDown >= HOLD_TO_SWITCH_MS;
    var t3 := if hold then t2.(pendingSingle := false, inHold := true, holdTriggered := true) else t2;
    (t3, Actions(rel, single, hold))
  }

  /** Two quick taps make a double tap: the first release opens the window,
      the second, within DOUBLE_CLICK_MS of it, is the double tap; no single
      tap is confirmed and no hold begins on the way. */
  lemma QuickDoubleTap(t0: Taps, p1: nat, r1: nat, p2: nat, r2: nat)
    requires !t0.pendingSingle
    requires p1 <= r1 <= p2 <= r2
    requires r1 - p1 < HOLD_TO_SWITCH_MS && r2 - p2 < HOLD_TO_SWITCH_MS && r2 - r1 <= DOUBLE_CLICK_MS
    ensures var (t1, a1) := Tick(t0, p1, PressEdge, PRESSED);
            var (t2, a2) := Tick(t1, r1, ReleaseEdge, RELEASED);
            var (t3, a3) := Tick(t2, p2, PressEdge, PRESSED);
            var (t4, a4) := Tick(t3, r2, ReleaseEdge, RELEASED);
            && a2.release == TapPending && a4.release == DoubleTap
            && !a1.single && !a2.single && !a3.single && !a4.single
            && !a1.hold && !a2.hold && !a3.hold && !a4.hold
            && !t4.pendingSingle
  {
    var (t1, a1) := Tick(t0, p1, PressEdge, PRESSED);
    assert t1.tapDown == p1 && !t1.holdTriggered && !t1.inHold && !t1.pendingSingle;
    var (t2, a2) := Tick(t1, r1, ReleaseEdge, RELEASED);
    assert t2.pendingSingle && t2.pendingSingleMs == r1;
    var (t3, a3) := Tick(t2, p2, PressEdge, PRESSED);
    assert t3.pendingSingle && t3.pendingSingleMs == r1 && t3.tapDown == p2 && !t3.inHold;
  }

  /** A hold fires once: later passes of the same press do not fire it
      again, and its release is the end of the hold, never a tap. */
  lemma HoldFiresOnce(t: Taps, now: nat, later: nat, up: nat)
    requires Tick(t, now, NoEdge, PRESSED).1.hold
    ensures var t1 := Tick(t, now, NoEdge, PRESSED).0;
            && !Tick(t1, later, NoEdge, PRESSED).1.hold
            && Tick(Tick(t1, later, NoEdge, PRESSED).0, up, ReleaseEdge, RELEASED).1.release == HoldEnd
  {
    var t1 := Tick(t, now, NoEdge, PRESSED).0;
    assert t1.holdTriggered && t1.inHold;
    var t2 := Tick(t1, later, NoEdge, PRESSED).0;
    assert t2.holdTriggered && t2.inHold;
  }

  /** Two taps whose second press starts inside the single-tap window but is
      released after it count as one single tap: the second release
      restarts the window and the first tap is never confirmed. */
  lemma SlowSecondTapReplacesFirst(t: Taps, p2: nat, r2: nat)
    requires t.pendingSingle && !t.inHold
    requires p2 <= r2 && r2 - p2 < HOLD_TO_SWITCH_MS && r2 - t.pendingSingleMs > DOUBLE_CLICK_MS
    ensures var (t1, a1) := Tick(t, p2, PressEdge, PRESSED);
            var (t2, a2) := Tick(t1, r2, ReleaseEdge, RELEASED);
            && !a1.single && !a2.single
            && a2.release == TapPending && t2.pendingSingle && t2.pendingSingleMs == r2
  {
    var (t1, a1) := Tick(t, p2, PressEdge, PRESSED);
    assert t1.pendingSingle && t1.pendingSingleMs == t.pendingSingleMs && !t1.inHold && t1.tapDown == p2;
  }
}

=== FILE: midi_only_test.dfy ===
/**
  The MIDI-only firmware with the momentary hold (Whammy4_Midi_only_TESTONLY.py).

  There are no relays: everything is a Program Change on the Whammy. Normal
  mode: a single tap switches between slots A and B, a double tap selects
  slot D, and a hold plays the active slot's preset momentarily (switching it
  on if it was off) and sends that preset's bypass program on release. A
  short press of the access pin also switches A/B; holding it enters access
  mode, where the footswitch scrolls presets, a double click cycles the slot
  being edited through A, B, C and D, and a selection left alone for
  PENDING_SAVE_MS is written to that slot and confirmed.

  `effectOn` is the firmware's belief whether the Whammy is playing its
  preset (ON) or the bypass program (OFF).
*/
module MidiOnlyTest {
  import opened Optional
  import opened Debounce
  import Midi
  import Catalog
  import AccessCursor
  import FourSlots
  import AccessPin
  import HoldTaps

  /** The bypass program this firmware sends for an active program. */
  function Bypass(pc: int): int
  {
    Midi.BypassFor(Midi.Offset, 28, pc)
  }

  class Pedal {
    var lastAccess: Option<bool>
    var acc: AccessPin.Pin
    var sw: Debouncer
    var cursor: AccessCursor.Cursor
    var taps: HoldTaps.Taps
    var slotIndex: seq<int>
    var slotPc: seq<int>
    var sel: FourSlots.Selection
    var editSlot: int
    var pendingActive: bool
    var pendingIndex: int
    var pendingPc: int
    var pendingLastChange: nat
    var effectOn: bool
    var momentarySavedOn: bool
    var momentarySlot: int
    var momentaryPc: int
    /** Every Program Change sent, in order. */
    var sent: seq<Midi.Msg>

    ghost predicate Valid()
      reads this
    {
      && AccessCursor.SlotTable(slotIndex, slotPc, FourSlots.SLOT_COUNT)
      && FourSlots.ValidSelection(sel)
      && FourSlots.IsSlot(editSlot) && FourSlots.IsSlot(momentarySlot)
      && AccessCursor.ValidIndex(cursor.index)
      && AccessCursor.ValidIndex(pendingIndex) && pendingPc == Catalog.WhammyProgram(pendingIndex)
    }

    constructor (now: nat, rawAccess: Level, rawSw: Level)
      ensures Valid() && lastAccess == None && sent == [] && !effectOn
      ensures sel == FourSlots.Selection(FourSlots.SLOT_A, FourSlots.SLOT_A)
      ensures acc == AccessPin.Init(rawAccess, now) && sw == Init(rawSw, now)
    {
      lastAccess := None;
      acc := AccessPin.Init(rawAccess, now);
      sw := Init(rawSw, now);
      cursor := AccessCursor.Cursor(RELEASED, 0, 0, 0);
      taps := HoldTaps.Taps(0, false, false, false, 0);
      slotIndex := [0, 0, 0, 0];
      var pc0 := Catalog.WhammyProgram(0);
      slotPc := [pc0, pc0, pc0, pc0];
      sel := FourSlots.Selection(FourSlots.SLOT_A, FourSlots.SLOT_A);
      editSlot := FourSlots.SLOT_A;
      pendingActive := false;
      pendingIndex := 0;
      pendingPc := pc0;
      pendingLastChange := 0;
      effectOn := false;
      momentarySavedOn := false;
      momentarySlot := FourSlots.SLOT_A;
      momentaryPc := pc0;
      sent := [];
    }

    /** One pass of the main loop: the raw access pin and footswitch
        levels at `now`. */
    method Tick(now: nat, rawAccess: Level, rawSw: Level)
      requires Valid() && acc.deb.lastChange <= now && sw.lastChange <= now
      modifies this
      ensures Valid() && acc.deb.lastChange <= now && sw.lastChange <= now
    {
      var access := AccessPhase(now, rawAccess);
      ModeSwitch(now, access, rawSw);
      if access {
        AccessPass(now, rawSw);
      } else {
        NormalPass(now, rawSw);
      }
    }

    /** `midi_access_active(now)`: poll the access pin; a short press
        switches A/B and sends the new slot's program. */
    method AccessPhase(now: nat, rawAccess: Level) returns (access: bool)
      requires Valid() && acc.deb.lastChange <= now
      modifies this`acc, this`sel, this`sent
      ensures Valid() && acc.deb.lastChange <= now
      ensures var (p, toggled, on) := AccessPin.Step(old(acc), now, rawAccess);
              && acc == p && access == on
              && (toggled ==> sel == FourSlots.ToggleAb(old(sel)) && sent == old(sent) + [Midi.ProgramChange(slotPc[sel.active])])
              && (!toggled ==> sel == old(sel) && sent == old(sent))
    {
      var r := AccessPin.Step(acc, now, rawAccess);
      acc := r.0;
      if r.1 {
        sel := FourSlots.ToggleAb(sel);
        sent := sent + [Midi.ProgramChange(slotPc[sel.active])];
      }
      access := r.2;
    }

    /** On the first pass and whenever access mode turns on or off: reset
        the switch tracking and the gestures; entering access mode edits the
        active slot, previews it and counts the effect as on. */
    method ModeSwitch(now: nat, access: bool, rawSw: Level)
      requires Valid() && sw.lastChange <= now
      modifies this`lastAccess, this`cursor, this`sw, this`taps, this`editSlot, this`pendingActive,
               this`effectOn, this`sent
      ensures Valid() && lastAccess == Some(access) && sw.lastChange <= now
      ensures old(lastAccess) == Some(access) ==> unchanged(this)
      ensures old(lastAccess) != Some(access) ==>
        && sw == Init(rawSw, now) && taps == HoldTaps.Reset(old(taps))
        && cursor.lastSwRaw == RELEASED && cursor.lastPressMs == 0
      ensures old(lastAccess) != Some(access) && access ==>
        && editSlot == sel.active && cursor.index == slotIndex[editSlot] && !pendingActive && effectOn
        && sent == old(sent) + [Midi.ProgramChange(slotPc[editSlot])]
      ensures !access ==> sent == old(sent) && effectOn == old(effectOn) && editSlot == old(editSlot)
    {
      if lastAccess != Some(access) {
        lastAccess := Some(access);
        cursor := AccessCursor.Entered(cursor, cursor.index);
        sw := Init(rawSw, now);
        taps := HoldTaps.Reset(taps);
        if access {
          editSlot := sel.active;
          sent := sent + [Midi.ProgramChange(slotPc[editSlot])];
          effectOn := true;
          assert AccessCursor.SlotOk(slotIndex, slotPc, editSlot);
          cursor := cursor.(index := slotIndex[editSlot]);
          pendingActive := false;
        }
      }
    }

    /** One access-mode pass: cursor, double click (next slot to edit,
        which also becomes active), preview, commit. */
    method AccessPass(now: nat, raw: Level)
      requires Valid()
      modifies this`cursor, this`editSlot, this`sel, this`pendingActive, this`pendingIndex, this`pendingPc,
               this`pendingLastChange, this`effectOn, this`sent, this`slotIndex, this`slotPc
      ensures Valid() && editSlot == (if AccessCursor.Step(old(cursor), now, raw).1 == AccessCursor.DoubleClick
                                      then FourSlots.NextEditSlot(old(editSlot)) else old(editSlot))
      ensures AccessCursor.Step(old(cursor), now, raw).1 == AccessCursor.DoubleClick ==>
        && sel.active == editSlot && sel.base == old(sel.base)
        && !pendingActive && effectOn && cursor.index == slotIndex[editSlot] && slotIndex == old(slotIndex)
        && sent == old(sent) + [Midi.ProgramChange(slotPc[editSlot])]
      ensures AccessCursor.Step(old(cursor), now, raw).1 == AccessCursor.Stepped ==>
        effectOn && pendingIndex == cursor.index && pendingLastChange == now
      // a commit only ever writes the slot being edited
      ensures forall s :: 0 <= s < FourSlots.SLOT_COUNT && s != editSlot ==> slotIndex[s] == old(slotIndex)[s]
    {
      var r := AccessCursor.Step(cursor, now, raw);
      cursor := r.0;
      if r.1 == AccessCursor.DoubleClick {
        editSlot := FourSlots.NextEditSlot(editSlot);
        sel := sel.(active := editSlot);
        sent := sent + [Midi.ProgramChange(slotPc[editSlot])];
        effectOn := true;
        assert AccessCursor.SlotOk(slotIndex, slotPc, editSlot);
        cursor := cursor.(index := slotIndex[editSlot]);
        pendingActive := false;
        return;
      }
      if r.1 == AccessCursor.Stepped {
        var pc := Catalog.WhammyProgram(cursor.index);
        sent := sent + [Midi.ProgramChange(pc)];
        effectOn := true;
        pendingActive := true;
        pendingIndex := cursor.index;
        pendingPc := pc;
        pendingLastChange := now;
      }
      CommitPhase(now);
    }

    /** The auto-commit: a selection untouched for PENDING_SAVE_MS is written
        to the slot being edited, confirmed by flickering with its bypass
        program, made active and sent once more. */
    method CommitPhase(now: nat)
      requires Valid()
      modifies this`cursor, this`sel, this`pendingActive, this`effectOn, this`sent, this`slotIndex, this`slotPc
      ensures Valid()
      ensures old(pendingActive) && now - pendingLastChange >= AccessCursor.PENDING_SAVE_MS ==>
        && slotIndex == old(slotIndex)[editSlot := pendingIndex]
        && slotPc == old(slotPc)[editSlot := pendingPc]
        && !pendingActive && effectOn && sel == old(sel).(active := editSlot)
        && cursor.index == pendingIndex && cursor.lastPressMs == 0 && cursor.lastStepMs == now
        && sent == old(sent) + Midi.Confirm(Bypass(pendingPc), pendingPc, Midi.CONFIRM_TOGGLES)
                             + [Midi.ProgramChange(pendingPc)]
      ensures !(old(pendingActive) && now - pendingLastChange >= AccessCursor.PENDING_SAVE_MS) ==>
        unchanged(this)
    {
      if pendingActive && now - pendingLastChange >= AccessCursor.PENDING_SAVE_MS {
        AccessCursor.SlotTableStore(slotIndex, slotPc, |slotIndex|, editSlot, pendingIndex);
        slotIndex := slotIndex[editSlot := pendingIndex];
        slotPc := slotPc[editSlot := pendingPc];
        pendingActive := false;
        sent := sent + Midi.Confirm(Bypass(slotPc[editSlot]), slotPc[editSlot], Midi.CONFIRM_TOGGLES);
        sel := sel.(active := editSlot);
        sent := sent + [Midi.ProgramChange(slotPc[editSlot])];
        effectOn := true;
        assert AccessCursor.SlotOk(slotIndex, slotPc, editSlot);
        cursor := cursor.(index := slotIndex[editSlot], lastPressMs := 0, lastStepMs := now);
      }
    }

    /** One normal-mode pass: debounce the footswitch and act on the
        gestures in the firmware's order (release, single tap, hold). */
    method NormalPass(now: nat, rawSw: Level)
      requires Valid() && sw.lastChange <= now
      modifies this`sw, this`taps, this`sel, this`effectOn, this`momentarySavedOn, this`momentarySlot,
               this`momentaryPc, this`sent
      ensures Valid() && sw == Step(old(sw), now, rawSw).0
      ensures taps == HoldTaps.Tick(old(taps), now, EdgeOf(old(sw), now, rawSw), sw.stable).0
    {
      var edge := EdgeOf(sw, now, rawSw);
      sw := Step(sw, now, rawSw).0;
      var r := HoldTaps.Tick(taps, now, edge, sw.stable);
      taps := r.0;
      ghost var sw1 := sw;
      ReleaseAction(r.1.release);
      SingleTapAction(r.1.single);
      HoldAction(r.1.hold);
      assert sw == sw1;
    }

    /** The end of a momentary hold sends the bypass of the preset it played
        and counts the effect as off; a double tap makes D the base slot and
        sends its program. */
    method ReleaseAction(release: HoldTaps.Release)
      requires Valid()
      modifies this`sel, this`effectOn, this`sent
      ensures Valid()
      ensures release == HoldTaps.HoldEnd ==>
        !effectOn && sel == old(sel) && sent == old(sent) + [Midi.ProgramChange(Bypass(momentaryPc))]
      ensures release == HoldTaps.DoubleTap ==>
        && sel == FourSlots.SetBaseSlot(old(sel), FourSlots.SLOT_D) && sel.active == FourSlots.SLOT_D
        && effectOn && sent == old(sent) + [Midi.ProgramChange(slotPc[FourSlots.SLOT_D])]
      ensures release !in {HoldTaps.HoldEnd, HoldTaps.DoubleTap} ==> unchanged(this)
    {
      if release == HoldTaps.HoldEnd {
        sent := sent + [Midi.ProgramChange(Bypass(momentaryPc))];
        effectOn := false;
      } else if release == HoldTaps.DoubleTap {
        sel := FourSlots.SetBaseSlot(sel, FourSlots.SLOT_D);
        sent := sent + [Midi.ProgramChange(slotPc[sel.active])];
        effectOn := true;
      }
    }

    /** A confirmed single tap switches A/B and sends the new program. */
    method SingleTapAction(single: bool)
      requires Valid()
      modifies this`sel, this`effectOn, this`sent
      ensures Valid()
      ensures single ==>
        && sel == FourSlots.ToggleAb(old(sel)) && effectOn
        && sent == old(sent) + [Midi.ProgramChange(slotPc[sel.active])]
      ensures !single ==> unchanged(this)
    {
      if single {
        sel := FourSlots.ToggleAb(sel);
        sent := sent + [Midi.ProgramChange(slotPc[sel.active])];
        effectOn := true;
      }
    }

    /** A hold snapshots the active slot, its program and whether the effect
        was on, and switches the effect on if it was off. */
    method HoldAction(hold: bool)
      requires Valid()
      modifies this`effectOn, this`momentarySavedOn, this`momentarySlot, this`momentaryPc, this`sent
      ensures Valid()
      ensures hold ==>
        && momentarySlot == sel.active && momentaryPc == slotPc[sel.active]
        && momentarySavedOn == old(effectOn) && effectOn
        && sent == old(sent) + (if old(effectOn) then [] else [Midi.ProgramChange(momentaryPc)])
      ensures !hold ==> unchanged(this)
    {
      if hold {
        momentarySlot := sel.active;
        momentaryPc := slotPc[momentarySlot];
        momentarySavedOn := effectOn;
        if !momentarySavedOn {
          sent := sent + [Midi.ProgramChange(momentaryPc)];
          effectOn := true;
        }
      }
    }
  }
}

=== FILE: midi_shutter.dfy ===
/**
  The MIDI shutter with access mode (Whammy4_Midi_Shutter_TESTONLY.py).

  It is the shutter gate with access mode, except that the shutter is played
  over MIDI instead of by the relays: while the shutter runs the relays stay
  WET and every `half_ms` the firmware sends, alternately, the bypass program
  of the active slot's preset (OFF phase) and the preset itself (ON phase).
  Its half period is held at or above MIDI_MIN_HALF_MS so the pedal can keep
  up. In access mode a committed selection is confirmed by flickering
  between the selection and its own bypass program, and editing stays on
  the same slot.

  The firmware keeps the MIDI phase in the relay state variable `a_state`,
  and `set_A_and_B` chooses its writes from `a_state`, not from the pins.
  This differs from the intended switching in two places. At the start
  (line 343) `a_state` is set before switching, so the relays never go WET
  (see SessionNeverGoesWet below). At the stop (line 355) a shutter that
  kept its relays WET through access mode and ends in the OFF phase is not
  switched DRY (see StopAfterAccessStaysWet). This model keeps the phase in
  a field of its own and switches the relays as intended at both places;
  the phase still changes wherever the firmware's relay switching changes
  `a_state`.
*/
module MidiShutter {
  import opened Optional
  import opened Debounce
  import Midi
  import Catalog
  import Pot
  import PotCurve
  import Relay
  import ShutterTaps
  import AccessCursor

  const POT_EVERY_MS := 10

  /** MIDI_PC_OFF: the bypass program in the "fixed" bypass mode (this
      firmware uses the "offset" mode). */
  const MIDI_PC_OFF := 28
  const BYPASS_MODE := Midi.Offset

  /** The bypass program of an active program, as this firmware computes
      it. */
  function Bypass(pc: int): int
  {
    Midi.BypassFor(BYPASS_MODE, MIDI_PC_OFF, pc)
  }

  /** MIDI_MIN_HALF_MS, raised to MIN_HALF_MS if configured below it. */
  const MIDI_MIN_HALF_MS := if 60 < PotCurve.MIN_HALF_MS then PotCurve.MIN_HALF_MS else 60

  /** The half period of the MIDI shutter: the relay shutter's half period,
      held at or above MIDI_MIN_HALF_MS. */
  function MidiHalfMs(mean: int): (h: int)
    requires 0 <= mean <= PotCurve.U16_MAX
    ensures MIDI_MIN_HALF_MS <= h <= PotCurve.MAX_HALF_MS
    ensures h >= PotCurve.HalfMsFor(mean)
    ensures PotCurve.HalfMsFor(mean) >= MIDI_MIN_HALF_MS ==> h == PotCurve.HalfMsFor(mean)
  {
    PotCurve.Clamp(PotCurve.HalfMsFor(mean), MIDI_MIN_HALF_MS, PotCurve.MAX_HALF_MS)
  }

  /** The Program Changes of `n` shutter toggles starting in `phase`: a WET
      phase ends by sending the bypass program `off`, a DRY phase by sending
      the active program `on`. */
  function PhaseMessages(phase: Relay.Bit, on: int, off: int, n: nat): (msgs: seq<Midi.Msg>)
    ensures |msgs| == n
    ensures n > 0 ==> msgs[0] == Midi.ProgramChange(if phase == Relay.WET then off else on)
    decreases n
  {
    if n == 0 then []
    else [Midi.ProgramChange(if phase == Relay.WET then off else on)] + PhaseMessages(Relay.Flip(phase), on, off, n - 1)
  }

  /** A shutter that starts in the WET phase and runs `2k` toggles sends
      exactly the confirmation flicker of `k` toggles: the pedal alternates
      between bypass and active and comes back to active. */
  lemma {:induction false} ShutterIsFlicker(on: int, off: int, k: nat)
    ensures PhaseMessages(Relay.WET, on, off, 2 * k) == Midi.Confirm(off, on, k)
  {
    if k > 0 {
      ShutterIsFlicker(on, off, k - 1);
      assert PhaseMessages(Relay.WET, on, off, 2 * k)
          == [Midi.ProgramChange(off)] + PhaseMessages(Relay.DRY, on, off, 2 * k - 1);
      assert PhaseMessages(Relay.DRY, on, off, 2 * k - 1)
          == [Midi.ProgramChange(on)] + PhaseMessages(Relay.WET, on, off, 2 * (k - 1));
    }
  }

  class Shutter {
    var lastAccess: Option<bool>
    var sw: Debouncer
    var cursor: AccessCursor.Cursor
    var taps: ShutterTaps.Taps
    var active: bool
    var lastToggle: nat
    var lastPotMs: nat
    var halfMs: int
    /** The MIDI shutter phase: WET while the active program is on. */
    var phase: Relay.Bit
    var slotIndex: seq<int>
    var slotPc: seq<int>
    var activeSlot: int
    var editSlot: int
    var pendingActive: bool
    var pendingIndex: int
    var pendingPc: int
    var pendingLastChange: nat
    /** Every Program Change sent, in order. */
    var sent: seq<Midi.Msg>
    const relay: Relay.RelayPair
    const pot: Pot.PotFilter

    ghost predicate Valid()
      reads this, relay, pot
    {
      && relay.Valid() && pot.Valid()
      && AccessCursor.SlotTable(slotIndex, slotPc, 2)
      && activeSlot in {AccessCursor.SLOT_A, AccessCursor.SLOT_B} && editSlot in {AccessCursor.SLOT_A, AccessCursor.SLOT_B}
      && AccessCursor.ValidIndex(cursor.index)
      && AccessCursor.ValidIndex(pendingIndex) && pendingPc == Catalog.WhammyProgram(pendingIndex)
      && MIDI_MIN_HALF_MS <= halfMs <= PotCurve.MAX_HALF_MS
      // the relays and the MIDI phase stay WET in access mode; in normal
      // mode the relays are WET exactly while the shutter runs, and a
      // stopped shutter rests in the OFF phase
      && (lastAccess == Some(true) ==> relay.aState == Relay.WET && phase == Relay.WET)
      && (lastAccess != Some(true) ==> relay.aState == (if active then Relay.WET else Relay.DRY))
      && (lastAccess != Some(true) && !active ==> phase == Relay.DRY)
    }

    constructor (now: nat, rawSw: Level)
      ensures Valid() && fresh(relay) && fresh(pot)
      ensures lastAccess == None && !active && sent == [] && taps == ShutterTaps.Idle
      ensures slotIndex == [0, 0] && activeSlot == AccessCursor.SLOT_A && editSlot == AccessCursor.SLOT_A
    {
      lastAccess := None;
      sw := Init(rawSw, now);
      cursor := AccessCursor.Cursor(RELEASED, 0, 0, 0);
      taps := ShutterTaps.Idle;
      active := false;
      lastToggle := now;
      lastPotMs := now;
      halfMs := PotCurve.MAX_HALF_MS;
      phase := Relay.DRY;
      slotIndex := [0, 0];
      slotPc := [Catalog.WhammyProgram(0), Catalog.WhammyProgram(0)];
      activeSlot := AccessCursor.SLOT_A;
      editSlot := AccessCursor.SLOT_A;
      pendingActive := false;
      pendingIndex := 0;
      pendingPc := Catalog.WhammyProgram(0);
      pendingLastChange := 0;
      sent := [];
      relay := new Relay.RelayPair();
      pot := new Pot.PotFilter();
    }

    /** `set_effect(on)`: start the shutter in the ON phase at `now` with a
        freshly primed pot, the relays WET, sending the active slot's
        program; or stop it with the relays DRY (no MIDI on stop). */
    method SetEffect(on: bool, now: nat, potSample: int)
      requires Valid() && Pot.IsU16(potSample) && lastAccess != Some(true)
      modifies this`active, this`halfMs, this`lastPotMs, this`lastToggle, this`phase, this`sent, relay, pot
      ensures Valid() && active == on && relay.aState == (if on then Relay.WET else Relay.DRY)
      ensures phase == (if on then Relay.WET else Relay.DRY)
      ensures on ==> pot.State() == Pot.Primed(potSample) && halfMs == MidiHalfMs(potSample)
                     && lastToggle == now && lastPotMs == now
                     && sent == old(sent) + [Midi.ProgramChange(slotPc[activeSlot])]
      ensures !on ==> unchanged(pot) && sent == old(sent) && halfMs == old(halfMs)
                      && lastToggle == old(lastToggle) && lastPotMs == old(lastPotMs)
    {
      if on {
        active := true;
        pot.Prime(potSample);
        halfMs := MidiHalfMs(pot.mean);
        lastPotMs := now;
        lastToggle := now;
        phase := Relay.WET;
        relay.SetAB(Relay.WET);
        sent := sent + [Midi.ProgramChange(slotPc[activeSlot])];
      } else {
        active := false;
        relay.SetAB(Relay.DRY);
        phase := Relay.DRY;
      }
    }

    /** One pass of the main loop: the access pin level, the raw footswitch
        level and the pot reading of this pass. */
    method Tick(now: nat, accessPin: Level, rawSw: Level, potSample: int)
      requires Valid() && Pot.IsU16(potSample) && sw.lastChange <= now
      modifies this, relay, pot
      ensures Valid() && lastAccess == Some(accessPin == PRESSED)
      ensures sw.lastChange <= now
    {
      var access := accessPin == PRESSED;
      ModeSwitch(now, access, rawSw);
      if access {
        AccessPass(now, rawSw);
      } else {
        NormalPass(now, rawSw, potSample);
      }
    }

    /** One normal-mode pass: footswitch, gestures, pot, shutter. */
    method NormalPass(now: nat, rawSw: Level, potSample: int)
      requires Valid() && Pot.IsU16(potSample) && sw.lastChange <= now && lastAccess == Some(false)
      modifies this`sw, this`taps, this`active, this`activeSlot, this`halfMs, this`lastPotMs,
               this`lastToggle, this`phase, this`sent, relay, pot
      ensures Valid() && sw == Step(old(sw), now, rawSw).0
    {
      var edge := SwitchPhase(now, rawSw, potSample);
      ghost var sw1 := sw;
      GesturePhase(now, edge, rawSw == PRESSED, potSample);
      assert sw == sw1;
      PotPhase(now, potSample);
      assert sw == sw1;
      TogglePhase(now);
      assert sw == sw1;
    }

    /** On the first pass and whenever the access pin changes: reset the
        switch tracking and the gestures; entering access mode goes WET,
        starts editing the active slot and previews it; leaving it goes DRY
        unless the shutter is running. The relay switch also sets the MIDI
        phase, which the firmware keeps in `a_state`: entering access puts
        it in ON, so a shutter left running resumes with its OFF message. */
    method ModeSwitch(now: nat, access: bool, rawSw: Level)
      requires Valid() && sw.lastChange <= now
      modifies this`lastAccess, this`cursor, this`sw, this`taps, this`editSlot, this`pendingActive, this`sent,
               this`phase, relay
      ensures Valid() && lastAccess == Some(access) && sw.lastChange <= now
      ensures old(lastAccess) == Some(access) ==> unchanged(this, relay)
      ensures old(lastAccess) != Some(access) && access ==> phase == Relay.WET
      ensures old(lastAccess) != Some(access) && !access ==>
        phase == (if active then old(phase) else Relay.DRY)
      ensures old(lastAccess) != Some(access) ==>
        && sw == Init(rawSw, now) && taps == ShutterTaps.Idle
        && cursor.lastSwRaw == RELEASED && cursor.lastPressMs == 0
      ensures old(lastAccess) != Some(access) && access ==>
        && editSlot == activeSlot && cursor.index == slotIndex[editSlot] && !pendingActive
        && sent == old(sent) + [Midi.ProgramChange(slotPc[editSlot])]
      ensures old(lastAccess) != Some(access) && !access ==>
        sent == old(sent) && editSlot == old(editSlot) && cursor.index == old(cursor.index)
        && pendingActive == old(pendingActive)
    {
      if lastAccess != Some(access) {
        if access {
          EnterAccess(now, rawSw);
        } else {
          LeaveAccess(now, rawSw);
        }
      }
    }

    /** Entering access mode: the tracking resets, then the relays go WET
        (and with them the MIDI phase), editing starts on the active slot
        and previews it. */
    method EnterAccess(now: nat, rawSw: Level)
      requires Valid() && lastAccess != Some(true)
      modifies this`lastAccess, this`cursor, this`sw, this`taps, this`editSlot, this`pendingActive, this`sent,
               this`phase, relay
      ensures Valid() && lastAccess == Some(true) && phase == Relay.WET
      ensures sw == Init(rawSw, now) && taps == ShutterTaps.Idle
      ensures cursor.lastSwRaw == RELEASED && cursor.lastPressMs == 0
      ensures editSlot == activeSlot && cursor.index == slotIndex[editSlot] && !pendingActive
      ensures sent == old(sent) + [Midi.ProgramChange(slotPc[editSlot])]
    {
      relay.SetAB(Relay.WET);
      lastAccess := Some(true);
      phase := Relay.WET;
      cursor := AccessCursor.Entered(cursor, cursor.index);
      sw := Init(rawSw, now);
      taps := ShutterTaps.Idle;
      PreviewActiveSlot();
    }

    /** Editing starts on the active slot, which is previewed. */
    method PreviewActiveSlot()
      requires Valid()
      modifies this`editSlot, this`sent, this`cursor, this`pendingActive
      ensures Valid() && editSlot == activeSlot && !pendingActive
      ensures cursor == old(cursor).(index := slotIndex[editSlot])
      ensures sent == old(sent) + [Midi.ProgramChange(slotPc[editSlot])]
    {
      editSlot := activeSlot;
      sent := sent + [Midi.ProgramChange(slotPc[editSlot])];
      assert AccessCursor.SlotOk(slotIndex, slotPc, editSlot);
      cursor := cursor.(index := slotIndex[editSlot]);
      pendingActive := false;
    }

    /** Leaving access mode (or the first pass in normal mode): the tracking
        resets, and the relays and the MIDI phase go DRY unless the shutter
        is running. */
    method LeaveAccess(now: nat, rawSw: Level)
      requires Valid() && lastAccess != Some(false)
      modifies this`lastAccess, this`cursor, this`sw, this`taps, this`phase, relay
      ensures Valid() && lastAccess == Some(false)
      ensures phase == (if active then old(phase) else Relay.DRY)
      // a shutter left running through access mode resumes in the ON phase,
      // so its next toggle sends the bypass program
      ensures old(lastAccess) == Some(true) && active ==> phase == Relay.WET
      ensures sw == Init(rawSw, now) && taps == ShutterTaps.Idle
      ensures cursor.lastSwRaw == RELEASED && cursor.lastPressMs == 0 && cursor.index == old(cursor.index)
    {
      lastAccess := Some(false);
      cursor := AccessCursor.Entered(cursor, cursor.index);
      sw := Init(rawSw, now);
      taps := ShutterTaps.Idle;
      if !active {
        relay.SetAB(Relay.DRY);
        phase := Relay.DRY;
      }
    }

    /** One access-mode pass: cursor, double click, preview, commit. */
    method AccessPass(now: nat, raw: Level)
      requires Valid() && lastAccess == Some(true)
      modifies this`cursor, this`editSlot, this`pendingActive, this`pendingIndex, this`pendingPc,
               this`pendingLastChange, this`sent, this`slotIndex, this`slotPc
      ensures Valid()
      ensures AccessCursor.Step(old(cursor), now, raw).1 == AccessCursor.DoubleClick ==>
        && editSlot == AccessCursor.Other(old(editSlot)) && !pendingActive
        && cursor.index == slotIndex[editSlot] && slotIndex == old(slotIndex)
        && sent == old(sent) + [Midi.ProgramChange(slotPc[editSlot])]
    {
      var r := AccessCursor.Step(cursor, now, raw);
      cursor := r.0;
      if r.1 == AccessCursor.DoubleClick {
        editSlot := AccessCursor.Other(editSlot);
        sent := sent + [Midi.ProgramChange(slotPc[editSlot])];
        assert AccessCursor.SlotOk(slotIndex, slotPc, editSlot);
        cursor := cursor.(index := slotIndex[editSlot]);
        pendingActive := false;
        return;
      }
      if r.1 == AccessCursor.Stepped {
        var pc := Catalog.WhammyProgram(cursor.index);
        sent := sent + [Midi.ProgramChange(pc)];
        pendingActive := true;
        pendingIndex := cursor.index;
        pendingPc := pc;
        pendingLastChange := now;
      }
      CommitPhase(now);
    }

    /** The auto-commit: a pending selection untouched for PENDING_SAVE_MS is
        written to the slot being edited and confirmed by flickering between
        its bypass program and itself; editing stays on the same slot. */
    method CommitPhase(now: nat)
      requires Valid() && lastAccess == Some(true)
      modifies this`pendingActive, this`sent, this`slotIndex, this`slotPc
      ensures Valid()
      ensures old(pendingActive) && now - pendingLastChange >= AccessCursor.PENDING_SAVE_MS ==>
        && slotIndex == old(slotIndex)[editSlot := pendingIndex]
        && slotPc == old(slotPc)[editSlot := pendingPc]
        && !pendingActive
        && sent == old(sent) + Midi.Confirm(Bypass(pendingPc), pendingPc, Midi.CONFIRM_TOGGLES)
      ensures !(old(pendingActive) && now - pendingLastChange >= AccessCursor.PENDING_SAVE_MS) ==>
        unchanged(this)
    {
      if pendingActive && now - pendingLastChange >= AccessCursor.PENDING_SAVE_MS {
        AccessCursor.SlotTableStore(slotIndex, slotPc, |slotIndex|, editSlot, pendingIndex);
        slotIndex := slotIndex[editSlot := pendingIndex];
        slotPc := slotPc[editSlot := pendingPc];
        pendingActive := false;
        sent := sent + Midi.Confirm(Bypass(slotPc[editSlot]), slotPc[editSlot], Midi.CONFIRM_TOGGLES);
      }
    }

    /** The normal-mode footswitch: debounce it, and stop a running shutter
        on a debounced release. Returns the debounced edge. */
    method SwitchPhase(now: nat, rawSw: Level, potSample: int) returns (edge: Edge)
      requires Valid() && Pot.IsU16(potSample) && sw.lastChange <= now && lastAccess == Some(false)
      modifies this`sw, this`active, this`phase, relay
      ensures Valid() && sw == Step(old(sw), now, rawSw).0 && edge == EdgeOf(old(sw), now, rawSw)
      ensures edge == ReleaseEdge ==> !active && relay.aState == Relay.DRY
      ensures edge != ReleaseEdge ==> active == old(active) && phase == old(phase) && unchanged(relay)
    {
      edge := EdgeOf(sw, now, rawSw);
      sw := Step(sw, now, rawSw).0;
      if edge == ReleaseEdge && active {
        active := false;
        relay.SetAB(Relay.DRY);
        phase := Relay.DRY;
      }
    }

    /** The gestures: a double tap switches the active slot and sends its
        program; a press held past TAP_MAX_MS starts the shutter. */
    method GesturePhase(now: nat, edge: Edge, pressed: bool, potSample: int)
      requires Valid() && Pot.IsU16(potSample) && lastAccess == Some(false)
      modifies this`taps, this`active, this`activeSlot, this`halfMs, this`lastPotMs,
               this`lastToggle, this`phase, this`sent, relay, pot
      ensures Valid()
      ensures var (t, outcome, start) := ShutterTaps.NormalTick(old(taps), now, edge, pressed, old(active));
              && taps == t
              && activeSlot == (if outcome == ShutterTaps.DoubleTap then AccessCursor.Other(old(activeSlot)) else old(activeSlot))
              && (outcome == ShutterTaps.DoubleTap ==> sent == old(sent) + [Midi.ProgramChange(slotPc[activeSlot])])
              && (start ==> active && lastToggle == now && relay.aState == Relay.WET && phase == Relay.WET
                            && sent == old(sent) + [Midi.ProgramChange(slotPc[activeSlot])])
              && (!start ==> active == old(active) && phase == old(phase) && unchanged(relay))
    {
      var r := ShutterTaps.NormalTick(taps, now, edge, pressed, active);
      ghost var sent0, active0, phase0 := sent, active, phase;
      taps := r.0;
      if r.1 == ShutterTaps.DoubleTap {
        activeSlot := AccessCursor.Other(activeSlot);
        sent := sent + [Midi.ProgramChange(slotPc[activeSlot])];
      }
      ghost var sent1 := sent;
      if r.2 {
        assert r.1 != ShutterTaps.DoubleTap;
        SetEffect(true, now, potSample);
        assert sent == sent0 + [Midi.ProgramChange(slotPc[activeSlot])];
      } else {
        assert active == active0 && phase == phase0;
      }
      assert taps == r.0 && sent1 == sent0 + (if r.1 == ShutterTaps.DoubleTap then [Midi.ProgramChange(slotPc[activeSlot])] else []);
    }

    /** Every POT_EVERY_MS while the shutter runs: filter one pot sample and
        recompute the half period. */
    method PotPhase(now: nat, potSample: int)
      requires Valid() && Pot.IsU16(potSample)
      modifies this`lastPotMs, this`halfMs, pot
      ensures Valid()
      ensures active && now - old(lastPotMs) >= POT_EVERY_MS ==>
        lastPotMs == now && pot.State() == Pot.Step(old(pot.State()), potSample).0
        && halfMs == MidiHalfMs(pot.mean)
      ensures !(active && now - old(lastPotMs) >= POT_EVERY_MS) ==>
        unchanged(pot) && lastPotMs == old(lastPotMs) && halfMs == old(halfMs)
    {
      if active && now - lastPotMs >= POT_EVERY_MS {
        lastPotMs := now;
        var _ := pot.Update(potSample);
        halfMs := MidiHalfMs(pot.mean);
      }
    }

    /** The MIDI shutter: once `half_ms` has passed since the last toggle,
        end the current phase by sending the active slot's bypass program
        (leaving ON) or its program (leaving OFF). The relays are not
        touched. */
    method TogglePhase(now: nat)
      requires Valid() && lastAccess == Some(false)
      modifies this`lastToggle, this`phase, this`sent
      ensures Valid()
      ensures active && now - old(lastToggle) >= halfMs ==>
        && lastToggle == now && phase == Relay.Flip(old(phase))
        && sent == old(sent) + PhaseMessages(old(phase), slotPc[activeSlot], Bypass(slotPc[activeSlot]), 1)
      ensures !(active && now - old(lastToggle) >= halfMs) ==>
        lastToggle == old(lastToggle) && phase == old(phase) && sent == old(sent)
    {
      if active && now - lastToggle >= halfMs {
        lastToggle := now;
        if phase == Relay.WET {
          sent := sent + [Midi.ProgramChange(Bypass(slotPc[activeSlot]))];
          phase := Relay.DRY;
        } else {
          sent := sent + [Midi.ProgramChange(slotPc[activeSlot])];
          phase := Relay.WET;
        }
      }
    }
  }

  // -------------------------------------------------------------------
  // The relay outputs as written
  // -------------------------------------------------------------------

  /** The firmware's `a_state` together with the pin levels. */
  datatype Outputs = Outputs(aState: Relay.Bit, pins: Relay.Pins)

  /** `set_A_and_B(target)` as written: the writes are chosen from `a_state`,
      which need not be the level on the pins. */
  function SetABAsWritten(o: Outputs, target: Relay.Bit): (r: Outputs)
    ensures r.aState == target
    ensures target == o.aState ==> r.pins == o.pins
  {
    Outputs(target, Relay.Final(o.pins, Relay.Transition(o.aState, target)))
  }

  /** `set_effect(True)` as written: `a_state = WET`, then
      `set_A_and_B(WET)`. */
  function StartAsWritten(o: Outputs): Outputs
  {
    SetABAsWritten(o.(aState := Relay.WET), Relay.WET)
  }

  /** `n` MIDI shutter toggles as written: only `a_state` flips. */
  function TogglesAsWritten(o: Outputs, n: nat): (r: Outputs)
    ensures r.pins == o.pins
    decreases n
  {
    if n == 0 then o else TogglesAsWritten(o.(aState := Relay.Flip(o.aState)), n - 1)
  }

  /** `set_effect(False)` as written: `set_A_and_B(DRY)`, then
      `a_state = DRY`. */
  function StopAsWritten(o: Outputs): Outputs
  {
    SetABAsWritten(o, Relay.DRY)
  }

  /** As written, a whole shutter session (start, any number of phase
      toggles, stop) leaves the pins exactly as it found them: starting from
      normal mode with the relays DRY, the effect path is never closed while
      the shutter plays, so the Whammy being switched over MIDI is not in the
      signal path. */
  lemma SessionNeverGoesWet(o: Outputs, n: nat)
    requires o.aState == Relay.DRY && o.pins == Relay.Pins(Relay.DRY, Relay.BRaw(1))
    ensures StartAsWritten(o).pins == o.pins
    ensures TogglesAsWritten(StartAsWritten(o), n).pins.a == Relay.DRY
    ensures StopAsWritten(TogglesAsWritten(StartAsWritten(o), n)).pins == o.pins
  {
    var t := TogglesAsWritten(StartAsWritten(o), n);
    if t.aState == Relay.WET {
      var w := Relay.Transition(Relay.WET, Relay.DRY);
      assert Relay.Replay(t.pins, w)[1] == Relay.Apply(Relay.Apply(t.pins, w[0]), w[1]);
    }
  }

  /** As written, each MIDI toggle flips `a_state`, so after `n` toggles it
      is back where it was exactly when `n` is even. */
  lemma {:induction false} TogglesParity(o: Outputs, n: nat)
    ensures TogglesAsWritten(o, n).aState == (if n % 2 == 0 then o.aState else Relay.Flip(o.aState))
    decreases n
  {
    if n > 0 {
      TogglesParity(o.(aState := Relay.Flip(o.aState)), n - 1);
    }
  }

  /** As written, a shutter kept running through a visit to access mode has
      its relays WET with `a_state` WET (entering access switches them,
      leaving writes nothing). After an odd number of toggles `a_state` reads
      DRY, so the stop's `set_A_and_B(DRY)` writes nothing and the relays
      stay WET with the effect off. */
  lemma StopAfterAccessStaysWet(o: Outputs, n: nat)
    requires o.aState == Relay.WET && o.pins == Relay.Pins(Relay.WET, Relay.BRaw(0))
    requires n % 2 == 1
    ensures TogglesAsWritten(o, n).aState == Relay.DRY
    ensures StopAsWritten(TogglesAsWritten(o, n)).pins == o.pins
    ensures StopAsWritten(TogglesAsWritten(o, n)).pins.a == Relay.WET
  {
    TogglesParity(o, n);
  }
}

=== FILE: neo.dfy ===
/**
  The NEO controller (NEO/main.py): one footswitch, one layer switch and a
  pot, driving a Whammy 4 on MIDI channel 4.

  After the startup animation the pedal runs a three-stage boot programmer:
  a scan steps through the presets once a second and a press saves the one
  shown as preset A (stage 0), then as preset B (stage 1); stage 2 scans the
  four modes. Once programmed, the layer switch chooses between the
  performance layer (a tap toggles a Latch sound, a double tap switches
  between A and B behind a short mute, a hold drives the Momentary, Holding
  or Shutter engine) and the settings layer (a scan of the modes; a tap
  applies the one shown at the press; a two-second hold restarts preset
  programming with the old presets kept until the new pair is complete).

  One deliberate difference from the code as written, logged under
  Findings in README.md: the release of the long hold that restarted
  preset programming is not taken as the end of stage 0 (`reprogHoldDown`).
*/
module Neo {
  import opened Midi
  import opened Debounce
  import Catalog
  import PotCurve
  import opened NeoSound
  import opened NeoTaps
  import opened NeoEngines
  import NeoBoot

  const STAGES := 3
  const SCAN_INTERVAL_MS_BOOT := 1000
  const LAYER2_REPROGRAM_HOLD_MS := 2000
  const SWITCH_MUTE_MS := 250
  const POT_READ_INTERVAL_MS := 40

  /** The layer switch open (pull-up 1): performance; closed: settings. */
  const LAYER_PRESET := 0
  const LAYER_EFFECT := 1

  /** How many entries the scan of `stage` steps through: the presets in
      stages 0 and 1, the modes in stage 2 (and in the settings layer,
      which is only reachable after stage 2). */
  function ScanLength(stage: int): nat
  {
    if stage <= 1 then Catalog.PRESET_COUNT else Catalog.SETTINGS_COUNT
  }

  class Controller {
    /** Every message sent after the startup animation, in order. */
    var sent: seq<Msg>
    var potTime: int
    var lastPotRead: int
    var mode: int
    var scanPaused: bool
    var lastScanStep: int
    var selection: int
    var stage: int
    var done: bool
    var staging: NeoBoot.Staging
    var layer: int
    var activeSlot: int
    var effectEnabled: bool
    var eng: Engines
    var selectedSetting: int
    var muteUntil: int
    var applyPending: bool
    var sw: Debouncer
    var pressStart: int
    var layerSw: Debouncer
    var taps: Taps
    var longHoldFired: bool
    var pressLayer: int
    /** The press that restarted preset programming is still down; its
        release only clears this flag. */
    var reprogHoldDown: bool

    ghost predicate Valid()
      reads this
    {
      && IsMode(mode)
      && layer in {LAYER_PRESET, LAYER_EFFECT} && pressLayer in {LAYER_PRESET, LAYER_EFFECT}
      && activeSlot in {0, 1}
      && NeoBoot.Valid(staging)
      && 0 <= stage < STAGES && (done ==> stage == STAGES - 1)
      // a staged reprogram only exists while the preset stages run
      && (staging.reprogActive ==> !done && stage <= 1)
      && (reprogHoldDown ==> !done)
      // every scan index points into the list its stage scans
      && 0 <= selection < ScanLength(stage)
      && 0 <= selectedSetting < Catalog.SETTINGS_COUNT
      && SHUTTER_MIN_MS <= potTime <= HOLD_MAX_MS
    }

    /** The program of the active slot. */
    function ActivePc(): (pc: int)
      reads this
      requires Valid()
      ensures 0 <= pc < Catalog.PRESET_COUNT
    {
      CurrentActivePc(staging.stored, activeSlot)
    }

    /** The state after boot, with the raw switch levels read at `now`. The
        startup animation is not modelled; the log starts with the CC0 = 0
        that follows it and the first boot scan item. */
    constructor (now: nat, rawSw: Level, rawLayer: Level)
      ensures Valid() && sent == [ControlChange(0, 0)] + EffectOff(ScanProgram(true, 0))
      ensures stage == 0 && !done && staging == NeoBoot.UNPROGRAMMED && selection == 0 && !scanPaused
      ensures mode == MODE_LATCH && layer == LAYER_PRESET && activeSlot == 0 && effectEnabled && eng == IDLE
      ensures sw == Init(rawSw, now) && layerSw == Init(rawLayer, now) && taps == NO_TAP && !reprogHoldDown
    {
      potTime := DEFAULT_POT_TIME_MS;
      lastPotRead := 0;
      mode := MODE_LATCH;
      scanPaused := false;
      lastScanStep := 0;
      selection := 0;
      stage := 0;
      done := false;
      staging := NeoBoot.UNPROGRAMMED;
      layer := LAYER_PRESET;
      activeSlot := 0;
      effectEnabled := true;
      eng := IDLE;
      selectedSetting := 0;
      muteUntil := 0;
      applyPending := false;
      sw := Init(rawSw, now);
      pressStart := 0;
      layerSw := Init(rawLayer, now);
      taps := NO_TAP;
      longHoldFired := false;
      pressLayer := LAYER_PRESET;
      reprogHoldDown := false;
      sent := [ControlChange(0, 0)] + EffectOff(ScanProgram(true, 0));
    }

    // -------------------------------------------------------------------
    // Helpers
    // -------------------------------------------------------------------

    /** `apply_current_sound()`: send the baseline of the active preset and
        put every engine at rest. */
    method ApplyCurrentSound()
      requires Valid()
      modifies this`sent, this`eng
      ensures Valid() && eng == IDLE
      ensures sent == old(sent) + Baseline(mode, effectEnabled, ActivePc())
    {
      sent := sent + Baseline(mode, effectEnabled, ActivePc());
      eng := IDLE;
    }

    /** `show_boot_scan_item()`: the bypassed program of the entry shown. */
    method ShowBootScanItem()
      requires Valid()
      modifies this`sent
      ensures sent == old(sent) + EffectOff(ScanProgram(stage <= 1, selection))
    {
      sent := sent + EffectOff(ScanProgram(stage <= 1, selection));
    }

    /** `start_preset_switch_with_mute()`: with both presets programmed, turn
        the current one off, switch slots, put the engines at rest and apply
        the new slot SWITCH_MUTE_MS later; otherwise do nothing. */
    method StartPresetSwitch(now: nat)
      requires Valid()
      modifies this`sent, this`activeSlot, this`eng, this`muteUntil, this`applyPending
      ensures Valid()
      ensures staging.stored[0] < 0 || staging.stored[1] < 0 ==> unchanged(this)
      ensures staging.stored[0] >= 0 && staging.stored[1] >= 0 ==>
        && sent == old(sent) + EffectOff(old(ActivePc())) && activeSlot == 1 - old(activeSlot)
        && eng == IDLE && muteUntil == now + SWITCH_MUTE_MS && applyPending
    {
      if staging.stored[0] < 0 || staging.stored[1] < 0 {
        return;
      }
      sent := sent + EffectOff(ActivePc());
      activeSlot := 1 - activeSlot;
      eng := IDLE;
      muteUntil := now + SWITCH_MUTE_MS;
      applyPending := true;
    }

    /** `on_single_tap_layer1()`: in Latch mode a tap toggles the effect;
        the other modes ignore taps. */
    method OnSingleTapLayer1()
      requires Valid()
      modifies this`effectEnabled, this`sent, this`eng
      ensures Valid()
      ensures mode != MODE_LATCH ==> unchanged(this)
      ensures mode == MODE_LATCH ==>
        && effectEnabled == !old(effectEnabled) && eng == IDLE
        && sent == old(sent) + Baseline(mode, effectEnabled, ActivePc())
    {
      if mode != MODE_LATCH {
        return;
      }
      effectEnabled := !effectEnabled;
      ApplyCurrentSound();
    }

    /** `apply_scanned_setting_and_exit()`: take the mode frozen at the press,
        blink the channel, and return to the performance layer. */
    method ApplyScannedSettingAndExit()
      requires Valid()
      modifies this`mode, this`layer, this`scanPaused, this`sent, this`eng
      ensures Valid() && mode == ModeOf(selectedSetting) && layer == LAYER_PRESET && !scanPaused && eng == IDLE
      ensures sent == old(sent) + Blink() + Baseline(mode, effectEnabled, ActivePc())
    {
      mode := ModeOf(selectedSetting);
      sent := sent + Blink();
      layer := LAYER_PRESET;
      scanPaused := false;
      ApplyCurrentSound();
    }

    /** `restart_preset_programming()`: back to stage 0 with the stored
        presets staged, starting the scan at preset A; the press that
        triggered it keeps the long hold from firing again. */
    method RestartPresetProgramming(now: nat)
      requires Valid() && done
      modifies this`taps, this`staging, this`stage, this`selection, this`scanPaused, this`lastScanStep,
               this`done, this`longHoldFired, this`eng, this`sent, this`reprogHoldDown
      ensures Valid()
      ensures (staging, selection) == NeoBoot.Restart(old(staging))
      ensures stage == 0 && !done && taps == old(taps).(pending := false)
      ensures !scanPaused && lastScanStep == now && longHoldFired && reprogHoldDown && eng == IDLE
      ensures sent == old(sent) + Blink() + EffectOff(ScanProgram(true, selection))
    {
      taps := taps.(pending := false);
      var r := NeoBoot.Restart(staging);
      staging := r.0;
      stage := 0;
      selection := r.1;
      scanPaused := false;
      lastScanStep := now;
      done := false;
      longHoldFired := true;
      reprogHoldDown := true;
      eng := IDLE;
      sent := sent + Blink();
      ShowBootScanItem();
    }

    /** `enter_effect_layer()`: start the settings scan at the first mode. */
    method EnterEffectLayer(now: nat)
      requires Valid()
      modifies this`layer, this`selection, this`lastScanStep, this`scanPaused, this`sent
      ensures Valid() && layer == LAYER_EFFECT && selection == 0 && lastScanStep == now && !scanPaused
      ensures sent == old(sent) + EffectOff(ScanProgram(false, 0))
    {
      layer := LAYER_EFFECT;
      selection := 0;
      lastScanStep := now;
      scanPaused := false;
      sent := sent + EffectOff(ScanProgram(false, 0));
    }

    /** `exit_effect_layer()`: back to performance, on the baseline sound. */
    method ExitEffectLayer()
      requires Valid()
      modifies this`layer, this`sent, this`eng
      ensures Valid() && layer == LAYER_PRESET && eng == IDLE
      ensures sent == old(sent) + Baseline(mode, effectEnabled, ActivePc())
    {
      layer := LAYER_PRESET;
      ApplyCurrentSound();
    }

    // -------------------------------------------------------------------
    // The main loop
    // -------------------------------------------------------------------

    /** One pass of the main loop at `now`, with the raw layer switch and
        footswitch levels and the pot reading of this pass. */
    method Tick(now: nat, rawLayer: Level, rawSw: Level, potRaw: int)
      requires Valid() && 0 <= potRaw <= PotCurve.U16_MAX
      requires sw.lastChange <= now && layerSw.lastChange <= now
      modifies this
      ensures Valid() && sw.lastChange <= now && layerSw.lastChange <= now
      // the stored presets stay as they were while a reprogram is staged,
      // and once programming is done
      ensures staging.reprogActive ==> staging.stored == old(staging.stored)
      ensures done ==> staging.stored == old(staging.stored)
    {
      ghost var stored0 := staging.stored;
      EnginePass(now, rawLayer, potRaw);
      assert staging.stored == stored0;
      LongHoldPhase(now);
      assert staging.stored == stored0;
      FootswitchPhase(now, rawSw);
      ghost var stored1 := staging.stored;
      ScanPass(now);
      assert staging.stored == stored1;
    }

    /** The start of a pass, before the footswitch is read: pot, end of the
        switch mute, layer switch, pending tap, Holding timeout, engine
        triggers and Shutter toggles. */
    method EnginePass(now: nat, rawLayer: Level, potRaw: int)
      requires Valid() && 0 <= potRaw <= PotCurve.U16_MAX && layerSw.lastChange <= now
      modifies this`lastPotRead, this`potTime, this`applyPending, this`sent, this`eng, this`layerSw, this`taps,
               this`layer, this`selection, this`lastScanStep, this`scanPaused, this`effectEnabled, this`mode
      ensures Valid() && layerSw.lastChange <= now
    {
      PotPhase(now, potRaw);
      MutePhase(now);
      LayerPhase(now, rawLayer);
      ghost var l := layerSw;
      SingleTapPhase(now);
      HoldingOffPhase(now);
      TriggerPhase(now);
      ShutterPhase(now);
      assert layerSw == l;
    }

    /** The end of a pass: the settings scan, then the boot scan. */
    method ScanPass(now: nat)
      requires Valid()
      modifies this`lastScanStep, this`selection, this`sent
      ensures Valid()
    {
      SettingsScanPhase(now);
      BootScanPhase(now);
    }

    /** `update_pot_time_ms(now)`: at most one pot read per
        POT_READ_INTERVAL_MS, mapped to the time of the current mode. */
    method PotPhase(now: nat, raw: int)
      requires Valid() && 0 <= raw <= PotCurve.U16_MAX
      modifies this`lastPotRead, this`potTime
      ensures Valid()
      ensures now - old(lastPotRead) < POT_READ_INTERVAL_MS ==> unchanged(this)
      ensures now - old(lastPotRead) >= POT_READ_INTERVAL_MS ==> lastPotRead == now && potTime == PotTime(mode, raw)
    {
      if now - lastPotRead < POT_READ_INTERVAL_MS {
        return;
      }
      lastPotRead := now;
      potTime := PotTime(mode, raw);
    }

    /** Once the mute after a preset switch is over, apply the new preset. */
    method MutePhase(now: nat)
      requires Valid()
      modifies this`applyPending, this`sent, this`eng
      ensures Valid()
      ensures old(applyPending) && now >= muteUntil ==>
        !applyPending && eng == IDLE && sent == old(sent) + Baseline(mode, effectEnabled, ActivePc())
      ensures !(old(applyPending) && now >= muteUntil) ==> unchanged(this)
    {
      if applyPending && now - muteUntil >= 0 {
        applyPending := false;
        ApplyCurrentSound();
      }
    }

    /** The debounced layer switch: a change cancels any pending tap and
        enters (closed) or leaves (open) the settings layer. */
    method LayerPhase(now: nat, rawL: Level)
      requires Valid() && layerSw.lastChange <= now
      modifies this`layerSw, this`taps, this`layer, this`selection, this`lastScanStep, this`scanPaused, this`sent, this`eng
      ensures Valid() && layerSw == Step(old(layerSw), now, rawL).0
      ensures !Step(old(layerSw), now, rawL).1 ==>
        && taps == old(taps) && layer == old(layer) && selection == old(selection) && sent == old(sent)
        && eng == old(eng) && scanPaused == old(scanPaused) && lastScanStep == old(lastScanStep)
      ensures Step(old(layerSw), now, rawL).1 ==>
        && taps == old(taps).(pending := false) && layer == (if rawL == PRESSED then LAYER_EFFECT else LAYER_PRESET)
      ensures Step(old(layerSw), now, rawL).1 && rawL == PRESSED ==>
        && selection == 0 && !scanPaused && lastScanStep == now && eng == old(eng)
        && sent == old(sent) + EffectOff(ScanProgram(false, 0))
      ensures Step(old(layerSw), now, rawL).1 && rawL == RELEASED ==>
        && selection == old(selection) && scanPaused == old(scanPaused) && eng == IDLE
        && sent == old(sent) + Baseline(mode, effectEnabled, ActivePc())
    {
      var r := Step(layerSw, now, rawL);
      layerSw := r.0;
      if r.1 {
        taps := taps.(pending := false);
        if layerSw.stable == PRESSED {
          EnterEffectLayer(now);
        } else {
          ExitEffectLayer();
        }
      }
    }

    /** A pending tap whose deadline has come fires as a single tap: in the
        performance layer it toggles a Latch sound, in the settings layer it
        applies the frozen mode and leaves. Before programming is done it is
        dropped. */
    method SingleTapPhase(now: nat)
      requires Valid()
      modifies this`taps, this`effectEnabled, this`sent, this`eng, this`mode, this`layer, this`scanPaused
      ensures Valid() && taps == Resolve(old(taps), now).0
      ensures !(Resolve(old(taps), now).1 && done) ==>
        && effectEnabled == old(effectEnabled) && sent == old(sent) && eng == old(eng)
        && mode == old(mode) && layer == old(layer) && scanPaused == old(scanPaused)
      ensures Resolve(old(taps), now).1 && done && old(layer) == LAYER_PRESET ==>
        && layer == LAYER_PRESET && mode == old(mode) && scanPaused == old(scanPaused)
        && (mode == MODE_LATCH ==> effectEnabled == !old(effectEnabled) && eng == IDLE
                                   && sent == old(sent) + Baseline(mode, effectEnabled, ActivePc()))
        && (mode != MODE_LATCH ==> effectEnabled == old(effectEnabled) && eng == old(eng) && sent == old(sent))
      ensures Resolve(old(taps), now).1 && done && old(layer) == LAYER_EFFECT ==>
        && mode == ModeOf(selectedSetting) && layer == LAYER_PRESET && !scanPaused && eng == IDLE
        && effectEnabled == old(effectEnabled)
        && sent == old(sent) + Blink() + Baseline(mode, effectEnabled, ActivePc())
    {
      var r := Resolve(taps, now);
      taps := r.0;
      if r.1 && done {
        if layer == LAYER_PRESET {
          OnSingleTapLayer1();
        } else {
          ApplyScannedSettingAndExit();
        }
      }
    }

    /** The Holding timeout, in the performance layer. */
    method HoldingOffPhase(now: nat)
      requires Valid()
      modifies this`sent, this`eng
      ensures Valid()
      ensures var r := HoldingOff(old(eng), now, ActivePc());
              if done && layer == LAYER_PRESET && mode == MODE_HOLDING
              then eng == r.0 && sent == old(sent) + r.1
              else unchanged(this)
    {
      if done && layer == LAYER_PRESET && mode == MODE_HOLDING {
        var r := HoldingOff(eng, now, ActivePc());
        eng := r.0;
        sent := sent + r.1;
      }
    }

    /** The hold trigger of the Momentary, Holding and Shutter engines, in
        the performance layer while the footswitch is down and no preset
        switch is muted. */
    method TriggerPhase(now: nat)
      requires Valid()
      modifies this`sent, this`eng
      ensures Valid()
      ensures var r := Trigger(mode, old(eng), now, now - pressStart, potTime, ActivePc());
              if done && layer == LAYER_PRESET && sw.stable == PRESSED && !applyPending
              then eng == r.0 && sent == old(sent) + r.1
              else unchanged(this)
    {
      if done && layer == LAYER_PRESET && sw.stable == PRESSED && !applyPending {
        var r := Trigger(mode, eng, now, now - pressStart, potTime, ActivePc());
        eng := r.0;
        sent := sent + r.1;
      }
    }

    /** The Shutter's phase toggles, while it runs with the footswitch down. */
    method ShutterPhase(now: nat)
      requires Valid()
      modifies this`sent, this`eng
      ensures Valid()
      ensures var r := ShutterToggle(old(eng), now, potTime, ActivePc());
              if done && layer == LAYER_PRESET && mode == MODE_SHUTTER && sw.stable == PRESSED && old(eng).shutterActive
              then eng == r.0 && sent == old(sent) + r.1
              else unchanged(this)
    {
      if done && layer == LAYER_PRESET && mode == MODE_SHUTTER && sw.stable == PRESSED && eng.shutterActive {
        var r := ShutterToggle(eng, now, potTime, ActivePc());
        eng := r.0;
        sent := sent + r.1;
      }
    }

    /** The settings-layer long hold: once per press, and only for a press
        that began in the settings layer and has lasted
        LAYER2_REPROGRAM_HOLD_MS, preset programming restarts. */
    method LongHoldPhase(now: nat)
      requires Valid()
      modifies this`taps, this`staging, this`stage, this`selection, this`scanPaused, this`lastScanStep,
               this`done, this`longHoldFired, this`eng, this`sent, this`reprogHoldDown
      ensures Valid() && staging.stored == old(staging.stored)
      ensures old(done) && !done <==>
        && old(done) && layer == LAYER_EFFECT && sw.stable == PRESSED && pressLayer == LAYER_EFFECT
        && !old(longHoldFired) && now - pressStart >= LAYER2_REPROGRAM_HOLD_MS
      ensures old(done) && !done ==>
        && (staging, selection) == NeoBoot.Restart(old(staging)) && stage == 0
        && longHoldFired && reprogHoldDown && eng == IDLE && !taps.pending
        && sent == old(sent) + Blink() + EffectOff(ScanProgram(true, selection))
      ensures !(old(done) && !done) ==> unchanged(this)
    {
      if done && layer == LAYER_EFFECT && sw.stable == PRESSED {
        if pressLayer == LAYER_EFFECT && !longHoldFired && now - pressStart >= LAYER2_REPROGRAM_HOLD_MS {
          RestartPresetProgramming(now);
        }
      }
    }

    /** The debounced footswitch and what its press or release does. */
    method FootswitchPhase(now: nat, raw: Level)
      requires Valid() && sw.lastChange <= now
      modifies this`sw, this`pressStart, this`pressLayer, this`eng, this`longHoldFired, this`scanPaused,
               this`selectedSetting, this`staging, this`sent, this`mode, this`taps, this`activeSlot,
               this`muteUntil, this`applyPending, this`stage, this`selection, this`lastScanStep, this`done,
               this`layer, this`effectEnabled, this`reprogHoldDown
      ensures Valid() && sw == Step(old(sw), now, raw).0
      ensures staging.reprogActive ==> staging.stored == old(staging.stored)
      ensures done ==> staging.stored == old(staging.stored)
      ensures EdgeOf(old(sw), now, raw) == NoEdge ==>
        && sent == old(sent) && staging == old(staging) && stage == old(stage) && done == old(done)
        && selection == old(selection) && eng == old(eng) && taps == old(taps)
      ensures EdgeOf(old(sw), now, raw) == PressEdge ==> pressStart == now && pressLayer == layer
    {
      var r := Step(sw, now, raw);
      sw := r.0;
      if r.1 {
        if sw.stable == PRESSED {
          Press(now);
        } else {
          Release(now);
        }
      }
    }

    /** A debounced press. Once programmed: start timing it, put the engines
        at rest, re-allow the long hold and, in the settings layer, freeze
        the scan and the mode shown. While programming: save the entry shown
        (a preset in stages 0 and 1, into the staging copy during a
        reprogram; the mode in stage 2). */
    method Press(now: nat)
      requires Valid()
      modifies this`pressStart, this`pressLayer, this`eng, this`longHoldFired, this`scanPaused,
               this`selectedSetting, this`staging, this`sent, this`mode
      ensures Valid() && pressStart == now && pressLayer == layer
      ensures done ==>
        && eng == IDLE && !longHoldFired && staging == old(staging) && mode == old(mode) && sent == old(sent)
        && (layer == LAYER_EFFECT ==> scanPaused && selectedSetting == selection)
        && (layer == LAYER_PRESET ==> scanPaused == old(scanPaused) && selectedSetting == old(selectedSetting))
      ensures !done ==>
        scanPaused && eng == old(eng) && longHoldFired == old(longHoldFired) && selectedSetting == old(selectedSetting)
      ensures !done && stage <= 1 ==>
        && staging == NeoBoot.Press(old(staging), stage, selection) && mode == old(mode)
        && sent == old(sent) + ConfirmSaved(ScanProgram(true, selection))
      ensures !done && stage == 2 ==>
        && staging == old(staging) && mode == ModeOf(selection)
        && sent == old(sent) + (if mode == MODE_LATCH then EffectOn(0) else EffectOff(0))
    {
      pressStart := now;
      pressLayer := layer;
      if done {
        eng := IDLE;
        longHoldFired := false;
        if layer == LAYER_EFFECT {
          scanPaused := true;
          selectedSetting := selection;
        }
      } else {
        scanPaused := true;
        if stage <= 1 {
          staging := NeoBoot.Press(staging, stage, selection);
          sent := sent + ConfirmSaved(ScanProgram(true, selection));
        } else {
          mode := ModeOf(selection);
          sent := sent + (if mode == MODE_LATCH then EffectOn(0) else EffectOff(0));
        }
      }
    }

    /** A debounced release, by layer and programming stage. */
    method Release(now: nat)
      requires Valid()
      modifies this`eng, this`sent, this`taps, this`activeSlot, this`muteUntil, this`applyPending, this`scanPaused,
               this`staging, this`stage, this`selection, this`lastScanStep, this`done, this`layer,
               this`effectEnabled, this`reprogHoldDown
      ensures Valid()
      ensures staging.reprogActive ==> staging.stored == old(staging.stored)
      ensures done ==> staging.stored == old(staging.stored)
      ensures old(done) ==> done && staging == old(staging) && stage == old(stage) && selection == old(selection)
      // the release of the long hold that restarted programming ends nothing
      ensures !old(done) && old(reprogHoldDown) ==>
        && !reprogHoldDown && !done && staging == old(staging) && stage == old(stage)
        && selection == old(selection) && sent == old(sent)
      ensures !old(done) && !old(reprogHoldDown) && old(stage) < STAGES - 1 ==>
        (staging, selection) == NeoBoot.Advance(old(staging), old(stage)) && stage == old(stage) + 1
    {
      if done {
        if layer == LAYER_PRESET {
          PerformanceRelease(now);
        } else {
          SettingsRelease(now);
        }
      } else if reprogHoldDown {
        reprogHoldDown := false;
      } else {
        BootRelease(now);
      }
    }

    /** A release in the performance layer: the engine lets go, then a short
        press counts as a tap; the second of a double tap switches presets. */
    method PerformanceRelease(now: nat)
      requires Valid() && done && layer == LAYER_PRESET
      modifies this`eng, this`sent, this`taps, this`activeSlot, this`muteUntil, this`applyPending
      ensures Valid()
      ensures var e := NeoEngines.Release(mode, old(eng), old(ActivePc()));
              var t := OnRelease(old(taps), now, now - pressStart, LAYER2_TAP_MAX_MS);
              var switched := t.1 == DoubleTap && staging.stored[0] >= 0 && staging.stored[1] >= 0;
              && taps == t.0
              && (!switched ==>
                    && eng == e.0 && sent == old(sent) + e.1 && activeSlot == old(activeSlot)
                    && applyPending == old(applyPending) && muteUntil == old(muteUntil))
              && (switched ==>
                    && sent == old(sent) + e.1 + EffectOff(old(ActivePc())) && activeSlot == 1 - old(activeSlot)
                    && eng == IDLE && applyPending && muteUntil == now + SWITCH_MUTE_MS)
    {
      var pc := ActivePc();
      var e := NeoEngines.Release(mode, eng, pc);
      eng := e.0;
      sent := sent + e.1;
      var t := OnRelease(taps, now, now - pressStart, LAYER2_TAP_MAX_MS);
      taps := t.0;
      if t.1 == DoubleTap {
        StartPresetSwitch(now);
      }
    }

    /** A release in the settings layer: after a long hold, drop any pending
        tap; otherwise a short press is a pending tap (a second one within
        the window cancels both). The scan resumes. */
    method SettingsRelease(now: nat)
      requires Valid() && done && layer == LAYER_EFFECT
      modifies this`taps, this`scanPaused
      ensures Valid() && !scanPaused
      ensures longHoldFired ==> taps == old(taps).(pending := false)
      ensures !longHoldFired ==> taps == OnRelease(old(taps), now, now - pressStart, TAP_MAX_MS).0
    {
      if longHoldFired {
        taps := taps.(pending := false);
      } else {
        taps := OnRelease(taps, now, now - pressStart, TAP_MAX_MS).0;
      }
      scanPaused := false;
    }

    /** A release while programming: the end of a preset stage (with the
        commit of a staged reprogram after stage 1), or the end of
        programming after stage 2, which starts performance on preset A with
        the effect enabled. */
    method BootRelease(now: nat)
      requires Valid() && !done && !reprogHoldDown
      modifies this`staging, this`stage, this`selection, this`lastScanStep, this`scanPaused, this`sent,
               this`done, this`layer, this`activeSlot, this`effectEnabled, this`eng
      ensures Valid()
      ensures old(stage) < STAGES - 1 ==>
        && (staging, selection) == NeoBoot.Advance(old(staging), old(stage)) && stage == old(stage) + 1
        && !done && !scanPaused && lastScanStep == now && layer == old(layer) && eng == old(eng)
        && sent == old(sent) + EffectOff(ScanProgram(stage <= 1, selection))
      ensures old(stage) == STAGES - 1 ==>
        && done && scanPaused && staging == old(staging).(reprogActive := false) && stage == old(stage)
        && layer == LAYER_PRESET && activeSlot == 0 && effectEnabled && eng == IDLE
        && sent == old(sent) + Baseline(mode, true, ActivePc())
    {
      if stage < STAGES - 1 {
        var r := NeoBoot.Advance(staging, stage);
        staging := r.0;
        stage := stage + 1;
        selection := r.1;
        lastScanStep := now;
        scanPaused := false;
        ShowBootScanItem();
      } else {
        done := true;
        scanPaused := true;
        staging := staging.(reprogActive := false);
        layer := LAYER_PRESET;
        activeSlot := 0;
        effectEnabled := true;
        ApplyCurrentSound();
      }
    }

    /** The settings scan: one mode further every SCAN_INTERVAL_MS_BOOT
        unless a press froze it. */
    method SettingsScanPhase(now: nat)
      requires Valid()
      modifies this`lastScanStep, this`selection, this`sent
      ensures Valid()
      ensures done && layer == LAYER_EFFECT && !scanPaused && now - old(lastScanStep) >= SCAN_INTERVAL_MS_BOOT ==>
        && lastScanStep == now && selection == (old(selection) + 1) % Catalog.SETTINGS_COUNT
        && sent == old(sent) + EffectOff(ScanProgram(false, selection))
      ensures !(done && layer == LAYER_EFFECT && !scanPaused && now - old(lastScanStep) >= SCAN_INTERVAL_MS_BOOT) ==>
        unchanged(this)
    {
      if done && layer == LAYER_EFFECT && !scanPaused && now - lastScanStep >= SCAN_INTERVAL_MS_BOOT {
        lastScanStep := now;
        selection := (selection + 1) % Catalog.SETTINGS_COUNT;
        sent := sent + EffectOff(ScanProgram(false, selection));
      }
    }

    /** The boot scan: one entry further every SCAN_INTERVAL_MS_BOOT, through
        the presets or the modes, unless a press froze it. */
    method BootScanPhase(now: nat)
      requires Valid()
      modifies this`lastScanStep, this`selection, this`sent
      ensures Valid()
      ensures !done && !scanPaused && now - old(lastScanStep) >= SCAN_INTERVAL_MS_BOOT ==>
        && lastScanStep == now && selection == (old(selection) + 1) % ScanLength(stage)
        && sent == old(sent) + EffectOff(ScanProgram(stage <= 1, selection))
      ensures !(!done && !scanPaused && now - old(lastScanStep) >= SCAN_INTERVAL_MS_BOOT) ==> unchanged(this)
    {
      if !done && !scanPaused && now - lastScanStep >= SCAN_INTERVAL_MS_BOOT {
        lastScanStep := now;
        selection := (selection + 1) % ScanLength(stage);
        ShowBootScanItem();
      }
    }
  }
}

=== FILE: neo_logic.dfy ===
/**
  MIDI feedback and pot timing of the NEO firmware (NEO/main.py): the
  message sequences its helpers send on channel 4 (TARGET_CH 3), the
  program a preset slot selects, and the pot-controlled time of the
  Holding and Shutter modes.
*/
module NeoSound {
  import opened Midi
  import Catalog
  import PotCurve

  /** Channel 4, counted from 0. */
  const TARGET_CH := 3

  const BLINK_NOTE := 60
  const BLINK_VEL := 100
  const BLINK_TIMES := 3

  /** The four performance modes, in the order of the settings list. */
  const MODE_LATCH := 0
  const MODE_MOMENTARY := 1
  const MODE_HOLDING := 2
  const MODE_SHUTTER := 3

  predicate IsMode(m: int) { MODE_LATCH <= m <= MODE_SHUTTER }

  /** The mode a settings entry selects; every index past Holding is
      Shutter. */
  function ModeOf(idx: int): (m: int)
    ensures IsMode(m)
    ensures 0 <= idx <= MODE_SHUTTER ==> m == idx
    ensures idx > MODE_SHUTTER ==> m == MODE_SHUTTER
  {
    if idx == 0 then MODE_LATCH
    else if idx == 1 then MODE_MOMENTARY
    else if idx == 2 then MODE_HOLDING
    else MODE_SHUTTER
  }

  /** `send_effect_on(pc)`, and `shutter_start(pc)` which sends the same:
      CC0 = 127, then the program. */
  function EffectOn(pc: int): seq<Msg>
  {
    [ControlChange(0, 127), ProgramChange(pc)]
  }

  /** `send_effect_off(pc)`, and `shutter_stop(pc)` which sends the same:
      CC0 = 0, then the bypass program of `pc`. */
  function EffectOff(pc: int): seq<Msg>
  {
    [ControlChange(0, 0), ProgramChange(PcBypass(pc))]
  }

  /** On the wire (channel 4) switching a NEO program on or off is five
      bytes: a CC0 with value 127 or 0, then the program or its bypass. */
  lemma EffectBytes(pc: int)
    requires 0 <= pc < Catalog.PRESET_COUNT
    ensures Wire(TARGET_CH, EffectOn(pc)) == [0xB3, 0, 127, 0xC3, pc]
    ensures Wire(TARGET_CH, EffectOff(pc)) == [0xB3, 0, 0, 0xC3, pc + 17]
  {
    assert EffectOn(pc)[1..] == [ProgramChange(pc)];
    assert EffectOff(pc)[1..] == [ProgramChange(PcBypass(pc))];
    assert [ProgramChange(pc)][1..] == [];
    assert [ProgramChange(PcBypass(pc))][1..] == [];
  }

  /** The whole baseline of `apply_current_sound`: on in Latch mode with the
      effect enabled, bypassed otherwise. */
  function Baseline(mode: int, enabled: bool, pc: int): (msgs: seq<Msg>)
    ensures msgs == EffectOn(pc) || msgs == EffectOff(pc)
    ensures msgs == EffectOn(pc) <==> mode == MODE_LATCH && enabled
  {
    if mode == MODE_LATCH && enabled then EffectOn(pc) else EffectOff(pc)
  }

  /** `midi_note_off(note)`: a Note On with velocity 0, then a true Note Off. */
  function NoteRelease(note: int): seq<Msg>
  {
    [NoteOn(note, 0), NoteOff(note, 0)]
  }

  /** `n` pulses of the blink note: Note On, then its release. */
  function Pulses(n: nat): (msgs: seq<Msg>)
    ensures |msgs| == 3 * n
    ensures forall i :: 0 <= i < |msgs| ==>
      msgs[i] == (if i % 3 == 0 then NoteOn(BLINK_NOTE, BLINK_VEL)
                  else if i % 3 == 1 then NoteOn(BLINK_NOTE, 0)
                  else NoteOff(BLINK_NOTE, 0))
    decreases n
  {
    if n == 0 then []
    else
      var rest := Pulses(n - 1);
      var msgs := rest + [NoteOn(BLINK_NOTE, BLINK_VEL)] + NoteRelease(BLINK_NOTE);
      assert forall i :: 0 <= i < |rest| ==> msgs[i] == rest[i];
      msgs
  }

  /** `blink_selected_channel()`: silence the note, then BLINK_TIMES pulses.
      The blink touches neither CC0 nor the program, and it leaves the note
      released. */
  function Blink(): (msgs: seq<Msg>)
    ensures |msgs| == 2 + 3 * BLINK_TIMES
    ensures forall i :: 0 <= i < |msgs| ==> (msgs[i].NoteOn? || msgs[i].NoteOff?) && msgs[i].note == BLINK_NOTE
    ensures msgs[|msgs| - 1] == NoteOff(BLINK_NOTE, 0)
  {
    var p := Pulses(BLINK_TIMES);
    var msgs := NoteRelease(BLINK_NOTE) + p;
    assert forall i :: 2 <= i < |msgs| ==> msgs[i] == p[i - 2];
    msgs
  }

  /** `confirm_saved_preset_pc_only(pc)`: on, bypass, on, bypass. */
  function ConfirmSaved(pc: int): seq<Msg>
  {
    [ProgramChange(pc), ProgramChange(PcBypass(pc)), ProgramChange(pc), ProgramChange(PcBypass(pc))]
  }

  /** The confirmation is the two-toggle flicker between the program and its
      bypass, and so it leaves the Whammy bypassed. */
  lemma ConfirmSavedIsFlicker(pc: int)
    ensures ConfirmSaved(pc) == Confirm(pc, PcBypass(pc), 2)
    ensures ConfirmSaved(pc)[3] == ProgramChange(PcBypass(pc))
  {
    var c := Confirm(pc, PcBypass(pc), 2);
    assert |c| == 4;
    assert c[0] == ProgramChange(pc) && c[1] == ProgramChange(PcBypass(pc));
    assert c[2] == ProgramChange(pc) && c[3] == ProgramChange(PcBypass(pc));
  }

  /** `current_active_pc()`: the program of the preset stored in `slot`, or
      program 0 while that slot is still unset (-1). */
  function CurrentActivePc(stored: seq<int>, slot: int): (pc: int)
    requires 0 <= slot < |stored| && -1 <= stored[slot] < Catalog.PRESET_COUNT
    ensures 0 <= pc < Catalog.PRESET_COUNT
    ensures stored[slot] >= 0 ==> pc == stored[slot]
    ensures stored[slot] < 0 ==> pc == 0
  {
    var idx := stored[slot];
    if idx < 0 then 0 else Catalog.NeoProgram(idx)
  }

  /** The program a scan step shows as feedback (`show_boot_scan_item`,
      `show_settings_layer_scan_item`): the preset's program in stages 0
      and 1, the settings entry's display program in stage 2 and in the
      settings layer. */
  function ScanProgram(presets: bool, selection: int): (pc: int)
    requires 0 <= selection < (if presets then Catalog.PRESET_COUNT else Catalog.SETTINGS_COUNT)
    ensures presets ==> pc == selection
    ensures !presets ==> pc == 16 - selection
  {
    Catalog.ProgramNumbering(0);
    if presets then Catalog.NeoProgram(selection)
    else
      Catalog.SettingsPrograms(selection);
      Catalog.NEO_SETTINGS[selection].program
  }

  // ---------------------------------------------------------------------
  // Pot time
  // ---------------------------------------------------------------------

  const HOLD_MIN_MS := 200
  const HOLD_MAX_MS := 5000
  const SHUTTER_MIN_MS := 30
  const SHUTTER_MAX_MS := 400
  const DEFAULT_POT_TIME_MS := 1000
  const SHUTTER_K := 550
  const HOLD_K := 350

  /** `pot_time_ms` after a due pot read of `raw` (`update_pot_time_ms`):
      the Shutter phase length, the Holding timeout, or 1000 ms in the
      other modes. */
  function PotTime(mode: int, raw: int): (t: int)
    requires 0 <= raw <= PotCurve.U16_MAX
    ensures mode == MODE_SHUTTER ==> SHUTTER_MIN_MS <= t <= SHUTTER_MAX_MS
    ensures mode == MODE_HOLDING ==> HOLD_MIN_MS <= t <= HOLD_MAX_MS
    ensures mode != MODE_SHUTTER && mode != MODE_HOLDING ==> t == DEFAULT_POT_TIME_MS
    ensures SHUTTER_MIN_MS <= t <= HOLD_MAX_MS
  {
    if mode == MODE_SHUTTER then
      PotCurve.Clamp(PotCurve.MapU16Expo(raw, SHUTTER_MIN_MS, SHUTTER_MAX_MS, SHUTTER_K), SHUTTER_MIN_MS, SHUTTER_MAX_MS)
    else if mode == MODE_HOLDING then
      PotCurve.Clamp(PotCurve.MapU16Expo(raw, HOLD_MIN_MS, HOLD_MAX_MS, HOLD_K), HOLD_MIN_MS, HOLD_MAX_MS)
    else
      DEFAULT_POT_TIME_MS
  }

  /** Turning the pot up never shortens the time. */
  lemma PotTimeMonotone(mode: int, raw: int, raw': int)
    requires 0 <= raw <= raw' <= PotCurve.U16_MAX
    ensures PotTime(mode, raw) <= PotTime(mode, raw')
  {
    if mode == MODE_SHUTTER {
      PotCurve.MapU16ExpoRange(raw, SHUTTER_MIN_MS, SHUTTER_MAX_MS, SHUTTER_K);
      PotCurve.MapU16ExpoRange(raw', SHUTTER_MIN_MS, SHUTTER_MAX_MS, SHUTTER_K);
      PotCurve.MapU16ExpoMonotone(raw, raw', SHUTTER_MIN_MS, SHUTTER_MAX_MS, SHUTTER_K);
    } else if mode == MODE_HOLDING {
      PotCurve.MapU16ExpoRange(raw, HOLD_MIN_MS, HOLD_MAX_MS, HOLD_K);
      PotCurve.MapU16ExpoRange(raw', HOLD_MIN_MS, HOLD_MAX_MS, HOLD_K);
      PotCurve.MapU16ExpoMonotone(raw, raw', HOLD_MIN_MS, HOLD_MAX_MS, HOLD_K);
    }
  }

  /** The pot fully down gives the shortest time; fully up gives one ms
      short of the longest (399 ms and 4999 ms), so the upper clamp never
      acts. */
  lemma PotTimeEnds()
    ensures PotTime(MODE_SHUTTER, 0) == SHUTTER_MIN_MS && PotTime(MODE_SHUTTER, PotCurve.U16_MAX) == SHUTTER_MAX_MS - 1
    ensures PotTime(MODE_HOLDING, 0) == HOLD_MIN_MS && PotTime(MODE_HOLDING, PotCurve.U16_MAX) == HOLD_MAX_MS - 1
  {
    PotCurve.MapU16ExpoRange(0, SHUTTER_MIN_MS, SHUTTER_MAX_MS, SHUTTER_K);
    PotCurve.MapU16ExpoRange(0, HOLD_MIN_MS, HOLD_MAX_MS, HOLD_K);
    PotCurve.MapU16ExpoTop(SHUTTER_MIN_MS, SHUTTER_MAX_MS, SHUTTER_K);
    PotCurve.MapU16ExpoTop(HOLD_MIN_MS, HOLD_MAX_MS, HOLD_K);
  }
}

/**
  Tap recognition of the NEO footswitch. A release of a press no longer
  than the tap limit either completes a double tap (a single tap is
  pending and the previous tap was released at most DOUBLE_TAP_WINDOW_MS
  ago) or becomes the pending single tap, which fires once its deadline,
  DOUBLE_TAP_WINDOW_MS after the release, has come.
*/
module NeoTaps {
  const TAP_MAX_MS := 900
  const LAYER2_TAP_MAX_MS := 900
  const DOUBLE_TAP_WINDOW_MS := 320

  /** `pending_single_tap`, `pending_single_tap_deadline`, `last_release_ms`. */
  datatype Taps = Taps(pending: bool, deadline: int, lastRelease: int)

  const NO_TAP := Taps(false, 0, 0)

  /** What a release was: too long for a tap, the second tap of a double
      tap, or a tap now waiting for a second one. */
  datatype ReleaseKind = LongPress | DoubleTap | TapPending

  /** The release of a press that lasted `dur` ms, at `now`, with tap limit
      `maxMs`. */
  function OnRelease(t: Taps, now: int, dur: int, maxMs: int): (r: (Taps, ReleaseKind))
    ensures r.1 == LongPress <==> dur > maxMs
    ensures r.1 == DoubleTap <==> dur <= maxMs && t.pending && now - t.lastRelease <= DOUBLE_TAP_WINDOW_MS
    ensures r.1 == LongPress ==> r.0 == t
    ensures r.1 == DoubleTap ==> r.0 == t.(pending := false)
    ensures r.1 == TapPending ==> r.0 == Taps(true, now + DOUBLE_TAP_WINDOW_MS, now)
  {
    if dur <= maxMs then
      if t.pending && now - t.lastRelease <= DOUBLE_TAP_WINDOW_MS then
        (t.(pending := false), DoubleTap)
      else
        (Taps(true, now + DOUBLE_TAP_WINDOW_MS, now), TapPending)
    else
      (t, LongPress)
  }

  /** The start of a pass: a pending tap whose deadline has come fires as a
      single tap. */
  function Resolve(t: Taps, now: int): (r: (Taps, bool))
    ensures r.1 <==> t.pending && now >= t.deadline
    ensures r.0 == (if r.1 then t.(pending := false) else t)
  {
    if t.pending && now - t.deadline >= 0 then (t.(pending := false), true) else (t, false)
  }

  /** Two taps whose releases are less than DOUBLE_TAP_WINDOW_MS apart are a
      double tap: the first is still pending when the second is released, and
      the second clears it. */
  lemma QuickSecondTap(t: Taps, r1: int, d1: int, r2: int, d2: int, maxMs: int)
    requires !t.pending && d1 <= maxMs && d2 <= maxMs
    requires r1 <= r2 < r1 + DOUBLE_TAP_WINDOW_MS
    ensures var t1 := OnRelease(t, r1, d1, maxMs);
            var t2 := Resolve(t1.0, r2);
            t1.1 == TapPending && !t2.1 && OnRelease(t2.0, r2, d2, maxMs) == (t1.0.(pending := false), DoubleTap)
  {
  }

  /** A second release DOUBLE_TAP_WINDOW_MS or more after the first is never
      a double tap: the pending tap has fired at the start of that pass, so
      the `<=` bound of the window check is never reached with equality. */
  lemma WindowClosesFirst(t: Taps, r1: int, d1: int, r2: int, d2: int, maxMs: int)
    requires !t.pending && d1 <= maxMs && d2 <= maxMs
    requires r2 >= r1 + DOUBLE_TAP_WINDOW_MS
    ensures var t1 := OnRelease(t, r1, d1, maxMs);
            var t2 := Resolve(t1.0, r2);
            t2.1 && OnRelease(t2.0, r2, d2, maxMs).1 == TapPending
  {
  }
}

/**
  The Momentary, Holding and Shutter engines of the NEO performance layer:
  the transient state they keep while the footswitch is down, what the
  hold trigger, the Holding timeout, the Shutter phase toggle and the
  release do with it, and the messages each sends.
*/
module NeoEngines {
  import opened Midi
  import opened NeoSound

  /** How long the footswitch must be held before an engine starts. */
  const MOMENTARY_HOLD_MS := 500

  /** `momentary_engaged`, `holding_armed`, `holding_off_at`,
      `shutter_active`, `shutter_phase_on`, `shutter_next_toggle_at`. */
  datatype Engines = Engines(momentaryEngaged: bool, holdingArmed: bool, holdingOffAt: int,
                             shutterActive: bool, shutterPhaseOn: bool, shutterNextToggleAt: int)

  /** Every transient at rest. */
  const IDLE := Engines(false, false, 0, false, false, 0)

  /** The hold trigger of a pass with the footswitch down, `held` ms after
      the press, with the current pot time and active program. */
  function Trigger(mode: int, e: Engines, now: int, held: int, potTime: int, pc: int): (r: (Engines, seq<Msg>))
    ensures r.1 == [] ==> r.0 == e
    ensures r.1 != [] ==> held >= MOMENTARY_HOLD_MS && r.1 == EffectOn(pc)
    ensures mode == MODE_LATCH ==> r.1 == []
    ensures mode == MODE_MOMENTARY ==> (r.1 != [] <==> !e.momentaryEngaged && held >= MOMENTARY_HOLD_MS)
    ensures mode == MODE_MOMENTARY && r.1 != [] ==> r.0 == e.(momentaryEngaged := true)
    ensures mode == MODE_HOLDING ==>
      (r.1 != [] <==> !e.holdingArmed && !e.momentaryEngaged && held >= MOMENTARY_HOLD_MS)
    ensures mode == MODE_HOLDING && r.1 != [] ==>
      r.0 == e.(holdingArmed := true, momentaryEngaged := true, holdingOffAt := now + potTime)
    ensures mode == MODE_SHUTTER ==> (r.1 != [] <==> !e.shutterActive && held >= MOMENTARY_HOLD_MS)
    ensures mode == MODE_SHUTTER && r.1 != [] ==>
      r.0 == e.(shutterActive := true, shutterPhaseOn := true, shutterNextToggleAt := now + potTime)
  {
    if held < MOMENTARY_HOLD_MS then (e, [])
    else if mode == MODE_MOMENTARY then
      if !e.momentaryEngaged then (e.(momentaryEngaged := true), EffectOn(pc)) else (e, [])
    else if mode == MODE_HOLDING then
      if !e.holdingArmed && !e.momentaryEngaged then
        (e.(holdingArmed := true, momentaryEngaged := true, holdingOffAt := now + potTime), EffectOn(pc))
      else (e, [])
    else if mode == MODE_SHUTTER then
      if !e.shutterActive then
        (e.(shutterActive := true, shutterPhaseOn := true, shutterNextToggleAt := now + potTime), EffectOn(pc))
      else (e, [])
    else (e, [])
  }

  /** An engine starts at most once per press: once the trigger has fired,
      later passes of the same press send nothing more. */
  lemma TriggerOnce(mode: int, e: Engines, now: int, held: int, now': int, held': int, potTime: int, pc: int)
    requires Trigger(mode, e, now, held, potTime, pc).1 != []
    ensures Trigger(mode, Trigger(mode, e, now, held, potTime, pc).0, now', held', potTime, pc).1 == []
  {
  }

  /** The Holding timeout: once the engaged effect's off time has come, it
      goes off. */
  function HoldingOff(e: Engines, now: int, pc: int): (r: (Engines, seq<Msg>))
    ensures r.1 != [] <==> e.momentaryEngaged && now >= e.holdingOffAt
    ensures r.1 != [] ==> r.0 == e.(momentaryEngaged := false) && r.1 == EffectOff(pc)
    ensures r.1 == [] ==> r.0 == e
  {
    if e.momentaryEngaged && now - e.holdingOffAt >= 0 then (e.(momentaryEngaged := false), EffectOff(pc))
    else (e, [])
  }

  /** One Shutter phase toggle, if it is due: the program when the phase
      turns on, its bypass when it turns off, and the next toggle one pot
      time later. */
  function ShutterToggle(e: Engines, now: int, potTime: int, pc: int): (r: (Engines, seq<Msg>))
    ensures now < e.shutterNextToggleAt ==> r == (e, [])
    ensures now >= e.shutterNextToggleAt ==>
      && r.0 == e.(shutterPhaseOn := !e.shutterPhaseOn, shutterNextToggleAt := now + potTime)
      && r.1 == [ProgramChange(if e.shutterPhaseOn then PcBypass(pc) else pc)]
  {
    if now - e.shutterNextToggleAt >= 0 then
      var msg := if e.shutterPhaseOn then ProgramChange(PcBypass(pc)) else ProgramChange(pc);
      (e.(shutterPhaseOn := !e.shutterPhaseOn, shutterNextToggleAt := now + potTime), [msg])
    else
      (e, [])
  }

  /** `n` Shutter toggles, each taken at the moment it falls due. */
  function DueToggles(e: Engines, n: nat, potTime: int, pc: int): (r: (Engines, seq<Msg>))
    decreases n
  {
    if n == 0 then (e, [])
    else
      var r1 := ShutterToggle(e, e.shutterNextToggleAt, potTime, pc);
      var r2 := DueToggles(r1.0, n - 1, potTime, pc);
      (r2.0, r1.1 + r2.1)
  }

  /** The Shutter sends only program changes, strictly alternating between
      the program and its bypass, and `n` toggles leave the phase flipped
      `n` times. */
  lemma {:induction false} DueTogglesAlternate(e: Engines, n: nat, potTime: int, pc: int)
    ensures |DueToggles(e, n, potTime, pc).1| == n
    ensures forall i :: 0 <= i < n ==>
      DueToggles(e, n, potTime, pc).1[i] == ProgramChange(if (i % 2 == 0) == e.shutterPhaseOn then PcBypass(pc) else pc)
    ensures DueToggles(e, n, potTime, pc).0.shutterPhaseOn == (e.shutterPhaseOn == (n % 2 == 0))
    ensures DueToggles(e, n, potTime, pc).0.shutterActive == e.shutterActive
    decreases n
  {
    if n > 0 {
      var r1 := ShutterToggle(e, e.shutterNextToggleAt, potTime, pc);
      DueTogglesAlternate(r1.0, n - 1, potTime, pc);
      var msgs := DueToggles(e, n, potTime, pc).1;
      var rest := DueToggles(r1.0, n - 1, potTime, pc).1;
      assert msgs == r1.1 + rest;
      forall i | 1 <= i < n
        ensures msgs[i] == ProgramChange(if (i % 2 == 0) == e.shutterPhaseOn then PcBypass(pc) else pc)
      {
        assert msgs[i] == rest[i - 1];
      }
    }
  }

  /** The release of the footswitch: Momentary goes off, Holding disarms
      (its timeout still runs), Shutter stops in bypass. */
  function Release(mode: int, e: Engines, pc: int): (r: (Engines, seq<Msg>))
    ensures mode == MODE_MOMENTARY ==> r == (e.(momentaryEngaged := false), EffectOff(pc))
    ensures mode == MODE_HOLDING ==> r == (e.(holdingArmed := false), [])
    ensures mode == MODE_SHUTTER ==>
      r == (e.(shutterActive := false, shutterPhaseOn := false, shutterNextToggleAt := 0), EffectOff(pc))
    ensures mode == MODE_LATCH ==> r == (e, [])
  {
    if mode == MODE_MOMENTARY then (e.(momentaryEngaged := false), EffectOff(pc))
    else if mode == MODE_HOLDING then (e.(holdingArmed := false), [])
    else if mode == MODE_SHUTTER then
      (e.(shutterActive := false, shutterPhaseOn := false, shutterNextToggleAt := 0), EffectOff(pc))
    else (e, [])
  }

  /** A whole Shutter press from rest: the start turns the program on, `n`
      due toggles alternate bypass and program, and the release leaves the
      Whammy bypassed with the shutter at rest. */
  lemma ShutterSession(n: nat, now: int, held: int, potTime: int, pc: int)
    requires held >= MOMENTARY_HOLD_MS
    ensures var s := Trigger(MODE_SHUTTER, IDLE, now, held, potTime, pc);
            var d := DueToggles(s.0, n, potTime, pc);
            var r := Release(MODE_SHUTTER, d.0, pc);
            && s.1 == EffectOn(pc)
            && |d.1| == n && (forall i :: 0 <= i < n ==> d.1[i] == ProgramChange(if i % 2 == 0 then PcBypass(pc) else pc))
            && r.1 == EffectOff(pc) && !r.0.shutterActive && !r.0.shutterPhaseOn
  {
    var s := Trigger(MODE_SHUTTER, IDLE, now, held, potTime, pc);
    DueTogglesAlternate(s.0, n, potTime, pc);
  }

  /** A Holding press from rest turns the effect on, and it goes off exactly
      when the pot time has passed since the trigger, whether or not the
      footswitch was released in between. */
  lemma HoldingTimesOut(now: int, held: int, potTime: int, pc: int, released: bool, t: int)
    requires held >= MOMENTARY_HOLD_MS
    ensures var s := Trigger(MODE_HOLDING, IDLE, now, held, potTime, pc);
            var e := if released then Release(MODE_HOLDING, s.0, pc).0 else s.0;
            && s.1 == EffectOn(pc)
            && (HoldingOff(e, t, pc).1 == EffectOff(pc) <==> t >= now + potTime)
            && (t < now + potTime ==> HoldingOff(e, t, pc).1 == [])
  {
  }
}

/**
  Preset storage of the NEO boot programmer. Stage 0 picks preset A, stage 1
  preset B (stage 2 picks the mode). A reprogram started from the settings
  layer works on a copy, `reprog_temp`, and replaces the stored presets only
  when stage 1 is released, so the old presets stay in use until then.
*/
module NeoBoot {
  import Catalog

  /** `stored_preset_index`, `reprog_active`, `reprog_temp`. */
  datatype Staging = Staging(stored: seq<int>, reprogActive: bool, temp: seq<int>)

  /** A stored preset index, or -1 for a slot not yet programmed. */
  predicate SlotValue(i: int) { -1 <= i < Catalog.PRESET_COUNT }

  predicate Pair(s: seq<int>) { |s| == 2 && SlotValue(s[0]) && SlotValue(s[1]) }

  predicate Valid(s: Staging) { Pair(s.stored) && Pair(s.temp) }

  /** Both slots unset, nothing staged. */
  const UNPROGRAMMED := Staging([-1, -1], false, [-1, -1])

  /** The selection a preset stage starts from: the slot's preset, or the
      first preset for an unset slot. */
  function StartOf(i: int): (sel: int)
    requires SlotValue(i)
    ensures 0 <= sel < Catalog.PRESET_COUNT
    ensures i >= 0 ==> sel == i
  {
    if i >= 0 then i else 0
  }

  /** A press in stage 0 or 1 saves the selection for that slot: into the
      staging copy while reprogramming, otherwise straight into the stored
      presets. */
  function Press(s: Staging, stage: int, selection: int): (r: Staging)
    requires Valid(s) && 0 <= stage <= 1 && 0 <= selection < Catalog.PRESET_COUNT
    ensures Valid(r) && r.reprogActive == s.reprogActive
    ensures s.reprogActive ==> r.stored == s.stored && r.temp == s.temp[stage := selection]
    ensures !s.reprogActive ==> r.temp == s.temp && r.stored == s.stored[stage := selection]
  {
    if s.reprogActive then s.(temp := s.temp[stage := selection])
    else s.(stored := s.stored[stage := selection])
  }

  /** The release ending stage 0 or 1: at the end of stage 1 a staged
      reprogram is committed; the next stage starts from its slot's preset
      (stage 1) or from the first entry (stage 2). */
  function Advance(s: Staging, stage: int): (r: (Staging, int))
    requires Valid(s) && 0 <= stage <= 1
    ensures Valid(r.0)
    ensures stage == 1 && s.reprogActive ==> r.0 == Staging(s.temp, false, s.temp)
    ensures !(stage == 1 && s.reprogActive) ==> r.0 == s
    ensures r.0.reprogActive ==> r.0.stored == s.stored
    ensures stage == 0 ==> r.1 == StartOf(if s.reprogActive then s.temp[1] else s.stored[1])
    ensures stage == 1 ==> r.1 == 0
  {
    var s1 := if stage == 1 && s.reprogActive then Staging(s.temp, false, s.temp) else s;
    var next := stage + 1;
    if next <= 1 then
      (s1, StartOf(if s1.reprogActive then s1.temp[next] else s1.stored[next]))
    else
      (s1, 0)
  }

  /** `restart_preset_programming`: stage a copy of the stored presets; the
      stored ones stay in use. Returns the staging and the selection stage 0
      starts from. */
  function Restart(s: Staging): (r: (Staging, int))
    requires Valid(s)
    ensures Valid(r.0) && r.0 == Staging(s.stored, true, s.stored)
    ensures r.1 == StartOf(s.stored[0])
  {
    (Staging(s.stored, true, s.stored), StartOf(s.stored[0]))
  }

  /** A reprogram as the user means it: long hold, pick `a` in stage 0 and
      release, pick `b` in stage 1 and release. */
  function Reprogram(s: Staging, a: int, b: int): Staging
    requires Valid(s) && 0 <= a < Catalog.PRESET_COUNT && 0 <= b < Catalog.PRESET_COUNT
  {
    var s1 := Restart(s).0;
    var s2 := Advance(Press(s1, 0, a), 0).0;
    Advance(Press(s2, 1, b), 1).0
  }

  /** A reprogram stores exactly the two presets picked, and until the last
      release the stored presets are the old ones. */
  lemma {:induction false} ReprogramStoresPicks(s: Staging, a: int, b: int)
    requires Valid(s) && 0 <= a < Catalog.PRESET_COUNT && 0 <= b < Catalog.PRESET_COUNT
    ensures Reprogram(s, a, b) == Staging([a, b], false, [a, b])
    ensures var s2 := Advance(Press(Restart(s).0, 0, a), 0).0;
            Press(s2, 1, b).stored == s.stored
  {
    var s1 := Restart(s).0;
    var p1 := Press(s1, 0, a);
    var s2 := Advance(p1, 0).0;
    assert s2 == p1;
    var p2 := Press(s2, 1, b);
    assert p2.temp == [a, b];
  }

  /** The reprogram as the firmware runs it: the release of the long hold
      that started it is taken as the end of stage 0, so the user only gets
      to pick `b`, in stage 1. */
  function ReprogramAsWritten(s: Staging, b: int): Staging
    requires Valid(s) && 0 <= b < Catalog.PRESET_COUNT
  {
    var s1 := Restart(s).0;
    var s2 := Advance(s1, 0).0;
    Advance(Press(s2, 1, b), 1).0
  }

  /** As written, a reprogram can never change preset A. */
  lemma {:induction false} ReprogramAsWrittenKeepsA(s: Staging, b: int)
    requires Valid(s) && 0 <= b < Catalog.PRESET_COUNT
    ensures ReprogramAsWritten(s, b).stored == [s.stored[0], b]
  {
    var s1 := Restart(s).0;
    var s2 := Advance(s1, 0).0;
    assert s2 == s1;
    var p2 := Press(s2, 1, b);
    assert p2.temp == [s.stored[0], b];
  }
}

=== FILE: potfilter.dfy ===
/**
  The potentiometer filter of the shutter firmware: a window of at most
  POT_WINDOW recent 16-bit samples and their floor mean. A sample more than
  POT_MAX_DEV away from the mean is an outlier and is rejected; the
  POT_FORCE_AFTER-th consecutive outlier in the same direction is taken as a
  real jump and restarts the window from that sample.

  `Step` is the behaviour on values; `PotFilter` is the firmware's in-place
  state (a list it appends to and pops from), proved to follow `Step`.
*/
module Pot {
  import PotCurve

  const POT_WINDOW := 10
  const POT_MAX_DEV := 200
  const POT_FORCE_AFTER := 4

  predicate IsU16(x: int) { 0 <= x <= PotCurve.U16_MAX }

  function Sum(s: seq<int>): int
  {
    if s == [] then 0 else s[0] + Sum(s[1..])
  }

  /** Floor mean of a non-empty window, as `sum(h) // len(h)`. */
  function Mean(s: seq<int>): int
    requires s != []
  {
    Sum(s) / |s|
  }

  lemma {:induction false} SumAppend(s: seq<int>, x: int)
    ensures Sum(s + [x]) == Sum(s) + x
  {
    if s != [] {
      assert (s + [x])[1..] == s[1..] + [x];
      SumAppend(s[1..], x);
    }
  }

  lemma {:induction false} SumBounds(s: seq<int>)
    requires forall i :: 0 <= i < |s| ==> IsU16(s[i])
    ensures 0 <= Sum(s) <= |s| * PotCurve.U16_MAX
  {
    if s != [] {
      SumBounds(s[1..]);
    }
  }

  /** The mean of 16-bit samples is a 16-bit value. */
  lemma MeanBounds(s: seq<int>)
    requires s != [] && forall i :: 0 <= i < |s| ==> IsU16(s[i])
    ensures IsU16(Mean(s))
  {
    SumBounds(s);
    PotCurve.DivMonotone(Sum(s), |s| * PotCurve.U16_MAX, |s|);
  }

  /** The filter state: window, mean, the reject counter (kept by the gate
      firmware only), the outlier streak and its direction (+1 up, -1 down,
      0 none). */
  datatype Filter = Filter(hist: seq<int>, mean: int, rejects: nat, streak: nat, dir: int)

  /** What every reachable filter state satisfies. */
  predicate Invariant(f: Filter)
  {
    && |f.hist| <= POT_WINDOW
    && (forall i :: 0 <= i < |f.hist| ==> IsU16(f.hist[i]))
    && IsU16(f.mean)
    && (f.hist != [] ==> f.mean == Mean(f.hist))
    && f.dir in {-1, 0, 1}
    && f.streak < POT_FORCE_AFTER
    && (f.streak == 0 <==> f.dir == 0)
  }

  /** The state at boot: empty window, mean 0. */
  const Boot := Filter([], 0, 0, 0, 0)

  /** `pot_reset_and_prime`: the window restarts from one sample. */
  function Primed(sample: int): (f: Filter)
    requires IsU16(sample)
    ensures Invariant(f) && f.hist == [sample] && f.mean == sample && f.rejects == 0
  {
    assert Sum([sample]) == sample;
    Filter([sample], sample, 0, 0, 0)
  }

  function Abs(x: int): nat { if x < 0 then -x else x }

  predicate IsOutlier(f: Filter, sample: int)
  {
    Abs(sample - f.mean) > POT_MAX_DEV
  }

  /** The last POT_WINDOW entries of a sequence. */
  function LastWindow(s: seq<int>): (w: seq<int>)
    ensures |w| <= POT_WINDOW && (|s| <= POT_WINDOW ==> w == s)
    ensures |s| > POT_WINDOW ==> w == s[|s| - POT_WINDOW..]
  {
    if |s| <= POT_WINDOW then s else s[|s| - POT_WINDOW..]
  }

  /** `pot_update_filtered` on one sample: the new filter and whether the
      sample was accepted. */
  function Step(f: Filter, sample: int): (r: (Filter, bool))
    requires Invariant(f) && IsU16(sample)
    ensures Invariant(r.0) && r.0.hist != []
    ensures f.hist == [] ==> r.1 && r.0.hist == [sample] && r.0.rejects == f.rejects
    ensures f.hist != [] && !IsOutlier(f, sample) ==>
      r.1 && r.0.hist == LastWindow(f.hist + [sample]) && r.0.rejects == f.rejects && r.0.streak == 0
    ensures f.hist != [] && IsOutlier(f, sample) ==> r.0.rejects == f.rejects + 1
    ensures f.hist != [] && IsOutlier(f, sample) ==>
      (r.1 <==> f.streak == POT_FORCE_AFTER - 1 && f.dir == (if sample > f.mean then 1 else -1))
    ensures f.hist != [] && IsOutlier(f, sample) && r.1 ==> r.0.hist == [sample] && r.0.mean == sample
    ensures f.hist != [] && IsOutlier(f, sample) && !r.1 ==>
      r.0.hist == f.hist && r.0.mean == f.mean
      && r.0.dir == (if sample > f.mean then 1 else -1)
      && r.0.streak == (if f.dir == r.0.dir then f.streak + 1 else 1)
  {
    if f.hist == [] then
      (Primed(sample).(rejects := f.rejects), true)
    else if IsOutlier(f, sample) then
      var d := if sample > f.mean then 1 else -1;
      var streak := if d == f.dir then f.streak + 1 else 1;
      if streak >= POT_FORCE_AFTER then
        (Primed(sample).(rejects := f.rejects + 1), true)
      else
        (f.(rejects := f.rejects + 1, streak := streak, dir := d), false)
    else
      var h := LastWindow(f.hist + [sample]);
      assert forall i :: 0 <= i < |f.hist + [sample]| ==> IsU16((f.hist + [sample])[i]);
      MeanBounds(h);
      (Filter(h, Mean(h), f.rejects, 0, 0), true)
  }

  /** A rejected sample leaves the window and the mean exactly as they were. */
  lemma RejectKeepsWindow(f: Filter, sample: int)
    requires Invariant(f) && IsU16(sample) && !Step(f, sample).1
    ensures f.hist != [] && IsOutlier(f, sample)
    ensures Step(f, sample).0.hist == f.hist && Step(f, sample).0.mean == f.mean
  {
  }

  /** An accepted sample is the newest window entry, and the mean is the
      floor average of the window. */
  lemma AcceptedIsNewest(f: Filter, sample: int)
    requires Invariant(f) && IsU16(sample) && Step(f, sample).1
    ensures var g := Step(f, sample).0; g.hist[|g.hist| - 1] == sample && g.mean == Mean(g.hist)
  {
  }

  /** A sustained jump is followed: from a filter with no outlier streak,
      four samples each more than POT_MAX_DEV above (or each below) the mean
      restart the window from the fourth, after three rejections. */
  lemma SustainedJumpFollowed(f: Filter, a: int, b: int, c: int, d: int)
    requires Invariant(f) && f.hist != [] && f.streak == 0
    requires IsU16(a) && IsU16(b) && IsU16(c) && IsU16(d)
    requires (a > f.mean + POT_MAX_DEV && b > f.mean + POT_MAX_DEV && c > f.mean + POT_MAX_DEV && d > f.mean + POT_MAX_DEV)
          || (a < f.mean - POT_MAX_DEV && b < f.mean - POT_MAX_DEV && c < f.mean - POT_MAX_DEV && d < f.mean - POT_MAX_DEV)
    ensures var (f1, ok1) := Step(f, a);
            var (f2, ok2) := Step(f1, b);
            var (f3, ok3) := Step(f2, c);
            var (f4, ok4) := Step(f3, d);
            !ok1 && !ok2 && !ok3 && ok4 && f4.hist == [d] && f4.mean == d && f4.rejects == f.rejects + 4
  {
    var (f1, ok1) := Step(f, a);
    assert f1.streak == 1 && f1.hist == f.hist;
    var (f2, ok2) := Step(f1, b);
    assert f2.streak == 2 && f2.hist == f.hist;
    var (f3, ok3) := Step(f2, c);
    assert f3.streak == 3 && f3.hist == f.hist;
  }

  /** The filter as the firmware keeps it: module-level variables updated in
      place. */
  class PotFilter {
    var hist: seq<int>
    var mean: int
    var rejects: nat
    var streak: nat
    var dir: int

    function State(): Filter
      reads this
    {
      Filter(hist, mean, rejects, streak, dir)
    }

    ghost predicate Valid()
      reads this
    {
      Invariant(State())
    }

    constructor ()
      ensures State() == Boot && Valid()
    {
      hist := [];
      mean := 0;
      rejects := 0;
      streak := 0;
      dir := 0;
    }

    /** `pot_reset_and_prime` with the sample just read. */
    method Prime(sample: int)
      requires IsU16(sample)
      modifies this
      ensures State() == Primed(sample) && Valid()
    {
      rejects := 0;
      streak := 0;
      dir := 0;
      hist := [sample];
      mean := sample;
    }

    /** `pot_update_filtered` with the sample just read. */
    method Update(sample: int) returns (accepted: bool)
      requires Valid() && IsU16(sample)
      modifies this
      ensures (State(), accepted) == Step(old(State()), sample)
      ensures Valid()
    {
      if hist == [] {
        hist := [sample];
        mean := sample;
        streak := 0;
        dir := 0;
        assert Sum([sample]) == sample;
        return true;
      }
      var diff := sample - mean;
      if diff > POT_MAX_DEV || diff < -POT_MAX_DEV {
        rejects := rejects + 1;
        var d := if diff > 0 then 1 else -1;
        if d == dir {
          streak := streak + 1;
        } else {
          dir := d;
          streak := 1;
        }
        if streak >= POT_FORCE_AFTER {
          hist := [sample];
          mean := sample;
          streak := 0;
          dir := 0;
          return true;
        }
        return false;
      }
      streak := 0;
      dir := 0;
      hist := hist + [sample];
      if |hist| > POT_WINDOW {
        hist := hist[1..];
      }
      mean := Sum(hist) / |hist|;
      accepted := true;
    }
  }
}

=== FILE: relay.dfy ===
/**
  The two relay outputs of the shutter firmware: A switches the effect path
  (WET = 1, DRY = 0) and B the bypass path, and B is meant to be NOT A at
  all times. B's pin is driven inverted (BYPASS_B_INVERT), so the level
  written to the pin is the opposite of the logical B.

  A change of A is break-before-make: going WET the bypass opens before the
  effect closes, going DRY the effect opens before the bypass closes, so no
  instant has both paths closed. The firmware's microsecond pause between the
  two writes is not modelled; the order of the writes is.
*/
module Relay {
  const DRY := 0
  const WET := 1

  /** BYPASS_B_INVERT of the firmware. */
  const B_INVERT := true

  type Bit = x: int | 0 <= x <= 1

  /** The other state of a two-level output: `DRY if v else WET`. */
  function Flip(v: Bit): (w: Bit)
    ensures w != v
  {
    if v == WET then DRY else WET
  }

  /** One write to an output pin, with the level put on the pin. */
  datatype PinWrite = WriteA(level: Bit) | WriteB(raw: Bit)

  /** `b_write_raw(v)`: the pin level that makes logical B equal `v`. */
  function BRaw(v: Bit): (raw: Bit)
    ensures LogicalB(raw) == v
  {
    if B_INVERT then Flip(v) else v
  }

  /** The logical bypass state a pin level stands for. */
  function LogicalB(raw: Bit): Bit
  {
    if B_INVERT then Flip(raw) else raw
  }

  /** The two pin levels. */
  datatype Pins = Pins(a: Bit, bRaw: Bit)

  /** The desired relation of the outputs: B = NOT A. */
  predicate Complementary(p: Pins)
  {
    LogicalB(p.bRaw) == Flip(p.a)
  }

  /** Both signal paths closed at once: what break-before-make rules out. */
  predicate BothClosed(p: Pins)
  {
    p.a == WET && LogicalB(p.bRaw) == 1
  }

  function Apply(p: Pins, w: PinWrite): Pins
  {
    match w
    case WriteA(l) => p.(a := l)
    case WriteB(r) => p.(bRaw := r)
  }

  /** The pin levels after each write of a trace, in order. */
  function Replay(p: Pins, trace: seq<PinWrite>): (states: seq<Pins>)
    ensures |states| == |trace|
    decreases |trace|
  {
    if trace == [] then [] else
      var q := Apply(p, trace[0]);
      [q] + Replay(q, trace[1..])
  }

  /** The pin levels after a whole trace. */
  function Final(p: Pins, trace: seq<PinWrite>): Pins
  {
    if trace == [] then p else Replay(p, trace)[|trace| - 1]
  }

  /** Each state of a replay is where the writes up to and including that
      one leave the pins: replaying a prefix of a trace gives a prefix of
      its states. */
  lemma {:induction false} ReplayPrefix(p: Pins, trace: seq<PinWrite>, i: nat)
    requires i < |trace|
    ensures Replay(p, trace)[i] == Final(p, trace[..i + 1])
    decreases |trace|
  {
    var q := Apply(p, trace[0]);
    if i > 0 {
      ReplayPrefix(q, trace[1..], i - 1);
      assert trace[..i + 1][1..] == trace[1..][..i];
    }
  }

  /** The writes `set_A_and_B(target)` makes when the state is `aState`. */
  function Transition(aState: Bit, target: Bit): seq<PinWrite>
  {
    if target == aState then []
    else if target == WET then [WriteB(BRaw(0)), WriteA(WET)]
    else [WriteA(DRY), WriteB(BRaw(1))]
  }

  /** Break-before-make: from complementary outputs, a transition never passes
      through a state with both paths closed, and ends complementary with A at
      the target; a request for the current state writes nothing. */
  lemma BreakBeforeMake(p: Pins, target: Bit)
    requires Complementary(p)
    ensures var t := Transition(p.a, target);
            && (forall i :: 0 <= i < |t| ==> !BothClosed(Replay(p, t)[i]))
            && Final(p, t).a == target && Complementary(Final(p, t))
            && (target == p.a <==> t == [])
  {
    var t := Transition(p.a, target);
    if target != p.a {
      assert Replay(p, t)[0] == Apply(p, t[0]);
      assert Replay(p, t)[1] == Apply(Apply(p, t[0]), t[1]);
    }
  }

  /** Going WET the bypass opens first; going DRY the effect opens first. */
  lemma WriteOrder(aState: Bit, target: Bit)
    requires aState != target
    ensures var t := Transition(aState, target);
            |t| == 2
            && (target == WET ==> t[0].WriteB? && LogicalB(t[0].raw) == 0 && t[1] == WriteA(WET))
            && (target == DRY ==> t[0] == WriteA(DRY) && t[1].WriteB? && LogicalB(t[1].raw) == 1)
  {
  }

  /** The relay outputs as the firmware drives them: the remembered
      `a_state`, the pin levels, and the trace of every write. */
  class RelayPair {
    var aState: Bit
    var pins: Pins
    var writes: seq<PinWrite>

    ghost predicate Valid()
      reads this
    {
      pins.a == aState && Complementary(pins)
    }

    /** Power-up with corrected pin levels: A DRY and the bypass closed. */
    constructor ()
      ensures Valid() && aState == DRY && writes == []
    {
      aState := DRY;
      pins := Pins(DRY, BRaw(1));
      writes := [];
    }

    /** `set_A_and_B(target)`. */
    method SetAB(target: Bit)
      requires Valid()
      modifies this
      ensures Valid() && aState == target
      ensures writes == old(writes) + Transition(old(aState), target)
      ensures pins == Final(old(pins), Transition(old(aState), target))
    {
      BreakBeforeMake(pins, target);
      if target == aState {
        return;
      }
      if target == WET {
        pins := pins.(bRaw := BRaw(0));
        writes := writes + [WriteB(BRaw(0))];
        aState := WET;
        pins := pins.(a := WET);
        writes := writes + [WriteA(WET)];
      } else {
        aState := DRY;
        pins := pins.(a := DRY);
        writes := writes + [WriteA(DRY)];
        pins := pins.(bRaw := BRaw(1));
        writes := writes + [WriteB(BRaw(1))];
      }
    }
  }

  // -------------------------------------------------------------------
  // Power-up levels as written
  // -------------------------------------------------------------------

  /** The pins as the firmware configures them at power-up: A at DRY and
      the B pin at level 1, which with the inverted drive is logical B = 0. */
  const BOOT_PINS_AS_WRITTEN := Pins(DRY, 1)

  /** At power-up both paths are open, and the boot-time `set_effect(False)`
      does not correct it: `a_state` is already DRY, so it writes nothing. */
  lemma BootPinsNotComplementary()
    ensures !Complementary(BOOT_PINS_AS_WRITTEN)
    ensures BOOT_PINS_AS_WRITTEN.a == DRY && LogicalB(BOOT_PINS_AS_WRITTEN.bRaw) == 0
    ensures Transition(DRY, DRY) == []
  {
  }

  /** The power-up levels the constructor uses instead: bypass closed. */
  lemma BootPinsCorrected()
    ensures var p := Pins(DRY, BRaw(1)); Complementary(p) && !BothClosed(p)
  {
  }
}

=== FILE: shutter_gate.dfy ===
/**
  The momentary shutter gate (Whammy4_Shutter_Gate.py): while the footswitch
  is held down the relay pair toggles between WET and DRY every `half_ms`
  milliseconds, the period set by the filtered potentiometer; releasing the
  switch returns the relays to DRY.
*/
module ShutterGate {
  import opened Debounce
  import Pot
  import PotCurve
  import Relay

  const POT_EVERY_MS := 10

  class Gate {
    var sw: Debouncer
    var active: bool
    var lastToggle: nat
    var lastPotMs: nat
    var potPct: int
    var halfMs: int
    const relay: Relay.RelayPair
    const pot: Pot.PotFilter

    ghost predicate Valid()
      reads this, relay, pot
    {
      && relay.Valid() && pot.Valid()
      && PotCurve.MIN_HALF_MS <= halfMs <= PotCurve.MAX_HALF_MS
      && 0 <= potPct <= 100
      && (!active ==> relay.aState == Relay.DRY)
    }

    /** Boot: the switch level read at `now` is taken as stable, the effect
        is off and the relays are DRY with the bypass closed. */
    constructor (now: nat, rawSw: Level)
      ensures Valid() && fresh(relay) && fresh(pot)
      ensures !active && sw == Init(rawSw, now) && halfMs == PotCurve.MAX_HALF_MS
    {
      sw := Init(rawSw, now);
      active := false;
      lastToggle := now;
      lastPotMs := now;
      potPct := 0;
      halfMs := PotCurve.MAX_HALF_MS;
      relay := new Relay.RelayPair();
      pot := new Pot.PotFilter();
    }

    /** `set_effect(on)` at time `now`, with `potSample` the pot reading it
        primes the filter with. Switching on starts in the WET phase at once
        and times the first toggle from `now`; switching off goes DRY. */
    method SetEffect(on: bool, now: nat, potSample: int)
      requires Valid() && Pot.IsU16(potSample)
      modifies this`active, this`potPct, this`halfMs, this`lastPotMs, this`lastToggle, relay, pot
      ensures Valid() && active == on && relay.aState == (if on then Relay.WET else Relay.DRY)
      ensures on ==> pot.State() == Pot.Primed(potSample) && halfMs == PotCurve.MapPotToHalfMs(potSample)
                     && lastToggle == now && lastPotMs == now
      ensures !on ==> unchanged(pot) && halfMs == old(halfMs) && lastToggle == old(lastToggle)
                      && lastPotMs == old(lastPotMs) && potPct == old(potPct)
    {
      if on {
        active := true;
        pot.Prime(potSample);
        potPct := PotCurve.PotPercent(pot.mean);
        halfMs := PotCurve.HalfMsFor(pot.mean);
        lastPotMs := now;
        relay.SetAB(Relay.WET);
        lastToggle := now;
      } else {
        active := false;
        relay.SetAB(Relay.DRY);
      }
    }

    /** One pass of the main loop at time `now`, with the raw footswitch
        level and the pot reading of that pass. */
    method Tick(now: nat, rawSw: Level, potSample: int)
      requires Valid() && Pot.IsU16(potSample) && sw.lastChange <= now
      modifies this, relay, pot
      ensures Valid() && sw == Step(old(sw), now, rawSw).0
      ensures Step(old(sw), now, rawSw).1 ==> active == (sw.stable == PRESSED)
      ensures !Step(old(sw), now, rawSw).1 ==> active == old(active)
    {
      ghost var r, active0 := Step(sw, now, rawSw), active;
      FootswitchPhase(now, rawSw, potSample);
      assert sw == r.0 && (r.1 ==> active == (sw.stable == PRESSED)) && (!r.1 ==> active == active0);
      ghost var active1 := active;
      PotPhase(now, potSample);
      TogglePhase(now);
      assert active == active1 && sw == r.0;
    }

    /** The effect follows the debounced switch: it is switched on by a
        debounced press and off by a debounced release, and by nothing else. */
    method FootswitchPhase(now: nat, rawSw: Level, potSample: int)
      requires Valid() && Pot.IsU16(potSample) && sw.lastChange <= now
      modifies this`sw, this`active, this`potPct, this`halfMs, this`lastPotMs, this`lastToggle, relay, pot
      ensures Valid() && sw == Step(old(sw), now, rawSw).0
      ensures Step(old(sw), now, rawSw).1 ==> active == (sw.stable == PRESSED)
      ensures !Step(old(sw), now, rawSw).1 ==> active == old(active) && unchanged(relay, pot)
    {
      var r := Step(sw, now, rawSw);
      sw := r.0;
      if r.1 {
        var newActive := sw.stable == PRESSED;
        if newActive != active {
          SetEffect(newActive, now, potSample);
        }
      }
    }

    /** Every POT_EVERY_MS while the effect is on: filter one pot sample and
        recompute the percentage and the half period. */
    method PotPhase(now: nat, potSample: int)
      requires Valid() && Pot.IsU16(potSample)
      modifies this`lastPotMs, this`potPct, this`halfMs, pot
      ensures Valid()
      ensures active && now - old(lastPotMs) >= POT_EVERY_MS ==>
        lastPotMs == now && pot.State() == Pot.Step(old(pot.State()), potSample).0
        && halfMs == PotCurve.MapPotToHalfMs(pot.mean)
        && potPct == PotCurve.PotPercent(pot.mean)
      ensures !(active && now - old(lastPotMs) >= POT_EVERY_MS) ==>
        unchanged(pot) && lastPotMs == old(lastPotMs) && halfMs == old(halfMs) && potPct == old(potPct)
    {
      if active && now - lastPotMs >= POT_EVERY_MS {
        lastPotMs := now;
        var _ := pot.Update(potSample);
        potPct := PotCurve.PotPercent(pot.mean);
        halfMs := PotCurve.HalfMsFor(pot.mean);
      }
    }

    /** The shutter: once `half_ms` has passed since the last toggle, flip A
        (and with it B). Nothing toggles while the effect is off. */
    method TogglePhase(now: nat)
      requires Valid()
      modifies this`lastToggle, relay
      ensures Valid()
      ensures active && now - old(lastToggle) >= halfMs ==>
        lastToggle == now && relay.aState == Relay.Flip(old(relay.aState))
      ensures !(active && now - old(lastToggle) >= halfMs) ==>
        lastToggle == old(lastToggle) && unchanged(relay)
    {
      if active && now - lastToggle >= halfMs {
        lastToggle := now;
        relay.SetAB(Relay.Flip(relay.aState));
        assert Valid();
      }
    }
  }
}

=== FILE: shutter_taps.dfy ===
/**
  Normal-mode footswitch gestures of the two access-mode shutter firmwares
  (Whammy4_Shutter_Gate_TESTONLY.py and Whammy4_Midi_Shutter_TESTONLY.py,
  whose normal modes agree): a press only arms a "pending shutter"; the
  shutter starts once the press has lasted more than TAP_MAX_MS; a release
  before that is a tap, and two taps whose releases are at most DTAP_GAP_MS
  apart are a double tap, which switches the active preset slot. No relay is
  touched while the user is tapping.
*/
module ShutterTaps {
  import opened Debounce

  const TAP_MAX_MS := 170
  const DTAP_GAP_MS := 260

  /** `tap_down_ms`, `last_tap_up_ms`, `tap_armed`, `pending_shutter`. */
  datatype Taps = Taps(tapDown: nat, lastTapUp: nat, armed: bool, pendingShutter: bool)

  /** The state after boot and after every switch between access and normal
      mode. */
  const Idle := Taps(0, 0, false, false)

  /** What a release meant. */
  datatype Outcome = NoRelease | SingleTap | DoubleTap | NotATap

  /** A debounced press: remember when, and wait to see if it is a hold. */
  function Press(t: Taps, now: nat): (r: Taps)
    ensures r.pendingShutter && r.tapDown == now
    ensures r.armed == t.armed && r.lastTapUp == t.lastTapUp
  {
    t.(tapDown := now, pendingShutter := true)
  }

  /** A debounced release: a short press that did not start the shutter is a
      tap; a tap within DTAP_GAP_MS of an armed tap is a double tap. */
  function Release(t: Taps, now: nat): (r: (Taps, Outcome))
    ensures !r.0.pendingShutter && r.0.tapDown == t.tapDown && r.1 != NoRelease
    ensures r.1 == DoubleTap <==>
      t.pendingShutter && 0 <= now - t.tapDown <= TAP_MAX_MS && t.armed && 0 <= now - t.lastTapUp <= DTAP_GAP_MS
    ensures r.1 == SingleTap <==>
      t.pendingShutter && 0 <= now - t.tapDown <= TAP_MAX_MS && !(t.armed && 0 <= now - t.lastTapUp <= DTAP_GAP_MS)
    ensures r.0.armed <==> r.1 == SingleTap
    ensures r.1 == SingleTap ==> r.0.lastTapUp == now
    ensures r.1 != SingleTap ==> r.0.lastTapUp == 0
  {
    var dur := now - t.tapDown;
    if t.pendingShutter && 0 <= dur <= TAP_MAX_MS then
      var gap := now - t.lastTapUp;
      if t.armed && 0 <= gap <= DTAP_GAP_MS then
        (Taps(t.tapDown, 0, false, false), DoubleTap)
      else
        (Taps(t.tapDown, now, true, false), SingleTap)
    else
      (Taps(t.tapDown, 0, false, false), NotATap)
  }

  /** The gesture part of one normal-mode pass: the edge, then the hold check
      (`pressed` is the raw switch read, `active` whether the shutter runs),
      then the expiry of an armed tap. Returns the new state, what a release
      meant, and whether the shutter is to start now. */
  function NormalTick(t: Taps, now: nat, edge: Edge, pressed: bool, active: bool): (r: (Taps, Outcome, bool))
    ensures r.2 <==> var t1 := (if edge == PressEdge then Press(t, now) else if edge == ReleaseEdge then Release(t, now).0 else t);
                     t1.pendingShutter && pressed && !active && now - t1.tapDown > TAP_MAX_MS
    ensures r.2 ==> !r.0.pendingShutter && edge == NoEdge
    ensures (r.1 == NoRelease) <==> edge != ReleaseEdge
    ensures edge == ReleaseEdge ==> r.1 == Release(t, now).1
    ensures r.0.armed ==> now - r.0.lastTapUp <= DTAP_GAP_MS
  {
    var (t1, out) :=
      match edge
      case PressEdge => (Press(t, now), NoRelease)
      case ReleaseEdge => Release(t, now)
      case NoEdge => (t, NoRelease);
    var start := t1.pendingShutter && pressed && !active && now - t1.tapDown > TAP_MAX_MS;
    var t2 := if start then t1.(pendingShutter := false) else t1;
    var t3 := if t2.armed && now - t2.lastTapUp > DTAP_GAP_MS then t2.(armed := false) else t2;
    (t3, out, start)
  }

  /** A pass with no edge changes nothing while the press is still short
      enough to be a tap and an armed tap has not yet expired. */
  lemma QuietTickKeepsGesture(t: Taps, now: nat, pressed: bool, active: bool)
    requires t.pendingShutter ==> now - t.tapDown <= TAP_MAX_MS
    requires t.armed ==> now - t.lastTapUp <= DTAP_GAP_MS
    ensures NormalTick(t, now, NoEdge, pressed, active) == (t, NoRelease, false)
  {
  }

  /** Two taps of at most TAP_MAX_MS each, whose releases are at most
      DTAP_GAP_MS apart, starting from a state with no armed tap: the first
      release arms, the second is the double tap and disarms; the shutter is
      never started. (Passes without edges in between change nothing, by
      QuietTickKeepsGesture.) */
  lemma QuickDoubleTap(t0: Taps, p1: nat, r1: nat, p2: nat, r2: nat)
    requires !t0.armed
    requires p1 <= r1 <= p2 <= r2
    requires r1 - p1 <= TAP_MAX_MS && r2 - p2 <= TAP_MAX_MS && r2 - r1 <= DTAP_GAP_MS
    ensures var (t1, o1, s1) := NormalTick(t0, p1, PressEdge, true, false);
            var (t2, o2, s2) := NormalTick(t1, r1, ReleaseEdge, false, false);
            var (t3, o3, s3) := NormalTick(t2, p2, PressEdge, true, false);
            var (t4, o4, s4) := NormalTick(t3, r2, ReleaseEdge, false, false);
            && o2 == SingleTap && t2.armed && t3.armed
            && o4 == DoubleTap && !t4.armed
            && !s1 && !s2 && !s3 && !s4
  {
    var (t1, o1, s1) := NormalTick(t0, p1, PressEdge, true, false);
    assert t1.pendingShutter && t1.tapDown == p1 && !t1.armed;
    var (t2, o2, s2) := NormalTick(t1, r1, ReleaseEdge, false, false);
    assert o2 == SingleTap;
    assert t2.armed && t2.lastTapUp == r1;
    var (t3, o3, s3) := NormalTick(t2, p2, PressEdge, true, false);
    assert t3.armed && t3.lastTapUp == r1 && t3.tapDown == p2 && t3.pendingShutter;
  }

  /** A press held past TAP_MAX_MS is never a tap: its release disarms. */
  lemma LongPressIsNotATap(t: Taps, now: nat)
    requires now - t.tapDown > TAP_MAX_MS
    ensures Release(t, now).1 == NotATap && !Release(t, now).0.armed
  {
  }
}
